=== FILE: README.md ===
# Refl routing kernel and Locflow helpers, modelled in Dafny

Refl is a Node.js web framework. Its HTTP core has four parts:

- a **dispatcher** that keeps an ordered table of routes (method, `:param` path pattern, handler) and hands a connection to the first route whose method and pattern fit;
- named middleware **pipelines** whose steps `(conn, next)` run one after another in front of a handler;
- a **router** that owns the pipelines and the dispatcher;
- **scopes** that carry a path prefix to nested groups of routes.

Around that core sit:

- the app objects: the app, its controllers, the registry of entry scripts and the initializer of apps by name;
- the connection helpers;
- the browser-side Locflow library:
  - a route table with `onVisit`/`onLeave` callbacks;
  - a key-value cache with timed expiry;
  - the query-string codecs;
  - the `Url` class;
  - the object and HTML helpers.

The PHP package contributes one helper, `Form::guessInputType`.

The model has one Dafny module per source file:

| module | source file |
|---|---|
| `Dispatchers` | `dispatcher.js` |
| `Pipelines` | `pipeline.js` |
| `Routers` | `router.js` |
| `Scopes` | `scope.js` |
| `Conns` | `conn.js` |
| `Controllers` | `controller.js` |
| `Apps` | `app.js` |
| `Registries` | `registry.js` |
| `Initializers` | `initializer.js` |
| `Locflows` | `locflow.js` |
| `Caches` | `cache.js` |
| `Encoding` | `encoding.js` |
| `Urls` | `url.js` |
| `Utils` | `utils.js` |
| `Forms` | `Form.php` |

Four modules are shared:

- **`JsValues`**: JavaScript values, and plain objects as ordered field lists. A JavaScript object lists its keys in insertion order.
- **`PathPatterns`**: the `:param` path patterns. Both the dispatcher and `Url.match` turn these into regular expressions. Here they become token lists, with a matcher proved sound and complete against a relational reading of the regular expression.
- **`Strings`**: the string built-ins the source calls.
- **`Wrappers`**: `Option` and `Result`.

The modelling follows each file's form:

- Objects whose fields the source updates become classes with `modifies` clauses. These are the dispatcher, router, scope, controller, app, registry, initializer, cache, Locflow route table, `Url` and mock response.
- The module-level state of `registry.js`, `initializer.js`, `cache.js` and `locflow.js` becomes the fields of one instance.
- `forEach` loops become `while` loops. Each is proved against a specification function, with the promised properties proved as lemmas about that function.
- A thrown error becomes a `Failure` with the source's message.

Three points of the code shape the model:

- **Pipelines** run their steps by passing callbacks (`invoke`/`wrap`); no promises are involved.
- **Path parameters** are stored as `pathParams` and are not merged into the query parameters, although the test at `Refl/tests/http/dispatcher_test.js:71-77` expects them in `params`.
- **Reset and 404**: `Dispatcher` defines no `reset`, and `Conn.build404` is not defined, although the tests at `Refl/tests/http/dispatcher_test.js:96-113` expect both. Both appear under "Findings".

## Model

| member | source | states |
|---|---|---|
| PathPatterns.RenderTokenize | Refl/src/http/dispatcher.js:11-21 | tokenizing a path pattern loses nothing: the tokens spell the pattern back |
| PathPatterns.TokenizeWellFormed | Refl/src/http/dispatcher.js:12-18 | every `:name` the scan finds has a non-empty name without `/` and ends at a `/` or at the end, so each `replace` puts its group exactly at its own parameter |
| PathPatterns.MatchTokens | Refl/src/http/dispatcher.js:72-79 | a successful match yields exactly one capture per parameter name |
| PathPatterns.MatchSound | Refl/src/http/dispatcher.js:11-21 | every match the matcher finds is accepted by the generated `^...$` expression, with those captures |
| PathPatterns.MatchComplete | Refl/src/http/dispatcher.js:11-21 | whenever the generated expression accepts a path, it does so in one way only, and the matcher finds that way |
| PathPatterns.LiteralMatch | Refl/src/http/dispatcher.js:13-14 | a pattern without parameters matches exactly the path it spells, with no captures (both directions) |
| PathPatterns.BindingsGet | Refl/src/http/dispatcher.js:78-80 | after `params[name] = caps[index]` in order, a name reads the capture of its last occurrence |
| PathPatterns.BindingsKeys | Locflow/src/url.js:142-147 | the parameter object has exactly the parameter names as keys, each once |
| PathPatterns.BindParams | Refl/src/http/dispatcher.js:76-81 | the loop builds the object of names and captures: exactly those keys, and each name that is not repeated later reads its own capture |
| PathPatterns.BindingsFacts | Refl/src/http/dispatcher.js:76-81 | the facts `BindParams` promises, stated for the specification function |
| PathPatterns.Lits | Refl/src/http/dispatcher.js:12-14 | text read as literals gives one token per character |
| PathPatterns.TokenizeLiteralPrefix | Refl/src/http/dispatcher.js:12 | text without `:` is all literals, whatever follows it |
| PathPatterns.MatchLiteralPrefix | Refl/src/http/dispatcher.js:19 | literal tokens consume exactly their own text and leave the rest of the match unchanged |
| PathPatterns.ParamToken | Refl/src/http/dispatcher.js:12 | `:name` alone is one parameter token carrying `name` |
| PathPatterns.MatchParamToken | Refl/src/http/dispatcher.js:17 | `([^\/]+)` captures a value exactly when it is non-empty and has no `/` |
| PathPatterns.TrailingParam | Refl/src/http/dispatcher.js:11-21 | `/users/:id` matches `/users/` followed by a non-empty value without `/`, capturing it, and rejects every other path that starts with `/users/` |
| Dispatchers.FirstFromTakes | Refl/src/http/dispatcher.js:71-74 | the route `find` returns takes the request and no earlier route does; `None` exactly when no route takes it |
| Dispatchers.FirstTakes | Refl/src/http/dispatcher.js:71-74 | the same, for the search from the first route |
| Dispatchers.FirstFromSnoc | Refl/src/http/dispatcher.js:60-74 | a route added later is reached only by requests that no earlier route takes |
| Dispatchers.RoutedParams | Refl/src/http/dispatcher.js:75-83 | the handler receives `pathParams` with exactly the route's parameter names, each bound to the text its group captured |
| Dispatchers.LiteralRoute | Refl/src/http/dispatcher.js:11-14 | a route without parameters takes a request exactly when the method is equal and the path is the route's own path |
| Dispatchers.LitsNames | Refl/src/http/dispatcher.js:23-27 | text without parameters has no named parameters |
| Dispatchers.ParamNamesLits | Refl/src/http/dispatcher.js:23-32 | literal text in front of a pattern adds no parameter names |
| Dispatchers.TrailingParamRegistered | Refl/src/http/dispatcher.js:49-66 | `match` on `/users/:id` records the literals, then one parameter, with named parameters `[id]` |
| Dispatchers.TrailingParamRoute | Refl/src/http/dispatcher.js:69-83 | dispatching `/users/10` through that single route calls its handler with `pathParams` `{id: '10'}` |
| Dispatchers.NoRouteFound | Refl/src/http/dispatcher.js:84-86 | with no routes the intended dispatch ends in 404 "route not found", while the code as written throws, because `Conn.build404` is not defined |
| Dispatchers.Dispatcher.constructor | Refl/src/http/dispatcher.js:41-44 | a new dispatcher has no routes |
| Dispatchers.Dispatcher.Match | Refl/src/http/dispatcher.js:49-67 | it records the normalized route at the end and returns the new count; it throws, leaving the routes unchanged, exactly when a parameter name repeats |
| Dispatchers.Dispatcher.Find | Refl/src/http/dispatcher.js:71-74 | `routes.find` returns the first route that takes the request |
| Dispatchers.Dispatcher.Dispatch | Refl/src/http/dispatcher.js:69-87 | the intended dispatch: the first route that takes the request is called with its path parameters; otherwise 404 "route not found" |
| Dispatchers.Dispatcher.DispatchAsWritten | Refl/src/http/dispatcher.js:69-87 | dispatch as written: the same when a route is found, and a TypeError otherwise |
| Dispatchers.Dispatcher.Deliver | Refl/src/http/dispatcher.js:75-86 | the found route's handler is called on the connection carrying its `pathParams`; when there is none, the given not-found outcome |
| Dispatchers.Dispatcher.Reset | Refl/src/http/router.js:40 | the `reset` the router calls: every route is dropped |
| Pipelines.Pipeline.IsValid | Refl/src/http/pipeline.js:15-17 | valid exactly when every step is a function; a pipeline without steps is valid |
| Pipelines.Pipeline.Invoke | Refl/src/http/pipeline.js:22-33 | the `currentStep` loop gives exactly the outcome of the step chain (`Run`) |
| Pipelines.Wrap | Refl/src/http/pipeline.js:37-44 | the wrapped function threads the connection through the pipelines in order and gives the handler's result on it |
| Pipelines.RunAppend | Refl/src/http/pipeline.js:25-32 | running steps `a + b` is running `a` and then, if a connection comes out, running `b` on it |
| Pipelines.ValidNeverThrows | Refl/src/http/pipeline.js:15-33 | a pipeline whose steps are all functions never throws (unless it is empty and has no callback) |
| Pipelines.RunCallsNeverThrow | Refl/src/http/pipeline.js:25-31 | a chain of function steps never throws |
| Pipelines.FalsyEndsChain | Refl/src/http/pipeline.js:26-30 | a falsy step hands the connection to the callback in its place; the steps after it never run |
| Pipelines.ThreadAppend | Refl/src/http/pipeline.js:39-41 | threading `ps + qs` is threading `ps` and then `qs`; a throw ends everything |
| Pipelines.NoPipelines | Refl/src/http/pipeline.js:37-44 | with no pipelines the handler sees the connection it was given |
| Pipelines.StepsInOrder | Refl/src/http/pipeline.js:22-33 | steps run in order: `[n + 2, n * 3]` applied to 1 delivers 9 |
| Pipelines.PipelinesInOrder | Refl/src/http/pipeline.js:37-44 | pipelines run in order: `[n + 2]` then `[n * 3]` give the handler 9 for 1 |
| Routers.StoredPut | Refl/src/http/router.js:36 | registering a new valid pipeline under its name keeps every stored pipeline under its own name and valid, and makes it readable |
| Routers.DeleteNext | Refl/src/http/router.js:41-43 | deleting the keys in `for in` order drops the pipelines one at a time from the front, and the rest stay well formed |
| Routers.StoredAppend | Refl/src/http/router.js:36 | appending a new valid pipeline keeps the store well formed |
| Routers.Router.constructor | Refl/src/http/router.js:10-16 | a new router has no pipelines and a fresh, empty dispatcher |
| Routers.Router.HasPipeline | Refl/src/http/router.js:18-20 | true exactly when a pipeline is stored under the name |
| Routers.Router.Pipeline | Refl/src/http/router.js:25-37 | without steps it looks the pipeline up; with steps it throws for a taken name, then for a non-function step, and otherwise stores the pipeline; a failure changes nothing |
| Routers.Router.ResetAsWritten | Refl/src/http/router.js:39-44 | `reset` as written throws at `this.dispatcher.reset()` before any pipeline is deleted |
| Routers.Router.Reset | Refl/src/http/router.js:39-44 | intended `reset`: the dispatcher's routes and every pipeline are gone, and the router keeps the same dispatcher |
| Routers.Router.Dispatch | Refl/src/http/router.js:15 | the router's `dispatch` is its dispatcher's |
| Routers.Router.OpenScope | Refl/src/http/router.js:49-53 | the callback receives a fresh scope without a prefix |
| Scopes.Scope.constructor | Refl/src/http/scope.js:4-8 | a new scope has no prefix |
| Scopes.Scope.HasPrefix | Refl/src/http/scope.js:28-30 | true exactly when the inherited or the own part of the prefix is non-empty, so the whole prefix is not `''` |
| Scopes.Scope.Prefix | Refl/src/http/scope.js:20-26 | a falsy argument reads the whole prefix; otherwise the scope's own part is set once, and a second set throws, naming the first prefix |
| Scopes.Scope.Nest | Refl/src/http/scope.js:32-36 | the nested scope inherits the whole prefix and has no part of its own yet |
| Scopes.Scope.Group | Refl/src/http/scope.js:37 | `group` is `nest` |
| Conns.MockResponse.constructor | Refl/src/http/conn.js:15-26 | a new mock response has no body and is not finished |
| Conns.MockResponse.End | Refl/src/http/conn.js:17-20 | a non-empty string replaces the body; the response is finished either way |
| Conns.MockResponse.Write | Refl/src/http/conn.js:21-23 | the written text grows by exactly the argument |
| Conns.BuildConn | Refl/src/http/conn.js:43-53 | the connection carries the request's method, its url's path and the flat query object |
| Conns.MockConn | Refl/src/http/conn.js:28-30 | a connection over a mock request and a fresh, empty mock response |
| Conns.ParsePathQuery | Refl/src/http/conn.js:44-50 | a url made of an absolute path and a query parses to that path and that query |
| Conns.ConnOfPathAndQuery | Refl/src/http/conn.js:43-53 | a request for `path?` followed by an encoded flat object gives back that path and that object as `query` |
| Controllers.FirstReserved | Refl/src/http/controller.js:23-25 | the key the constructor throws at is a reserved name among the keys; `None` exactly when no key is reserved |
| Controllers.Controller.constructor | Refl/src/http/controller.js:19-22 | the controller keeps its app, name and actions |
| Controllers.Controller.Member | Refl/src/http/controller.js:21-28 | `_name` reads the name and `_app` the app itself; any other key reads the route field copied under it, present exactly when the routes had that key |
| Controllers.NewController | Refl/src/http/controller.js:19-30 | it throws "reserved route name" at the first reserved key; otherwise the controller holds the routes' fields in key order |
| Controllers.ActionsOfRoutes | Refl/src/http/controller.js:23-29 | a controller's actions are exactly the routes' fields, and no route is named `_name` or `_app` |
| Apps.App.constructor | Refl/src/app/app.js:11-15 | a new app has its name, no controllers and a fresh router bound to it |
| Apps.App.Load | Refl/src/app/app.js:21-30 | the script is recorded as the entry script and in the registry before the export check, which throws unless the export is a function |
| Apps.App.Controller | Refl/src/app/app.js:47-55 | with options it registers (replacing) a controller built from them, or throws for a reserved name without registering; without options it looks the controller up |
| Apps.App.Action | Refl/src/app/app.js:67-80 | the key is split at `@` or `#`; each error message in order (not two parts, unknown controller, missing or falsy member); otherwise the member, which for `_app` is the app object |
| Apps.ActionKeyShape | Refl/src/app/app.js:68-69 | a key has two parts exactly when it holds exactly one separator |
| Apps.ActionKeyParts | Refl/src/app/app.js:57-68 | `Controller@action` and `Controller#action` split into the controller and the action |
| Registries.Registry.constructor | Refl/src/app/registry.js:9 | no entry scripts at start |
| Registries.Registry.AddEntryScript | Refl/src/app/registry.js:11-13 | the script is mapped to the app |
| Registries.Registry.GetEntryScripts | Refl/src/app/registry.js:15-17 | the whole script-to-app object |
| Registries.Registry.CountEntries | Refl/src/app/registry.js:19-21 | the number of keys |
| Registries.Registry.GetApp | Refl/src/app/registry.js:23-25 | the app registered for the script, if any |
| Registries.AddThenLookUp | Refl/src/app/registry.js:11-25 | after registering, `getApp` answers the new app, every other script is unchanged, and the count grows by one exactly when the script is new |
| Initializers.AppsOf | Refl/src/app/initializer.js:38-45 | the apps of the name-to-app object, in key order |
| Initializers.Initializer.constructor | Refl/src/app/initializer.js:9 | no apps at start |
| Initializers.Initializer.InitializeApp | Refl/src/app/initializer.js:20-28 | a taken name throws and changes nothing; otherwise a fresh app under that name is recorded |
| Initializers.Initializer.GetApp | Refl/src/app/initializer.js:30-32 | the app started under the name, if any |
| Initializers.Initializer.ClearAllApps | Refl/src/app/initializer.js:37-47 | every app is removed, and the apps are closed in key order |
| Initializers.ClearStep | Refl/src/app/initializer.js:38-44 | one round of the loop: the next key is the first remaining one; deleting it leaves the rest and closes its app next |
| Initializers.NamesTaken | Refl/src/app/initializer.js:20-26 | after `initializeApp` the name is taken and other names are unaffected |
| Caches.PutKeepsOwners | Refl/src/locflow/cache.js:29-38 | writing a record keeps the cache consistent when the only timer for its key is the new record's own |
| Caches.SetConsistent | Refl/src/locflow/cache.js:23-38 | `set` keeps every pending timer belonging to the record it will expire |
| Caches.SetGet | Refl/src/locflow/cache.js:29-38 | after `set(key, value)`, `key` reads the new record (creation time, timer if a timeout was given) and every other key is unchanged |
| Caches.SetAllGet | Refl/src/locflow/cache.js:15-21 | after `set(object)`, every key of the object reads its value and every other key is unchanged |
| Caches.SetAllConsistent | Refl/src/locflow/cache.js:15-21 | `set(object)` keeps the cache consistent |
| Caches.ExpireConsistent | Refl/src/locflow/cache.js:70-72 | intended `expire` keeps the cache consistent |
| Caches.ExpireRemoves | Refl/src/locflow/cache.js:70-72 | `expire` removes the key, keeps every other key, and changes nothing for a key not stored, both as written and as intended |
| Caches.FireConsistent | Refl/src/locflow/cache.js:35-37 | a firing timer belongs to the record it expires, which is then gone, and the cache stays consistent |
| Caches.NoTimeoutNoTimer | Refl/src/locflow/cache.js:34-38 | a record stored without a timeout is no pending timer's target |
| Caches.StaleTimerDeletesNewValue | Refl/src/locflow/cache.js:70-72 | as written, after `set(k, a, {timeout})`, `expire(k)` and `set(k, b)`, the old timer is still pending and its firing deletes `b` |
| Caches.ExpireCancelsTimer | Refl/src/locflow/cache.js:70-72 | with the intended `expire`, the same calls leave no timer for `k`, and the cache stays consistent |
| Caches.UpdateClearsTimer | Refl/src/locflow/cache.js:23-27 | setting a key again clears the timer of the value it replaces |
| Caches.NamespacedGet | Refl/src/locflow/cache.js:53-64 | `getAll(ns)` holds, under each name, the value of key `ns.name`, and nothing else |
| Caches.NamespacedStep | Refl/src/locflow/cache.js:57-62 | one round of the `getAll` loop |
| Caches.DistinctGet | Refl/src/locflow/cache.js:49 | when keys are distinct, every stored field is what its key reads |
| Caches.Cache.constructor | Refl/src/locflow/cache.js:5 | the cache starts empty and consistent, with no timers |
| Caches.Cache.Set | Refl/src/locflow/cache.js:11-41 | the new state is `AfterSet` (the old timer cleared, the record written, a timer scheduled for a truthy timeout); keys stay distinct, a consistent cache stays consistent, and the record returned holds the value and the time |
| Caches.Cache.SetAll | Refl/src/locflow/cache.js:15-21 | the fields are set in key order; a consistent cache stays consistent |
| Caches.Cache.GetRecord | Refl/src/locflow/cache.js:48-51 | the stored record, if any |
| Caches.Cache.Lookup | Refl/src/locflow/cache.js:43-46 | the stored value exactly when the key is stored |
| Caches.Cache.Has | Refl/src/locflow/cache.js:66-68 | true exactly when a value is stored and it is neither `null` nor `undefined` |
| Caches.Cache.GetAll | Refl/src/locflow/cache.js:53-64 | the loop builds the namespaced object, in any state with one record per key (stale timers included) |
| Caches.Cache.ExpireAsWritten | Refl/src/locflow/cache.js:70-72 | the record is deleted and its timer stays pending; callable in every state the written code reaches, stale timers included, and keys stay distinct |
| Caches.Cache.Expire | Refl/src/locflow/cache.js:70-72 | intended: the record is deleted and its timer is cleared; a consistent cache stays consistent |
| Caches.Cache.Fire | Refl/src/locflow/cache.js:35-37 | a timer fires: it is no longer pending and its key is expired as intended; a consistent cache stays consistent |
| Caches.Cache.FireAsWritten | Refl/src/locflow/cache.js:35-37 | a timer fires and the written `expire` deletes its key, whatever record the key now holds |
| Locflows.PlainPathKey | Refl/src/locflow/locflow.js:61 | a plain absolute path is its own route key |
| Locflows.RegisteredGet | Refl/src/locflow/locflow.js:54-60 | after `when([paths])` every given path reads the new callbacks and every other key keeps its route |
| Locflows.VisitOrder | Refl/src/locflow/locflow.js:72-79 | a visit calls the current route's `onLeave` (only if there is one), then the target's `onVisit`, with the new path; the target is the registered route, or else the default |
| Locflows.LeaveAfterVisit | Refl/src/locflow/locflow.js:53-79 | after `when(p, v, l)` and `visit(p)`, `v` was called last and the next visit first calls `l` |
| Locflows.DefaultHandlerApplies | Refl/src/locflow/locflow.js:45-48 | the default route is shared: a later `setDefaultHandler` decides which `onLeave` the next visit calls |
| Locflows.Locflow.constructor | Refl/src/locflow/locflow.js:12-23 | no routes, the logging default route, no current route |
| Locflows.Locflow.ClearRoutes | Refl/src/locflow/locflow.js:30-32 | no path has a route, and nothing else changes |
| Locflows.Locflow.GetRoute | Refl/src/locflow/locflow.js:34-36 | the route stored under the path as given, if any |
| Locflows.Locflow.HasRoute | Refl/src/locflow/locflow.js:41-43 | true exactly when a route is stored under the path as given |
| Locflows.Locflow.SetDefaultHandler | Refl/src/locflow/locflow.js:45-48 | only the default route's callbacks change |
| Locflows.Locflow.When | Refl/src/locflow/locflow.js:53-66 | one path is registered under its url path, and that route is returned; an array registers each path in turn; an empty array throws and changes nothing |
| Locflows.Locflow.Visit | Refl/src/locflow/locflow.js:72-79 | the calls are exactly `VisitCalls`, then the visited route is current; the table and the default route are unchanged |
| Forms.SuffixesExclusive | src/Form.php:20-34 | no field name ends in suffixes of two different groups, so the order of the checks does not matter |
| Forms.GuessInputType | src/Form.php:20-34 | one of the four constants, each returned exactly when its own suffixes match (`_at`/`_date`, `_html`, `_number`/`_count`, none) |
| Forms.SuffixDecides | src/Form.php:20-34 | any name followed by a known suffix gets that suffix's type |
| Encoding.StripArraySuffix | Refl/src/locflow/encoding.js:26-28 | a trailing `[]` is removed, and only that |
| Encoding.ParsePart | Refl/src/locflow/encoding.js:21-28 | a part is used exactly when it holds one `=`, and its key (without `[]`) and value then rebuild it |
| Encoding.ReadPart | Refl/src/locflow/encoding.js:21-28 | the split, the two-piece check and the `[]` strip give `ParsePart` |
| Encoding.FlatDecode | Refl/src/locflow/encoding.js:15-42 | the `forEach` loop computes the flat decoding |
| Encoding.CollapseSnoc | Refl/src/locflow/encoding.js:30-39 | the array-or-replace rule adds one value at a time to what the key holds |
| Encoding.FlatStepGet | Refl/src/locflow/encoding.js:20-40 | one part changes only its own key |
| Encoding.FlatFoldValues | Refl/src/locflow/encoding.js:15-42 | each key holds what its values, in query order, collapse to: one string, or an array starting at the first non-empty value |
| Encoding.FlatDecodeValues | Refl/src/locflow/encoding.js:15-42 | the same, for a whole query |
| Encoding.FlatFoldKeys | Refl/src/locflow/encoding.js:15-42 | the keys are those the query names, each once, in order of first appearance |
| Encoding.KeyPath | Refl/src/locflow/encoding.js:65-67 | a key gives at least one path step |
| Encoding.KeyPathPlain | Refl/src/locflow/encoding.js:65-67 | a key without brackets is a single step |
| Encoding.Insert | Refl/src/locflow/encoding.js:68-85 | a successful write keeps every key and adds the first step's; walking through a non-empty string throws |
| Encoding.InsertAt | Refl/src/locflow/encoding.js:68-85 | the same walk from an object or an array: a successful write keeps the container's kind, and on an object keeps every key and adds the first step's |
| Encoding.IndexText | Refl/src/locflow/encoding.js:70-71 | every element position below 2^32 - 1 has one index key, its decimal text, and that key names it: `objRef['0']` on an array is its first element |
| Encoding.MemberSet | Refl/src/locflow/encoding.js:70-84 | `c[k] = x` makes an object's key or an array's index read `x`, past the end of an array too, and leaves every other key reading as before |
| Encoding.InsertIntoElement | Refl/src/locflow/encoding.js:70-84 | below an array an index key names the element: at the end of the path `AddValue` joins the value to it, and a non-empty string there throws when the path goes on |
| Encoding.ArrayIndexExamples | Refl/src/locflow/encoding.js:68-85 | on `{a: ['x', 'y']}`, `a[0]=z` gives `[['x', 'z'], 'y']`, `a[2]=z` gives `['x', 'y', 'z']`, and `a[0][b]=z` throws |
| Encoding.NestedDecode | Refl/src/locflow/encoding.js:50-88 | the loop computes the nested decoding, with `Failure` for the TypeError |
| Encoding.InsertSucceeds | Refl/src/locflow/encoding.js:68-85 | the walk throws exactly when a step that is present and truthy is a primitive, such as a non-empty string, whether it is an object's field or an array's element |
| Encoding.InsertWrites | Refl/src/locflow/encoding.js:68-85 | when every present, truthy step is an object or an array, and every key below an array is an index, the write succeeds and the path then reads `AddValue` of what it held: nothing after a missing or falsy step, which becomes `{}`; a string is replaced or joined into an array |
| Encoding.InsertFrame | Refl/src/locflow/encoding.js:68-85 | such a write changes no path that leaves its own: sibling fields and sibling elements at every level keep their values |
| Encoding.InsertUnderArray | Refl/src/locflow/encoding.js:68-85 | below an array a key that is not an index names a property of the array that no listing sees: the value is as before (encoding_test.js:155-161) |
| Encoding.InsertFresh | Refl/src/locflow/encoding.js:68-85 | into `{}` the walk builds the chain of one-field objects the path names, index keys included, with the value at its end |
| Encoding.KeyPathOfBrackets | Refl/src/locflow/encoding.js:65-67 | `a[b][c]` gives the path `a`, `b`, `c` when no segment holds a bracket |
| Encoding.NestedPartWrites | Refl/src/locflow/encoding.js:54-86 | each `key=value` part writes its value at the key's bracket path and leaves every path that leaves it unchanged |
| Encoding.NestedDecodeSinglePart | Refl/src/locflow/encoding.js:50-88 | a one-part query `key=value` decodes to the value inserted at the key's path into `{}` |
| Encoding.NestedDecodeOne | Refl/src/locflow/encoding.js:50-88 | `a[b][c]=v` decodes to an object holding `v` at `a`, `b`, `c` |
| Encoding.NestedDecodeNestedExample | Locflow/tests/encoding_test.js:123-132 | `post[author][name]=Luiz` decodes to `{post: {author: {name: 'Luiz'}}}` |
| Encoding.NestedFoldStep | Refl/src/locflow/encoding.js:54-86 | the parts are handled one at a time, in order |
| Encoding.NestedAdvance | Refl/src/locflow/encoding.js:54-86 | a malformed part changes nothing; a well-formed one is inserted at its key path |
| Encoding.NestedFailed | Refl/src/locflow/encoding.js:54-86 | once a part has thrown, the whole decoding has thrown |
| Encoding.NestedAgreesWithFlat | Refl/src/locflow/encoding.js:50-88 | without brackets in the query, the nested decoder gives what the flat one gives |
| Encoding.FoldsAgree | Refl/src/locflow/encoding.js:54-86 | the same, part by part |
| Encoding.FieldTextsAt | Refl/src/locflow/encoding.js:108-115 | an object's field `j` is written under `key[field]` |
| Encoding.TopTextsAt | Refl/src/locflow/encoding.js:128-132 | the top-level field `i` is written under its own key |
| Encoding.JoinStep | Refl/src/locflow/encoding.js:128-132 | appending a piece and `&` unless it is the last one joins the pieces with `&` |
| Encoding.JoinAdvance | Refl/src/locflow/encoding.js:128-132 | the invariant of the `forEach` loops after one more piece |
| Encoding.EncodeValue | Refl/src/locflow/encoding.js:107-126 | `valueString` computes `ValueText`: fields under `key[field]`, array items as `key[]=item`, anything else as `key=value` |
| Encoding.EncodeFields | Refl/src/locflow/encoding.js:108-115 | the object branch joins the field texts with `&` |
| Encoding.EncodeItems | Refl/src/locflow/encoding.js:116-122 | the array branch joins the item texts with `&` |
| Encoding.Encode | Refl/src/locflow/encoding.js:103-134 | `encodeJsonToQueryString` joins the field texts with `&` |
| Encoding.PlainPart | Refl/src/locflow/encoding.js:21-24 | a plain `k=v` parses back to `k` and `v` |
| Encoding.FlatFoldPlain | Refl/src/locflow/encoding.js:15-42 | decoding the field texts of a plain flat object gives the object back |
| Encoding.FlatPlainStep | Refl/src/locflow/encoding.js:20-39 | one plain field appends itself to an object without that key |
| Encoding.FlatRoundTrip | Refl/src/locflow/encoding.js:15-134 | flat decoding of the encoding of a plain flat object gives it back; the text is empty exactly for `{}` and holds no `?` |
| Urls.ProtocolSpanAsWritten | Locflow/src/url.js:58 | the protocol group as written takes 0, 4 (`file`), 7 or 8 characters |
| Urls.ProtocolSpan | Locflow/src/url.js:58 | the intended group takes 0, `file://` (7), `http://` (7) or `https://` (8) |
| Urls.GroupsShape | Locflow/src/url.js:58 | the four groups make up the rest of the url, and each keeps to its character class |
| Urls.SplitHostText | Locflow/src/url.js:67-71 | `host:port` splits back into the host and the port |
| Urls.PartsShape | Locflow/src/url.js:57-71 | each parsed part keeps to its class: no `/?#:` in domain and port; the path starts with `/`, the query with `?`, the hash with `#` |
| Urls.BareFileProtocol | Locflow/src/url.js:58-61 | as written, `files/a` gets protocol `file` with no `://` following; corrected, it gets none |
| Urls.ProtocolFollowedBySlashes | Locflow/src/url.js:58-61 | corrected, a protocol is read only when it and `://` begin the url, and it is `file`, `http` or `https` |
| Urls.GroupsOf | Locflow/src/url.js:58-65 | a url assembled from parts that each keep to their group is read back as those parts |
| Urls.ParseAbsolute | Locflow/src/url.js:57-75 | `scheme://host[:port]path?query#hash` parses to exactly those six parts |
| Urls.SchemeSpan | Locflow/src/url.js:58 | the corrected group takes the scheme and its `://` |
| Urls.ParseRelative | Locflow/src/url.js:57-75 | a url starting with `/` has no protocol, domain or port, and is its path, query and hash |
| Urls.AbsoluteRoundTrip | Locflow/src/url.js:82-88 | an absolute url with a host and a path prints back unchanged, whatever the current page |
| Urls.TextOfParts | Locflow/src/url.js:82-88 | how a url with protocol, domain and path prints |
| Urls.RelativeText | Locflow/src/url.js:82-88 | a path-only url prints with the current page's protocol and host in front |
| Urls.QueryRoundTrip | Locflow/src/url.js:111-124 | `setQueryObject` then `queryObject()` gives a plain flat object back |
| Urls.AsWrittenAgrees | Locflow/src/url.js:58 | on every url that does not begin with `file` (in any case), the written and the corrected patterns read the same six parts |
| Urls.Url.constructor | Locflow/src/url.js:57-75 | a url from a string holds the parts of the corrected reading `Parse` |
| Urls.Url.Copy | Locflow/src/url.js:29-36 | a url from a url copies every part |
| Urls.Url.WithoutHash | Locflow/src/url.js:95-99 | a fresh url equal to this one except for an empty hash |
| Urls.Url.QueryObject | Locflow/src/url.js:111-114 | the query decoded flat or nested |
| Urls.Url.SetQueryObject | Locflow/src/url.js:121-124 | only the query changes, to `?` plus the encoding; it returns `this` |
| Urls.Url.Match | Locflow/src/url.js:132-150 | truthy exactly when the other path fits the pattern; without parameters, path equality; with them, the object of the names bound to their captures exactly when the path fits, and `false` otherwise |
| Utils.TagsExclusive | Refl/src/locflow/utils.js:33-49 | no value is two of array, string and object; primitives and built-ins are none |
| Utils.MergedFields | Refl/src/locflow/utils.js:6-11 | the merge holds each key once, has exactly the keys of both arguments, and `first` wins |
| Utils.PutAllTwice | Refl/src/locflow/utils.js:8-9 | the same facts, for two successive copies |
| Utils.MergeObjects | Refl/src/locflow/utils.js:6-11 | the two `for in` loops build the merged object |
| Utils.FindFromSpec | Refl/src/locflow/utils.js:56 | the case-insensitive search returns a match with none before it, or `None` when there is no match |
| Utils.FindFromFirst | Refl/src/locflow/utils.js:56 | the search stops at the first match |
| Utils.ExtractBody | Refl/src/locflow/utils.js:55-61 | the extracted text is never longer than the document |
| Utils.ExtractHasNoClose | Refl/src/locflow/utils.js:55-61 | the extracted text never holds `</body>` (in any case) |
| Utils.NoBodyTag | Refl/src/locflow/utils.js:55-61 | without `<body` the result is `""` |
| Utils.ExtractWrapped | Refl/src/locflow/utils.js:55-61 | `<body attrs>content</body>` gives back `content` when `content` holds no `</body>` |
| Utils.ExtractAt | Refl/src/locflow/utils.js:55-61 | the text between the first `>` after the first `<body` and the next `</body>` |
| JsValues.Keys | Refl/src/http/controller.js:23 | `Object.keys` lists the keys in field order |
| JsValues.Get | Refl/src/locflow/cache.js:49 | `o[k]` is defined exactly when `k` is a key, and then it is that field's value |
| JsValues.Put | Refl/src/app/registry.js:12 | `o[k] = v` keeps the key order and appends a new key at the end |
| JsValues.GetPut | Refl/src/app/registry.js:12 | after `o[k] = v`, `k` reads `v` and every other key is unchanged |
| JsValues.KeysPut | Refl/src/app/registry.js:12 | the keys after a write are unchanged, or one new key at the end |
| JsValues.Delete | Refl/src/locflow/cache.js:71 | `delete o[k]` removes `k` and keeps every other key |
| JsValues.DeleteAbsent | Refl/src/locflow/cache.js:71 | deleting a missing key changes nothing |
| JsValues.DeleteFirst | Refl/src/http/router.js:41-43 | deleting keys in `for in` order removes the fields one by one from the front |
| JsValues.GetPutAll | Refl/src/locflow/utils.js:8-9 | after copying `f` into `o`, `f`'s keys hold its values and the other keys keep `o`'s |
| JsValues.KeysPutAll | Refl/src/locflow/utils.js:8-9 | the copied object has exactly the keys of both, each once |
| JsValues.PutAllStep | Refl/src/locflow/utils.js:8-9 | one round of a `for in` copy |
| JsValues.GetPutAllLast | Refl/src/http/controller.js:23-29 | when fields repeat a key, the last write wins |
| JsValues.PutNew | Refl/src/http/router.js:36 | writing a new key appends it |
| JsValues.PutPut | Refl/src/locflow/cache.js:29 | a second write to a key replaces the first |
| JsValues.PutDistinct | Refl/src/http/router.js:36 | a write never duplicates a key |
| Strings.Split | Refl/src/app/app.js:68 | `split` gives at least one piece, and no piece holds a separator |
| Strings.SplitCount | Refl/src/app/app.js:68-69 | there is one more piece than there are separators |
| Strings.SplitPair | Refl/src/app/app.js:68-70 | `a@b` splits into `a` and `b` |
| Strings.SplitJoin | Refl/src/app/app.js:68 | splitting a join of separator-free pieces gives the pieces back |
| Strings.JoinSplit | Refl/src/app/app.js:68 | joining the pieces of a split gives the string back |
| Strings.UniqShorterIffRepeats | Refl/src/http/dispatcher.js:56 | `_.uniq(s).length < s.length` exactly when `s` repeats an element; `uniq` keeps every element |
| Strings.RemoveFirst | Refl/src/locflow/encoding.js:66 | `replace` of one character removes one character when it occurs, and otherwise nothing |
| Strings.Span | Locflow/src/url.js:58 | a greedy `[^...]*` takes the longest prefix without a stop |
| Strings.LowerAll | Locflow/src/url.js:58 | `/i` compares characters after lower-casing each one |

## Left out

- The clock and the timers of `cache.js` are state and parameters of the model. `Date.getTime()` is the `now` argument. A timer firing is the explicit `Fire` call. Real time and delays are not modelled.
- Caches.Cache.SetAll: every field gets the same `now`. The source reads the clock again for each field.
- Caches.Cache.Set: only a string key or a plain object is modelled. Other first arguments, such as a number key converted to a string, are not.
- The `timeout` option is an integer, and 0 stands for an absent or falsy option.
- Locflows.Locflow.When: array elements are paths. In the source, an element that is itself an array is handled by the recursive call; such nested arrays are not modelled.
- Callbacks are opaque values, and their calls are recorded in order. Calling a value that is not a function (a TypeError in the source) is not modelled. This holds for Locflow callbacks and for `invoke`'s callback, which is present or absent.
- `window.addEventListener('load', ...)`, `window.history.pushState` and the `ready` event are not modelled. They are browser I/O.
- `EventEmitter` behaviour of the dispatcher, router, controller, cache and Locflow objects is not modelled.
- Promises are not modelled. `dispatch` returns the handler's result. `Promise.resolve` of the 404 becomes the `NotFound` outcome. `Conn.json` and `App.initialize`/`App.close` (which start and stop the HTTP server) are not modelled. `initializeApp` returns the app instead of the promise of its start.
- `App.load` does not `require` the script. Whether the script exports a function is a parameter, and calling the entry function is not modelled.
- The `_pipelines` field of a scope is never read or written after construction, so it is not modelled.
- JavaScript's ordering of integer-like object keys before other keys is not modelled. Objects list keys in insertion order.
- The DOM helpers of `utils.js` are not modelled: `stringToElements`, `isElement`, `findElementByAttribute`, `hideElement`, `removeElement` and `extractAndUpdateTitle`.
- The `copyFromLocation` branch of the `Url` constructor (a `document.location` object) is not modelled. Neither is the `console.error` branch for an argument that is not a url or a string: the url pattern matches every string.
- `document.location.protocol` and `document.location.host` are parameters of `Url.toString`.
- Case folding in the `/i` patterns is ASCII only.
- The PHP tests call `Form::getInputType`, but the class defines `guessInputType`, which is the function modelled.
- Route handlers are functions of the connection. Their own side effects are not modelled.
- PathPatterns.MatchSound: literal characters of a pattern are read as themselves. The source pastes them unescaped into a RegExp, so a `.` accepts any character (`/a.b` takes `/axb`) and a `(` or `[` makes the RegExp constructor throw. Patterns holding RegExp metacharacters are not modelled.
- PathPatterns.MatchComplete: completeness holds for the same reading of literals, not for a RegExp built from metacharacters.
- PathPatterns.LiteralMatch: a pattern holding `.`, `*`, `+`, `?`, `(`, `[` or `\` is taken as plain text; the source's RegExp accepts other paths or throws.
- Dispatchers.LiteralRoute: with RegExp metacharacters in the path, the source's route takes more paths than its own, or `match` throws; the model reads the path as plain text.
- Urls.Url.Match: for a path with parameters, `url.js` pastes the literal parts unescaped into a RegExp in the same way; the model reads them as plain text. A path without parameters is compared as text in both.
- JsValues.Get: only an object's own fields are read. In the source, `constructor`, `toString` and the other names of `Object.prototype` also find inherited members.
- Caches.Cache.Lookup: `cache.get('constructor')` returns the inherited function in the source and nothing in the model; Caches.Cache.Has and Caches.Cache.GetRecord read keys the same way.
- Locflows.Locflow.GetRoute: `getRoute('toString')` returns the inherited function in the source and nothing in the model; Locflows.Locflow.HasRoute and Locflows.Locflow.Visit read keys the same way.
- Encoding.FlatFoldPlain: a plain key may be a name of `Object.prototype` (`constructor`, `toString`, `hasOwnProperty`, `valueOf`, `__proto__`, ...). The source's `if(obj[key])` finds the inherited member there, so `constructor=x` decodes to `{constructor: [Object, 'x']}`. The model's decoder starts from nothing, and the lemma holds for the model only.
- Encoding.FlatRoundTrip: decode after encode gives the object back in the model for every plain flat object. In the source this fails for a key named like an `Object.prototype` member: `{constructor: 'x'}` comes back as `{constructor: [Object, 'x']}`.
- Urls.QueryRoundTrip: the same gap. `setQueryObject({toString: 'x'})` then `queryObject()` gives an array under `toString` in the source.
- Conns.ConnOfPathAndQuery: the same gap for a query key named like an `Object.prototype` member.
- Initializers.Initializer.InitializeApp: a name counts as taken only when an app is recorded under it. initializer.js:21 reads `apps[appName]` on a plain object, so `initializeApp('constructor')` on an empty registry throws `app with name [constructor] already exists` in the source, and the model records a new app.
- Encoding.FlatDecode: a query such as `?constructor=x` starts from the inherited function in the source, giving an array; the model starts from nothing. Encoding.NestedDecode reads keys the same way.
- Encoding.Insert: below an array, a key that is not an index (`a[foo]`) lands on a named property of the array, which neither `Object.keys`, `forEach` nor a deep comparison of arrays sees; the model drops the write and keeps no named properties. Index keys (`a[0]`) write the element, as in the source.
- Encoding.InsertAt: because named array properties are not kept, a later part that walks through one is not seen: `a=x&a=y&a[f]=s&a[f][g]=t` throws in the source, at the write of `g` on the string `'s'`, and succeeds in the model. Array members such as `length` and `push` also read as absent; `a[length]=z` below a non-empty array throws a RangeError in the source.
- Encoding.InsertSucceeds: the throw condition is stated for the model's walk, so it misses the throw through a named array property described above.
- Encoding.InsertUnderArray: the drop it states is the model's; a write below an array at a non-index key is a named property in the source, kept there and readable by later parts.
- Encoding.NestedDecode: it inherits the two points above. An index past the end of an array leaves holes, which the model holds as `undefined` elements; a deep comparison reads both the same, but `forEach` skips a hole.
- Encoding.MemberSet: a write below a truthy built-in object (a Date, a function) is taken as a property the model does not keep; decoded objects hold only strings, arrays and objects, so decoding never meets one.
- Controllers.Controller.Member: only the controller's own properties are modelled. Members inherited from `EventEmitter` (`on`, `emit`, ...) are not.
- Apps.App.Action: `action('C@on')` returns the inherited `EventEmitter` method in the source and fails with "action [on] not found" in the model.
- Conns.BuildConn: the request's url is read with the corrected `Parse`. conn.js:44 calls the `Url` constructor, which uses the written pattern; the two differ only on urls beginning with `file`, in any letter case (`Urls.AsWrittenAgrees`). For `file://h/p` the written pattern gives the path `//h/p`, and the model gives `/p`.
- Locflows.Locflow.When: the route key is the path of the corrected `Parse`. locflow.js:61 uses the written pattern through `new Url`; the keys differ only for paths beginning with `file`, as for `Conns.BuildConn`.
- Locflows.Locflow.Visit: the key looked up is the path of the corrected `Parse`. locflow.js:73 uses the written pattern; the two differ only for paths beginning with `file`.
- Routers.Router.Dispatch: it delegates to the corrected `Dispatchers.Dispatcher.Dispatch`, which gives the 404 outcome when no route takes the request. router.js:15 binds the written `dispatch`, which throws a TypeError at dispatcher.js:85 in that case (`Dispatchers.Dispatcher.DispatchAsWritten`). When a route takes the request, the two agree.
- Urls.Url.constructor: the url is read with the corrected protocol group. `ParseAsWritten` is the code's own reading; `AsWrittenAgrees` shows that the two differ only on urls beginning with `file`.

## Findings

| source | as written | input that shows it | evidently intended | confidence | as-written member | corrected member |
|---|---|---|---|---|---|---|
| Refl/src/http/router.js:39-44 | `reset()` calls `this.dispatcher.reset()`, which `Dispatcher` does not define | any `router.reset()` throws a TypeError and deletes no pipeline | drop all routes and all pipelines | high, not executed | Routers.Router.ResetAsWritten | Routers.Router.Reset |
| Refl/src/locflow/cache.js:70-72 | `expire(key)` deletes the record but not its pending timer | `set('k', a, {timeout: 10})`, `expire('k')`, `set('k', b)`: after 10 ms the old timer deletes `b` | `expire` also clears the record's timer | high, not executed | Caches.StaleTimerDeletesNewValue | Caches.ExpireCancelsTimer |
| Locflow/src/url.js:58 | the group `(file\|http[s]?:\/\/)?` lets a bare `file` through without `://` | `new Url('files/a')` has protocol `file`, domain `s`, path `/a` | `(file\|https?):\/\/`: every protocol followed by `://` | high, not executed | Urls.BareFileProtocol | Urls.ProtocolFollowedBySlashes |
| Refl/src/http/dispatcher.js:84-86 | a request no route takes calls `Conn.build404`, which the connection helpers do not define | dispatching `GET /something` with no routes throws a TypeError | status 404 with a "route not found" failure | high, not executed | Dispatchers.NoRouteFound | Dispatchers.Dispatcher.Dispatch |

=== FILE: app.dfy ===
/** Refl's application object (Refl/src/app/app.js): a named app with its
    router and its controllers, and the lookup of an action such as
    `PostsController@index`. */
module Apps {
  import opened Wrappers
  import opened Strings
  import opened JsValues
  import opened Routers
  import opened Controllers
  import opened Registries

  /** The separators of an action key, `/[@#]/`. */
  const ActionSeparators: set<char> := {'@', '#'}

  class App {
    var name: string
    var router: Router<Value>
    /** Controllers by name, in registration order. */
    var controllers: Fields<Controller>
    /** The entry script recorded by `load`, if any. */
    var entryScript: Option<string>

    constructor (name: string)
      ensures this.name == name && controllers == [] && entryScript == None
      ensures fresh(router) && fresh(router.dispatcher) && router.app == this
      ensures router.pipelines == [] && router.dispatcher.routes == [] && router.Valid()
    {
      this.name := name;
      controllers := [];
      entryScript := None;
      router := new Router(null);
      new;
      router.app := this;
    }

    /** `load(resolvedModule)` up to the loading of the script: records the
        script as the app's entry script and in the registry, then throws
        unless what the script exports is a function (`exportsFunction`). */
    method Load(resolvedModule: string, registry: Registry, exportsFunction: bool)
      returns (error: Option<string>)
      modifies this, registry
      ensures entryScript == Some(resolvedModule)
      ensures registry.entryScripts == Put(old(registry.entryScripts), resolvedModule, this)
      ensures name == old(name) && router == old(router) && controllers == old(controllers)
      ensures error == if exportsFunction then None else Some("entry script be exported as a function")
    {
      entryScript := Some(resolvedModule);
      registry.AddEntryScript(resolvedModule, this);
      if exportsFunction {
        error := None;
      } else {
        error := Some("entry script be exported as a function");
      }
    }

    /** `controller(name, opts)`: with options it registers a new
        controller built from them (whatever was there under that name is
        replaced); without, it looks one up. */
    method Controller(name: string, opts: Option<Fields<Value>>) returns (r: Result<Option<Controller>>)
      modifies this
      ensures this.name == old(this.name) && router == old(router) && entryScript == old(entryScript)
      ensures opts.None? ==> controllers == old(controllers) && r == Success(Get(controllers, name))
      ensures opts.Some? && FirstReserved(Keys(opts.value)).Some? ==>
                controllers == old(controllers) &&
                r == Failure("reserved route name [" + FirstReserved(Keys(opts.value)).value + "]")
      ensures opts.Some? && FirstReserved(Keys(opts.value)).None? ==>
                r.Success? && r.value.Some? && fresh(r.value.value) &&
                r.value.value.name == name && r.value.value.app == this &&
                r.value.value.actions == PutAll([], opts.value) &&
                controllers == Put(old(controllers), name, r.value.value)
    {
      if opts.None? {
        return Success(Get(controllers, name));
      }
      var built := NewController(this, name, opts.value);
      if built.Failure? {
        return Failure(built.error);
      }
      controllers := Put(controllers, name, built.value);
      r := Success(Some(built.value));
    }

    /** `action(key)`: splits the key at `@` or `#` into a controller name
        and an action name, and returns that controller's member, throwing
        when the key does not have exactly two parts, when the controller
        is unknown and when the member is missing or falsy. */
    method Action(key: string) returns (r: Result<Property>)
      ensures var parts := Split(key, ActionSeparators);
        (|parts| != 2 ==> r == Failure("invalid action key [" + key + "]")) &&
        (|parts| == 2 && Get(controllers, parts[0]).None? ==>
           r == Failure("controller [" + parts[0] + "] not found")) &&
        (|parts| == 2 && Get(controllers, parts[0]).Some? ==>
           var member := Get(controllers, parts[0]).value.Member(parts[1]);
           (member.Some? && PropertyTruthy(member.value) ==> r == Success(member.value)) &&
           (!(member.Some? && PropertyTruthy(member.value)) ==>
              r == Failure("action [" + parts[1] + "] not found in controller [" + parts[0] + "]")))
    {
      var parts := Split(key, ActionSeparators);
      if |parts| != 2 {
        return Failure("invalid action key [" + key + "]");
      }
      var controllerName := parts[0];
      var methodName := parts[1];
      var controller := Get(controllers, controllerName);
      if controller.None? {
        return Failure("controller [" + controllerName + "] not found");
      }
      var member := controller.value.Member(methodName);
      if !(member.Some? && PropertyTruthy(member.value)) {
        return Failure("action [" + methodName + "] not found in controller [" + controllerName + "]");
      }
      r := Success(member.value);
    }
  }

  /** A key is a valid action key exactly when it holds one separator. */
  lemma ActionKeyShape(key: string)
    ensures |Split(key, ActionSeparators)| == 2 <==> Count(key, ActionSeparators) == 1
  {
    SplitCount(key, ActionSeparators);
  }

  /** `Controller@action` and `Controller#action` name the same action. */
  lemma ActionKeyParts(controller: string, action: string, sep: char)
    requires sep in ActionSeparators
    requires NoneOf(controller, ActionSeparators) && NoneOf(action, ActionSeparators)
    ensures Split(controller + [sep] + action, ActionSeparators) == [controller, action]
  {
    SplitPair(controller, action, sep, ActionSeparators);
  }
}

=== FILE: cache.dfy ===
/** Locflow's key-value cache (Refl/src/locflow/cache.js): records with a
    creation time, optionally expired by a timer, looked up by key or by
    namespace. The module-level `data` object is the state of one `Cache`;
    the timers the cache schedules are part of that state, numbered in the
    order they are created, and the clock is a parameter. */
module Caches {
  import opened Wrappers
  import opened Strings
  import opened JsValues

  /** A stored record; `timer` is the pending timer that expires it. */
  datatype Record = Record(value: Value, createdAt: int, timer: Option<nat>)

  /** The records by key, the pending timers with the key each one expires,
      and the number the next timer gets. */
  datatype State = State(data: Fields<Record>, timers: map<nat, string>, nextTimer: nat)

  /** Timer `t` belongs to the record stored under `key`. */
  predicate Owns(data: Fields<Record>, key: string, t: nat)
  {
    Get(data, key).Some? && Get(data, key).value.timer == Some(t)
  }

  /** What the cache means to keep: distinct keys, and every pending timer
      belongs to the record it will expire. */
  predicate Consistent(s: State)
  {
    DistinctKeys(s.data) &&
    forall t :: t in s.timers ==> t < s.nextTimer && Owns(s.data, s.timers[t], t)
  }

  /** `clearTimeout(timer)` for a record's timer, if it has one. */
  function Cleared(timers: map<nat, string>, r: Option<Record>): map<nat, string>
  {
    if r.Some? && r.value.timer.Some? then timers - {r.value.timer.value} else timers
  }

  /** `set(key, value, opts)` with a string key: the previous record's timer
      is cleared, the new record replaces it, and a truthy `timeout`
      schedules the record's expiry. */
  function AfterSet(s: State, key: string, value: Value, timeout: int, now: int): State
  {
    var timers := Cleared(s.timers, Get(s.data, key));
    if timeout != 0 then
      State(Put(s.data, key, Record(value, now, Some(s.nextTimer))),
            timers[s.nextTimer := key], s.nextTimer + 1)
    else
      State(Put(s.data, key, Record(value, now, None)), timers, s.nextTimer)
  }

  /** `set(object, _, opts)`: the fields of the object set in key order. */
  function AfterSetAll(s: State, fields: Fields<Value>, timeout: int, now: int): State
    decreases |fields|
  {
    if fields == [] then s
    else
      var last := fields[|fields| - 1];
      AfterSet(AfterSetAll(s, fields[..|fields| - 1], timeout, now), last.0, last.1, timeout, now)
  }

  /** `expire(key)` as written: the record is deleted and its timer stays
      pending. */
  function ExpiredAsWritten(s: State, key: string): State
    requires DistinctKeys(s.data)
  {
    s.(data := Delete(s.data, key))
  }

  /** `expire(key)` as intended: the record's timer is cleared too. */
  function Expired(s: State, key: string): State
    requires DistinctKeys(s.data)
  {
    State(Delete(s.data, key), Cleared(s.timers, Get(s.data, key)), s.nextTimer)
  }

  /** Timer `id` fires: it is no longer pending and its callback calls
      `expire` on its key. */
  function FiredAsWritten(s: State, id: nat): State
    requires DistinctKeys(s.data) && id in s.timers
  {
    ExpiredAsWritten(s.(timers := s.timers - {id}), s.timers[id])
  }

  function Fired(s: State, id: nat): State
    requires DistinctKeys(s.data) && id in s.timers
  {
    Expired(s.(timers := s.timers - {id}), s.timers[id])
  }

  /** `getAll(namespace)` over `data`, with `prefix` the namespace and a dot:
      every key that starts with the prefix, without it, and its value. */
  function Namespaced(data: Fields<Record>, prefix: string): Fields<Value>
    decreases |data|
  {
    if data == [] then []
    else
      var rest := Namespaced(data[..|data| - 1], prefix);
      var last := data[|data| - 1];
      if StartsWith(last.0, prefix) then Put(rest, last.0[|prefix|..], last.1.value) else rest
  }

  /** Writing one key keeps the cache consistent as long as the timer the
      new record gets, if any, is the one now pending for that key. */
  lemma PutKeepsOwners(s: State, key: string, r: Record, timers: map<nat, string>, next: nat)
    requires DistinctKeys(s.data) && next >= s.nextTimer
    requires forall t :: t in timers ==> (t in s.timers && s.timers[t] == timers[t]) || (r.timer == Some(t) && timers[t] == key && t < next)
    requires forall t :: t in timers && t in s.timers && s.timers[t] == timers[t] ==> timers[t] != key
    requires forall t :: t in s.timers ==> t < s.nextTimer && Owns(s.data, s.timers[t], t)
    ensures Consistent(State(Put(s.data, key, r), timers, next))
  {
    PutDistinct(s.data, key, r);
    forall t | t in timers ensures t < next && Owns(Put(s.data, key, r), timers[t], t) {
      GetPut(s.data, key, r, timers[t]);
    }
  }

  /** `set` keeps the cache consistent. */
  lemma SetConsistent(s: State, key: string, value: Value, timeout: int, now: int)
    requires Consistent(s)
    ensures Consistent(AfterSet(s, key, value, timeout, now))
  {
    var prev := Get(s.data, key);
    var timers := Cleared(s.timers, prev);
    forall t | t in timers && t in s.timers && s.timers[t] == timers[t] ensures timers[t] != key {
      assert Owns(s.data, s.timers[t], t);
    }
    if timeout != 0 {
      PutKeepsOwners(s, key, Record(value, now, Some(s.nextTimer)), timers[s.nextTimer := key], s.nextTimer + 1);
    } else {
      PutKeepsOwners(s, key, Record(value, now, None), timers, s.nextTimer);
    }
  }

  /** After `set(key, value)`, `key` reads the new record and every other
      key reads as before. */
  lemma SetGet(s: State, key: string, value: Value, timeout: int, now: int, other: string)
    ensures Get(AfterSet(s, key, value, timeout, now).data, other) ==
              if other == key then Some(Record(value, now, if timeout != 0 then Some(s.nextTimer) else None))
              else Get(s.data, other)
  {
    GetPut(s.data, key, Record(value, now, if timeout != 0 then Some(s.nextTimer) else None), other);
  }

  /** After `set(object)`, each key of the object reads its value, and
      every other key reads as before. */
  lemma {:induction false} SetAllGet(s: State, fields: Fields<Value>, timeout: int, now: int, key: string)
    requires DistinctKeys(fields)
    ensures var r := AfterSetAll(s, fields, timeout, now);
            if key in Keys(fields) then Get(r.data, key).Some? && Some(Get(r.data, key).value.value) == Get(fields, key)
            else Get(r.data, key) == Get(s.data, key)
    decreases |fields|
  {
    if fields != [] {
      var init := fields[..|fields| - 1];
      var last := fields[|fields| - 1];
      assert fields == init + [last];
      assert Keys(init) == Keys(fields)[..|fields| - 1];
      assert Keys(fields) == Keys(init) + [last.0];
      assert DistinctKeys(init);
      SetAllGet(s, init, timeout, now, key);
      SetGet(AfterSetAll(s, init, timeout, now), last.0, last.1, timeout, now, key);
      GetSnoc(init, last, key);
      assert last.0 !in Keys(init) by {
        assert Keys(fields)[|fields| - 1] == last.0;
      }
    }
  }

  /** `set(object)` keeps the cache consistent. */
  lemma {:induction false} SetAllConsistent(s: State, fields: Fields<Value>, timeout: int, now: int)
    requires Consistent(s)
    ensures Consistent(AfterSetAll(s, fields, timeout, now))
    decreases |fields|
  {
    if fields != [] {
      var init := fields[..|fields| - 1];
      SetAllConsistent(s, init, timeout, now);
      SetConsistent(AfterSetAll(s, init, timeout, now), fields[|fields| - 1].0, fields[|fields| - 1].1, timeout, now);
    }
  }

  /** The intended `expire` keeps the cache consistent. */
  lemma ExpireConsistent(s: State, key: string)
    requires Consistent(s)
    ensures Consistent(Expired(s, key))
  {
    var e := Expired(s, key);
    forall t | t in e.timers ensures t < e.nextTimer && Owns(e.data, e.timers[t], t) {
      assert Owns(s.data, s.timers[t], t);
    }
  }

  /** `expire(key)` removes the key and keeps every other; expiring a key
      that is not stored changes nothing, as written or as intended. */
  lemma ExpireRemoves(s: State, key: string, other: string)
    requires DistinctKeys(s.data)
    ensures Get(Expired(s, key).data, key) == None && Get(ExpiredAsWritten(s, key).data, key) == None
    ensures other != key ==> Get(Expired(s, key).data, other) == Get(s.data, other)
    ensures key !in Keys(s.data) ==> Expired(s, key) == s && ExpiredAsWritten(s, key) == s
  {
    if key !in Keys(s.data) {
      DeleteAbsent(s.data, key);
    }
  }

  /** A firing timer expires the record it belongs to, and the intended
      `expire` keeps the cache consistent afterwards. */
  lemma FireConsistent(s: State, id: nat)
    requires Consistent(s) && id in s.timers
    ensures Owns(s.data, s.timers[id], id)
    ensures Consistent(Fired(s, id))
    ensures Get(Fired(s, id).data, s.timers[id]) == None
  {
    ExpireConsistent(s.(timers := s.timers - {id}), s.timers[id]);
  }

  /** A record stored without a timeout is never the target of a pending
      timer. */
  lemma NoTimeoutNoTimer(s: State, key: string, id: nat)
    requires Consistent(s) && Get(s.data, key).Some? && Get(s.data, key).value.timer == None
    requires id in s.timers
    ensures s.timers[id] != key
  {
  }

  /** As written, a timer outlives a manual `expire`: after `set(k, a,
      {timeout})`, `expire(k)` and `set(k, b)`, the first timer is still
      pending and its firing deletes `b`. */
  lemma StaleTimerDeletesNewValue(s: State, key: string, a: Value, b: Value, timeout: int, t0: int, t1: int)
    requires Consistent(s) && timeout != 0
    ensures var s1 := AfterSet(s, key, a, timeout, t0);
            Consistent(s1) &&
            var s2 := ExpiredAsWritten(s1, key);
            var s3 := AfterSet(s2, key, b, 0, t1);
            Get(s3.data, key) == Some(Record(b, t1, None)) &&
            s.nextTimer in s3.timers && s3.timers[s.nextTimer] == key &&
            !Consistent(s3) && DistinctKeys(s3.data) &&
            Get(FiredAsWritten(s3, s.nextTimer).data, key) == None
  {
    SetConsistent(s, key, a, timeout, t0);
    var s1 := AfterSet(s, key, a, timeout, t0);
    var s2 := ExpiredAsWritten(s1, key);
    assert Get(s2.data, key) == None;
    var s3 := AfterSet(s2, key, b, 0, t1);
    GetPut(s2.data, key, Record(b, t1, None), key);
    PutDistinct(s2.data, key, Record(b, t1, None));
    assert !Owns(s3.data, key, s.nextTimer);
  }

  /** With the intended `expire`, the same calls leave no timer for the key
      and the cache consistent, so `b` stays until it is set or expired
      again. */
  lemma ExpireCancelsTimer(s: State, key: string, a: Value, b: Value, timeout: int, t0: int, t1: int)
    requires Consistent(s) && timeout != 0
    ensures var s1 := AfterSet(s, key, a, timeout, t0);
            Consistent(s1) &&
            var s2 := Expired(s1, key);
            var s3 := AfterSet(s2, key, b, 0, t1);
            Get(s3.data, key) == Some(Record(b, t1, None)) && Consistent(s3) &&
            forall id :: id in s3.timers ==> s3.timers[id] != key
  {
    SetConsistent(s, key, a, timeout, t0);
    var s1 := AfterSet(s, key, a, timeout, t0);
    ExpireConsistent(s1, key);
    var s2 := Expired(s1, key);
    SetConsistent(s2, key, b, 0, t1);
    var s3 := AfterSet(s2, key, b, 0, t1);
    GetPut(s2.data, key, Record(b, t1, None), key);
  }

  /** Updating a key clears the timer of the value it replaces: the
      previous timeout no longer expires the key. */
  lemma UpdateClearsTimer(s: State, key: string, a: Value, b: Value, timeout: int, t0: int, t1: int)
    requires Consistent(s) && timeout != 0
    ensures var s1 := AfterSet(s, key, a, timeout, t0);
            var s2 := AfterSet(s1, key, b, 0, t1);
            s.nextTimer !in s2.timers && Get(s2.data, key) == Some(Record(b, t1, None))
  {
    var s1 := AfterSet(s, key, a, timeout, t0);
    GetPut(s.data, key, Record(a, t0, Some(s.nextTimer)), key);
    GetPut(s1.data, key, Record(b, t1, None), key);
  }

  /** `getAll(namespace)` holds, under each name, the value of the key made
      of the namespace, a dot and that name, and nothing else. */
  lemma {:induction false} NamespacedGet(data: Fields<Record>, prefix: string, name: string)
    requires DistinctKeys(data)
    ensures Get(Namespaced(data, prefix), name) ==
              match Get(data, prefix + name) case Some(r) => Some(r.value) case None => None
    decreases |data|
  {
    if data != [] {
      var init := data[..|data| - 1];
      var last := data[|data| - 1];
      assert data == init + [last];
      assert Keys(init) == Keys(data)[..|data| - 1];
      assert DistinctKeys(init);
      NamespacedGet(init, prefix, name);
      GetSnoc(init, last, prefix + name);
      assert last.0 !in Keys(init) by {
        assert Keys(data)[|data| - 1] == last.0;
      }
      var key := prefix + name;
      assert key[..|prefix|] == prefix;
      if StartsWith(last.0, prefix) {
        GetPut(Namespaced(init, prefix), last.0[|prefix|..], last.1.value, name);
        assert last.0 == prefix + last.0[|prefix|..];
      }
    }
  }

  class Cache {
    var data: Fields<Record>
    var timers: map<nat, string>
    var nextTimer: nat

    function Snapshot(): State
      reads this
    {
      State(data, timers, nextTimer)
    }

    /** What every method keeps, the stale timers the written `expire`
        leaves behind included: one record per key. */
    predicate Valid()
      reads this
    {
      DistinctKeys(data)
    }

    constructor ()
      ensures data == [] && timers == map[] && Valid() && Consistent(Snapshot())
    {
      data := [];
      timers := map[];
      nextTimer := 0;
    }

    /** `set(key, value, opts)` with a string key; `timeout` is
        `opts.timeout` (0 when absent) and `now` the clock's reading. */
    method Set(key: string, value: Value, timeout: int, now: int) returns (record: Record)
      requires Valid()
      modifies this
      ensures Valid()
      ensures Snapshot() == AfterSet(old(Snapshot()), key, value, timeout, now)
      ensures old(Consistent(Snapshot())) ==> Consistent(Snapshot())
      ensures record.value == value && record.createdAt == now
    {
      ghost var before := Snapshot();
      if Consistent(before) {
        SetConsistent(before, key, value, timeout, now);
      }
      PutDistinct(data, key, Record(value, now, if timeout != 0 then Some(nextTimer) else None));
      var previousRecord := GetRecord(key);
      var pending := Cleared(timers, previousRecord);
      if timeout != 0 {
        record := Record(value, now, Some(nextTimer));
        data, timers, nextTimer := Put(data, key, record), pending[nextTimer := key], nextTimer + 1;
      } else {
        record := Record(value, now, None);
        data, timers := Put(data, key, record), pending;
      }
    }

    /** `set(object, _, opts)`: each field of the object is set in turn. */
    method SetAll(fields: Fields<Value>, timeout: int, now: int)
      requires Valid()
      modifies this
      ensures Valid()
      ensures Snapshot() == AfterSetAll(old(Snapshot()), fields, timeout, now)
      ensures old(Consistent(Snapshot())) ==> Consistent(Snapshot())
    {
      ghost var before := Snapshot();
      var i := 0;
      while i < |fields|
        invariant 0 <= i <= |fields| && Valid()
        invariant Snapshot() == AfterSetAll(old(Snapshot()), fields[..i], timeout, now)
      {
        assert fields[..i + 1][..i] == fields[..i];
        var _ := Set(fields[i].0, fields[i].1, timeout, now);
        i := i + 1;
      }
      assert fields[..i] == fields;
      if Consistent(before) {
        SetAllConsistent(before, fields, timeout, now);
      }
    }

    /** `getRecord(key)`. */
    method GetRecord(key: string) returns (record: Option<Record>)
      ensures record == Get(data, key)
    {
      record := Get(data, key);
    }

    /** `get(key)`: the stored value, `None` for `undefined`. */
    method Lookup(key: string) returns (value: Option<Value>)
      ensures value.Some? <==> key in Keys(data)
      ensures value.Some? ==> exists r :: (key, r) in data && r.value == value.value
      ensures value == match Get(data, key) case Some(r) => Some(r.value) case None => None
    {
      var record := GetRecord(key);
      value := if record.Some? then Some(record.value.value) else None;
    }

    /** `has(key)`: the stored value is neither `undefined` nor `null`. */
    method Has(key: string) returns (b: bool)
      ensures b <==> Get(data, key).Some? && !Nullish(Get(data, key).value.value)
    {
      var value := Lookup(key);
      b := value.Some? && !Nullish(value.value);
    }

    /** `getAll(namespace)`. */
    method GetAll(namespace: string) returns (values: Fields<Value>)
      requires Valid()
      ensures values == Namespaced(data, namespace + ".")
    {
      var prefix := namespace + ".";
      values := [];
      var i := 0;
      while i < |data|
        invariant 0 <= i <= |data|
        invariant values == Namespaced(data[..i], prefix)
      {
        NamespacedStep(data, prefix, i);
        var key := data[i].0;
        if StartsWith(key, prefix) {
          var normalKey := key[|prefix|..];
          var value := Lookup(key);
          DistinctGet(data, i);
          values := Put(values, normalKey, value.value);
        }
        i := i + 1;
      }
      assert data[..i] == data;
    }

    /** `expire(key)` as written. */
    method ExpireAsWritten(key: string)
      requires Valid()
      modifies this
      ensures Valid() && Snapshot() == ExpiredAsWritten(old(Snapshot()), key)
    {
      data := Delete(data, key);
    }

    /** `expire(key)` as intended. */
    method Expire(key: string)
      requires Valid()
      modifies this
      ensures Valid() && Snapshot() == Expired(old(Snapshot()), key)
      ensures old(Consistent(Snapshot())) ==> Consistent(Snapshot())
    {
      if Consistent(Snapshot()) {
        ExpireConsistent(Snapshot(), key);
      }
      var record := GetRecord(key);
      if record.Some? && record.value.timer.Some? {
        timers := timers - {record.value.timer.value};
      }
      data := Delete(data, key);
    }

    /** Timer `id` fires and its callback runs the intended `expire` on
        its key. */
    method Fire(id: nat)
      requires Valid() && id in timers
      modifies this
      ensures Valid() && Snapshot() == Fired(old(Snapshot()), id)
      ensures old(Consistent(Snapshot())) ==> Consistent(Snapshot())
    {
      if Consistent(Snapshot()) {
        FireConsistent(Snapshot(), id);
      }
      var key := timers[id];
      timers := timers - {id};
      Expire(key);
    }

    /** Timer `id` fires and its callback runs `expire` as written. */
    method FireAsWritten(id: nat)
      requires Valid() && id in timers
      modifies this
      ensures Valid() && Snapshot() == FiredAsWritten(old(Snapshot()), id)
    {
      var key := timers[id];
      timers := timers - {id};
      ExpireAsWritten(key);
    }
  }

  /** `getAll` handles the keys one at a time, in order. */
  lemma NamespacedStep(data: Fields<Record>, prefix: string, i: nat)
    requires i < |data|
    ensures Namespaced(data[..i + 1], prefix) ==
              var rest := Namespaced(data[..i], prefix);
              if StartsWith(data[i].0, prefix) then Put(rest, data[i].0[|prefix|..], data[i].1.value) else rest
  {
    assert data[..i + 1][..i] == data[..i];
  }

  /** In an object with distinct keys, every field is what its key reads. */
  lemma {:induction false} DistinctGet<T>(o: Fields<T>, i: nat)
    requires DistinctKeys(o) && i < |o|
    ensures Get(o, o[i].0) == Some(o[i].1)
    decreases i
  {
    if i > 0 {
      assert Keys(o[1..]) == Keys(o)[1..];
      assert o[0].0 != o[i].0 by {
        assert Keys(o)[0] != Keys(o)[i];
      }
      DistinctGet(o[1..], i - 1);
    }
  }
}

=== FILE: conn.dfy ===
/** Refl's connection helpers (Refl/src/http/conn.js): the request and
    response stand-ins used to simulate a request, and the connection
    record built from a request, which carries its method, path and query
    object to the router. */
module Conns {
  import opened Wrappers
  import opened Strings
  import opened JsValues
  import opened Encoding
  import opened Urls

  /** `mockRequest(verb, url)`: a request carrying its method and url. */
  datatype Request = Request(verb: string, url: string)

  /** `mockResponse()`: a response that collects the body written to it. */
  class MockResponse {
    /** `_body`; `None` while nothing was written. */
    var body: Option<string>
    var finished: bool

    /** The text written so far. */
    function Written(): string
      reads this
    {
      body.GetOr("")
    }

    constructor ()
      ensures body == None && !finished
    {
      body := None;
      finished := false;
    }

    /** `end(str)`: a non-empty `str` replaces the body; the response is
        finished either way. */
    method End(str: Option<string>)
      modifies this
      ensures finished
      ensures str.Some? && str.value != "" ==> body == Some(str.value)
      ensures !(str.Some? && str.value != "") ==> body == old(body)
    {
      if str.Some? && str.value != "" {
        body := Some(str.value);
      }
      finished := true;
    }

    /** `write(str)`: appends to a non-empty body, else starts it. Either
        way the written text grows by `str`. */
    method Write(str: string)
      modifies this
      ensures body.Some? && Written() == old(Written()) + str
      ensures finished == old(finished)
    {
      if body.Some? && body.value != "" {
        body := Some(body.value + str);
      } else {
        body := Some(str);
      }
    }
  }

  /** The connection object: the request and response it wraps, the
      request's method, its path and flat query object, and the path
      parameters the dispatcher assigns (`None` before dispatch). */
  datatype Conn = Conn(req: Request, res: MockResponse?, verb: string, path: string,
                       query: Fields<Value>, pathParams: Option<Fields<string>>)

  /** The connection `buildConn(req, res)` returns. */
  function ConnOf(req: Request, res: MockResponse?): Conn
  {
    var url := Parse(req.url);
    Conn(req, res, req.verb, url.path, FlatDecodeSpec(url.query), None)
  }

  /** `buildConn(req, res)`: reads the request url and decodes its query
      flat. */
  method BuildConn(req: Request, res: MockResponse?) returns (conn: Conn)
    ensures conn == ConnOf(req, res)
  {
    var url := new Url(req.url);
    var query := url.QueryObject(false);
    conn := Conn(req, res, req.verb, url.path, query.value, None);
  }

  /** `mockConn(method, url)`: a connection over a mock request and a fresh
      mock response. */
  method MockConn(verb: string, url: string) returns (conn: Conn)
    ensures conn == ConnOf(Request(verb, url), conn.res)
    ensures conn.res != null && fresh(conn.res)
    ensures conn.res.body == None && !conn.res.finished
  {
    var res := new MockResponse();
    conn := BuildConn(Request(verb, url), res);
  }

  /** A url made of an absolute path and a query parses to that path and
      that query. */
  lemma ParsePathQuery(path: string, query: string)
    requires path != "" && path[0] == '/' && NoneOf(path, {'?', '#'})
    requires query != "" && query[0] == '?' && NoneOf(query, {'#'})
    ensures Parse(path + query).path == path && Parse(path + query).query == query
  {
    var url := path + query;
    NoProtocol(url);
    assert url[0..] == "" + path + query + "";
    GroupsOf(url, 0, "", path, query, "");
    assert HostText("", "") == "";
    PartsAtOf(url, 0, "", "", path, query, "");
  }

  /** A request for a path followed by the encoding of a flat object of
      plain strings gives a connection with that path and that object as
      its query. */
  lemma ConnOfPathAndQuery(verb: string, path: string, data: Fields<Value>, res: MockResponse?)
    requires path != "" && path[0] == '/' && NoneOf(path, {'?', '#'})
    requires FlatPlain(data) && '#' !in EncodeSpec(data)
    ensures var conn := ConnOf(Request(verb, path + "?" + EncodeSpec(data)), res);
            conn.verb == verb && conn.path == path && conn.query == data &&
            conn.pathParams == None
  {
    var qs := EncodeSpec(data);
    var query := "?" + qs;
    forall i | 0 <= i < |query| ensures query[i] != '#' {
      if i > 0 { assert query[i] == qs[i - 1]; }
    }
    assert path + "?" + qs == path + query;
    ParsePathQuery(path, query);
    QueryRoundTrip(data);
  }
}

=== FILE: controller.dfy ===
/** Refl's controllers (Refl/src/http/controller.js): a named object holding
    the actions of an app, given as the fields of a routes object. */
module Controllers {
  import opened Wrappers
  import opened JsValues

  /** `invalidRouteNames`: the names a controller keeps for itself. */
  const ReservedNames: seq<string> := ["_name", "_app"]

  /** The first key, in key order, that is a reserved name. */
  function FirstReserved(keys: seq<string>): (r: Option<string>)
    ensures r.Some? ==> r.value in ReservedNames && r.value in keys
    ensures r.None? <==> forall i :: 0 <= i < |keys| ==> keys[i] !in ReservedNames
  {
    if keys == [] then None
    else if keys[0] in ReservedNames then Some(keys[0])
    else FirstReserved(keys[1..])
  }

  /** What reading a controller's own property gives: the app it belongs
      to, or a plain value (its name or a route's field). */
  datatype Property = AppRef(app: object) | Field(value: Value)

  /** JavaScript truthiness of a property: an object is always truthy. */
  predicate PropertyTruthy(p: Property)
  {
    p.AppRef? || Truthy(p.value)
  }

  class Controller {
    /** `_name`. */
    var name: string
    /** `_app`: the app the controller belongs to. */
    var app: object?
    /** The route fields copied onto the controller, in key order. */
    var actions: Fields<Value>

    constructor (app: object?, name: string, actions: Fields<Value>)
      ensures this.app == app && this.name == name && this.actions == actions
    {
      this.app := app;
      this.name := name;
      this.actions := actions;
    }

    /** `controller[key]` for a key the controller has as its own: its
        name, its app or one of its actions. */
    function Member(key: string): (r: Option<Property>)
      reads this
      ensures key == "_name" ==> r == Some(Field(Str(name)))
      ensures key == "_app" ==> r == Some(if app == null then Field(Null) else AppRef(app))
      ensures key !in ReservedNames ==> (r.Some? <==> key in Keys(actions))
      ensures key !in ReservedNames && r.Some? ==> r.value.Field? && (key, r.value.value) in actions
    {
      if key == "_name" then Some(Field(Str(name)))
      else if key == "_app" then Some(if app == null then Field(Null) else AppRef(app))
      else match Get(actions, key)
        case Some(v) => Some(Field(v))
        case None => None
    }
  }

  /** `new Controller(app, name, routes)`: copies the routes' fields onto a
      new controller in key order, throwing at the first reserved name. */
  method NewController(app: object?, name: string, routes: Fields<Value>) returns (r: Result<Controller>)
    ensures var bad := FirstReserved(Keys(routes));
            (bad.Some? ==> r == Failure("reserved route name [" + bad.value + "]")) &&
            (bad.None? ==> r.Success? && fresh(r.value) && r.value.name == name &&
                           r.value.app == app && r.value.actions == PutAll([], routes))
  {
    var actions: Fields<Value> := [];
    var i := 0;
    while i < |routes|
      invariant 0 <= i <= |routes|
      invariant actions == PutAll([], routes[..i])
      invariant FirstReserved(Keys(routes)) == FirstReserved(Keys(routes)[i..])
    {
      var key := routes[i].0;
      if key in ReservedNames {
        return Failure("reserved route name [" + key + "]");
      }
      PutAllStep([], routes, i);
      actions := Put(actions, key, routes[i].1);
      assert Keys(routes)[i..][1..] == Keys(routes)[i + 1..];
      i := i + 1;
    }
    assert routes[..i] == routes;
    var c := new Controller(app, name, actions);
    r := Success(c);
  }

  /** A controller built from a routes object offers exactly its fields as
      actions, and still answers its own name. */
  lemma ActionsOfRoutes(name: string, routes: Fields<Value>, key: string)
    requires DistinctKeys(routes) && FirstReserved(Keys(routes)).None?
    ensures Get(PutAll([], routes), key) == Get(routes, key)
    ensures key in ReservedNames ==> Get(routes, key) == None
  {
    GetPutAll([], routes, key);
  }
}

=== FILE: dispatcher.dfy ===
/** Refl's HTTP dispatcher (Refl/src/http/dispatcher.js): an ordered list of
    routes, each a method, a path pattern and a handler, and the dispatch
    of a connection to the first route whose method is the connection's and
    whose pattern matches its path. */
module Dispatchers {
  import opened Wrappers
  import opened Strings
  import opened JsValues
  import opened PathPatterns
  import opened Conns

  /** A registered route: `matcher` stands for the regular expression
      generated from `originalPath`, `namedParams` for its parameter names. */
  datatype Route<R> = Route(verb: string, handler: Conn -> R, originalPath: string,
                            matcher: seq<Token>, namedParams: seq<string>)

  /** How a dispatch ends: the handler of route `index` was called and
      returned `result`; no route was found (the connection gets status 404
      and the promise is rejected with `message`); or a `TypeError` was
      thrown. */
  datatype Dispatch<R> = Handled(index: nat, result: R) | NotFound(status: int, message: string)
                       | Threw(message: string)

  const RouteNotFound := "route not found"
  const Build404Missing := "Conn.build404 is not a function"

  /** `match` puts a `/` in front of a path that does not start with one. */
  function Normalize(path: string): (p: string)
  {
    if StartsWith(path, "/") then path else "/" + path
  }

  /** The route `match(method, path, handler)` records. */
  function RouteFor<R>(verb: string, path: string, handler: Conn -> R): Route<R>
  {
    var p := Normalize(path);
    var toks := Tokenize(p);
    Route(verb, handler, p, toks, ParamNames(toks))
  }

  /** What holds of every route `match` accepted. */
  predicate Registered<R>(r: Route<R>)
  {
    StartsWith(r.originalPath, "/") && r.matcher == Tokenize(r.originalPath) &&
    r.namedParams == ParamNames(r.matcher) && Distinct(r.namedParams)
  }

  /** Route `r` takes a request with this method and path. */
  predicate Takes<R>(r: Route<R>, verb: string, path: string)
  {
    r.verb == verb && MatchTokens(r.matcher, path).Some?
  }

  /** `routes.find(...)` from index `i` on: the first route that takes the
      request. */
  function FirstFrom<R>(routes: seq<Route<R>>, verb: string, path: string, i: nat): Option<nat>
    decreases |routes| - i
  {
    if i >= |routes| then None
    else if Takes(routes[i], verb, path) then Some(i)
    else FirstFrom(routes, verb, path, i + 1)
  }

  /** The index of the route a request is dispatched to. */
  function First<R>(routes: seq<Route<R>>, verb: string, path: string): Option<nat>
  {
    FirstFrom(routes, verb, path, 0)
  }

  /** The connection the handler of route `i` receives: its `pathParams`
      hold each parameter name with the text it captured. */
  function RoutedConn<R>(routes: seq<Route<R>>, conn: Conn, i: nat): Conn
    requires i < |routes| && Registered(routes[i]) && Takes(routes[i], conn.verb, conn.path)
  {
    var caps := MatchTokens(routes[i].matcher, conn.path).value;
    conn.(pathParams := Some(Bindings(routes[i].namedParams, caps)))
  }

  /** The intended outcome of `dispatch(conn)`. */
  function Dispatched<R>(routes: seq<Route<R>>, conn: Conn): Dispatch<R>
    requires forall i :: 0 <= i < |routes| ==> Registered(routes[i])
  {
    match First(routes, conn.verb, conn.path)
    case None => NotFound(404, RouteNotFound)
    case Some(i) =>
      FirstTakes(routes, conn.verb, conn.path);
      Handled(i, routes[i].handler(RoutedConn(routes, conn, i)))
  }

  /** `dispatch(conn)` as written: when no route takes the request it calls
      `Conn.build404`, which the connection helpers do not define. */
  function DispatchedAsWritten<R>(routes: seq<Route<R>>, conn: Conn): Dispatch<R>
    requires forall i :: 0 <= i < |routes| ==> Registered(routes[i])
  {
    match First(routes, conn.verb, conn.path)
    case None => Threw(Build404Missing)
    case Some(i) =>
      FirstTakes(routes, conn.verb, conn.path);
      Handled(i, routes[i].handler(RoutedConn(routes, conn, i)))
  }

  /** The route found takes the request, and no earlier route does. */
  lemma {:induction false} FirstFromTakes<R>(routes: seq<Route<R>>, verb: string, path: string, i: nat)
    ensures FirstFrom(routes, verb, path, i).Some? ==>
      var k := FirstFrom(routes, verb, path, i).value;
      i <= k < |routes| && Takes(routes[k], verb, path) &&
      forall j :: i <= j < k ==> !Takes(routes[j], verb, path)
    ensures FirstFrom(routes, verb, path, i).None? <==>
      forall j :: i <= j < |routes| ==> !Takes(routes[j], verb, path)
    decreases |routes| - i
  {
    if i < |routes| && !Takes(routes[i], verb, path) {
      FirstFromTakes(routes, verb, path, i + 1);
    }
  }

  lemma FirstTakes<R>(routes: seq<Route<R>>, verb: string, path: string)
    ensures First(routes, verb, path).Some? ==>
      var k := First(routes, verb, path).value;
      k < |routes| && Takes(routes[k], verb, path) &&
      forall j :: 0 <= j < k ==> !Takes(routes[j], verb, path)
    ensures First(routes, verb, path).None? <==>
      forall j :: 0 <= j < |routes| ==> !Takes(routes[j], verb, path)
  {
    FirstFromTakes(routes, verb, path, 0);
  }

  /** A route added last is reached only by requests no earlier route takes. */
  lemma {:induction false} FirstFromSnoc<R>(routes: seq<Route<R>>, r: Route<R>, verb: string, path: string, i: nat)
    requires i <= |routes|
    ensures FirstFrom(routes + [r], verb, path, i) ==
      match FirstFrom(routes, verb, path, i)
      case Some(k) => Some(k)
      case None => if Takes(r, verb, path) then Some(|routes|) else None
    decreases |routes| - i
  {
    if i < |routes| {
      assert (routes + [r])[i] == routes[i];
      FirstFromSnoc(routes, r, verb, path, i + 1);
    } else {
      assert (routes + [r])[i] == r;
    }
  }

  /** The handler of a dispatched request receives, for each of the route's
      parameter names, the text the path holds in its place, and no other
      parameter. */
  lemma RoutedParams<R>(routes: seq<Route<R>>, conn: Conn, i: nat)
    requires i < |routes| && Registered(routes[i]) && Takes(routes[i], conn.verb, conn.path)
    ensures var caps := MatchTokens(routes[i].matcher, conn.path).value;
            var params := RoutedConn(routes, conn, i).pathParams.value;
            Accepts(routes[i].matcher, conn.path, caps) &&
            |caps| == |routes[i].namedParams| &&
            (forall k :: k in Keys(params) <==> k in routes[i].namedParams) &&
            (forall n :: 0 <= n < |caps| ==> Get(params, routes[i].namedParams[n]) == Some(caps[n]))
  {
    var r := routes[i];
    var caps := MatchTokens(r.matcher, conn.path).value;
    MatchSound(r.matcher, conn.path);
    forall k ensures k in Keys(Bindings(r.namedParams, caps)) <==> k in r.namedParams {
      BindingsKeys(r.namedParams, caps, k);
    }
    forall n | 0 <= n < |caps| ensures Get(Bindings(r.namedParams, caps), r.namedParams[n]) == Some(caps[n]) {
      assert r.namedParams[n] !in r.namedParams[n + 1..] by {
        forall m | n + 1 <= m < |r.namedParams| ensures r.namedParams[m] != r.namedParams[n] {
        }
      }
      BindingsGet(r.namedParams, caps, n);
    }
  }

  /** A route without parameters takes exactly its own path. */
  lemma LiteralRoute<R>(r: Route<R>, verb: string, path: string)
    requires Registered(r) && ':' !in r.originalPath
    ensures Takes(r, verb, path) <==> r.verb == verb && path == r.originalPath
  {
    var p := r.originalPath;
    assert r.matcher == Lits(p) by {
      TokenizeLiteralPrefix(p, "");
      assert p + "" == p;
      assert Lits(p) + [] == Lits(p);
    }
    LitsNames(p);
    LiteralMatch(r.matcher, path);
    RenderTokenize(r.originalPath);
  }

  lemma {:induction false} LitsNames(a: string)
    ensures ParamNames(Lits(a)) == []
    decreases |a|
  {
    if a != "" {
      LitsNames(a[1..]);
      assert Lits(a)[1..] == Lits(a[1..]);
    }
  }

  /** Without any route, every request ends in the 404 the dispatcher's
      tests expect, whereas the code as written throws. */
  lemma NoRouteFound<R>(conn: Conn)
    ensures Dispatched<R>([], conn) == NotFound(404, RouteNotFound)
    ensures DispatchedAsWritten<R>([], conn) == Threw(Build404Missing)
  {
  }

  /** A pattern made of a literal prefix and one trailing parameter, such
      as `/users/:id`, is the only route: a request for the prefix followed
      by a value without `/` reaches it with `pathParams` `{name: value}`. */
  lemma TrailingParamRoute<R>(lit: string, name: string, v: string, handler: Conn -> R, conn: Conn)
    requires lit != "" && lit[0] == '/' && ':' !in lit
    requires name != "" && NoneOf(name, {'/'})
    requires v != "" && NoneOf(v, {'/'})
    requires conn.path == lit + v
    ensures var r := RouteFor(conn.verb, lit + ":" + name, handler);
            Registered(r) &&
            Dispatched([r], conn) == Handled(0, handler(conn.(pathParams := Some([(name, v)]))))
  {
    var r := RouteFor(conn.verb, lit + ":" + name, handler);
    TrailingParamRegistered(lit, name, handler, conn.verb);
    TrailingParam(lit, name, v);
    assert Takes(r, conn.verb, conn.path);
    assert First([r], conn.verb, conn.path) == Some(0);
    assert MatchTokens(r.matcher, conn.path).value == [v];
    BindingsOne(name, v);
  }

  lemma BindingsOne(name: string, v: string)
    ensures Bindings([name], [v]) == [(name, v)]
  {
    var f := seq(1, i requires 0 <= i < 1 => ([name][i], [v][i]));
    assert f == [(name, v)];
    assert f[..0] == [];
    assert PutAll([], f[..0]) == [];
    assert Put([], name, v) == [(name, v)];
  }

  lemma TrailingParamRegistered<R>(lit: string, name: string, handler: Conn -> R, verb: string)
    requires lit != "" && lit[0] == '/' && ':' !in lit
    requires name != "" && NoneOf(name, {'/'})
    ensures var r := RouteFor(verb, lit + ":" + name, handler);
            Registered(r) && r.matcher == Lits(lit) + [Param(name)] && r.namedParams == [name]
  {
    var p := lit + ":" + name;
    assert p[..1] == "/";
    assert Normalize(p) == p;
    TrailingParam(lit, name, "");
    ParamNamesLits(lit, [Param(name)]);
    assert [Param(name)][1..] == [];
  }

  lemma {:induction false} ParamNamesLits(a: string, toks: seq<Token>)
    ensures ParamNames(Lits(a) + toks) == ParamNames(toks)
    decreases |a|
  {
    if a != "" {
      var t := Lits(a) + toks;
      assert t[0] == Lit(a[0]);
      assert t[1..] == Lits(a[1..]) + toks;
      ParamNamesLits(a[1..], toks);
      assert ParamNames(t) == ParamNames(t[1..]);
    } else {
      assert Lits(a) + toks == toks;
    }
  }

  /** The dispatcher: routes in registration order. */
  class Dispatcher<R> {
    var routes: seq<Route<R>>

    /** Every route was recorded by `match`. */
    predicate Valid()
      reads this
    {
      forall i :: 0 <= i < |routes| ==> Registered(routes[i])
    }

    constructor ()
      ensures routes == [] && Valid()
    {
      routes := [];
    }

    /** `match(method, path, handler)`: records the route, or throws when a
        parameter name repeats; returns the new number of routes. */
    method Match(verb: string, path: string, handler: Conn -> R) returns (r: Result<nat>)
      requires Valid()
      modifies this
      ensures Valid()
      ensures var route := RouteFor(verb, path, handler);
        (r.Failure? <==> !Distinct(route.namedParams)) &&
        (r.Failure? ==> r.error == "multiple params with the same name: " + route.originalPath &&
                        routes == old(routes)) &&
        (r.Success? ==> routes == old(routes) + [route] && r.value == |routes|)
    {
      var p := if StartsWith(path, "/") then path else "/" + path;
      var matcher := Tokenize(p);
      var namedParams := ParamNames(matcher);
      UniqShorterIffRepeats(namedParams);
      if |Uniq(namedParams)| < |namedParams| {
        return Failure("multiple params with the same name: " + p);
      }
      assert StartsWith("/" + path, "/");
      routes := routes + [Route(verb, handler, p, matcher, namedParams)];
      r := Success(|routes|);
    }

    /** `routes.find(...)`: the first route that takes the request. */
    method Find(verb: string, path: string) returns (found: Option<nat>)
      ensures found == First(routes, verb, path)
    {
      var i := 0;
      while i < |routes|
        invariant 0 <= i <= |routes|
        invariant First(routes, verb, path) == FirstFrom(routes, verb, path, i)
      {
        var lastMatch := MatchTokens(routes[i].matcher, path);
        if routes[i].verb == verb && lastMatch.Some? {
          return Some(i);
        }
        i := i + 1;
      }
      found := None;
    }

    /** `dispatch(conn)` with a 404 when no route takes the request. */
    method Dispatch(conn: Conn) returns (out: Dispatch<R>)
      requires Valid()
      ensures out == Dispatched(routes, conn)
    {
      var found := Find(conn.verb, conn.path);
      out := Deliver(found, conn, NotFound(404, RouteNotFound));
    }

    /** `dispatch(conn)` as written. */
    method DispatchAsWritten(conn: Conn) returns (out: Dispatch<R>)
      requires Valid()
      ensures out == DispatchedAsWritten(routes, conn)
    {
      var found := Find(conn.verb, conn.path);
      out := Deliver(found, conn, Threw(Build404Missing));
    }

    /** Sets `pathParams` and calls the handler of the route found, or ends
        in `missing`. */
    method Deliver(found: Option<nat>, conn: Conn, missing: Dispatch<R>) returns (out: Dispatch<R>)
      requires Valid() && found == First(routes, conn.verb, conn.path)
      ensures found.None? ==> out == missing
      ensures found.Some? ==> out == Dispatched(routes, conn) && out == DispatchedAsWritten(routes, conn)
    {
      FirstTakes(routes, conn.verb, conn.path);
      if found.None? {
        return missing;
      }
      var route := routes[found.value];
      var lastMatch := MatchTokens(route.matcher, conn.path);
      var params := BindParams(route.namedParams, lastMatch.value);
      out := Handled(found.value, route.handler(conn.(pathParams := Some(params))));
    }

    /** `reset()`, which the router calls and the dispatcher's tests expect:
        every route is dropped. */
    method Reset()
      modifies this
      ensures routes == [] && Valid()
    {
      routes := [];
    }
  }
}

=== FILE: encoding.dfy ===
/** The query-string codecs of `Refl/src/locflow/encoding.js`: a flat and a
    nested decoder from `a=1&b[c]=2` text to an object, and the encoder
    from an object back to query text. */
module Encoding {
  import opened Wrappers
  import opened Strings
  import opened JsValues

  /** `query.replace('?', '').split('&')`: the first `?`, wherever it is,
      is dropped. */
  function QueryParts(query: string): (parts: seq<string>)
    ensures |parts| >= 1
  {
    Split(RemoveFirst(query, '?'), {'&'})
  }

  /** `key.replace(/\[\]$/, '')`. */
  function StripArraySuffix(key: string): (r: string)
    ensures EndsWith(key, "[]") ==> r + "[]" == key
    ensures !EndsWith(key, "[]") ==> r == key
  {
    if EndsWith(key, "[]") then key[..|key| - 2] else key
  }

  /** A part `key=value` with exactly one `=` gives the key (without a
      trailing `[]`) and the value; any other part is skipped. */
  function ParsePart(part: string): (r: Option<(string, string)>)
    ensures r.Some? <==> Count(part, {'='}) == 1
    ensures r.Some? ==> r.value.0 + "=" + r.value.1 == part || r.value.0 + "[]=" + r.value.1 == part
  {
    SplitCount(part, {'='});
    JoinSplit(part, '=');
    var vals := Split(part, {'='});
    if |vals| != 2 then None
    else
      assert Join(vals, '=') == vals[0] + "=" + vals[1];
      Some((StripArraySuffix(vals[0]), vals[1]))
  }

  /** What `obj[key]` becomes when `value` arrives for it: a truthy value
      is turned into an array (unless it is one) and `value` is pushed; a
      missing or falsy one is replaced. */
  function AddValue(cur: Option<Value>, v: string): Value
  {
    if cur.Some? && Truthy(cur.value) then
      if cur.value.Arr? then Arr(cur.value.items + [Str(v)]) else Arr([cur.value, Str(v)])
    else Str(v)
  }

  /** The part handling both decoders share: `part.split('=')`, the
      two-piece check and the `[]` strip. */
  method ReadPart(part: string) returns (ok: bool, key: string, value: string)
    ensures ok <==> ParsePart(part).Some?
    ensures ok ==> ParsePart(part) == Some((key, value))
  {
    var vals := Split(part, {'='});
    ok := |vals| == 2;
    key, value := "", "";
    if ok {
      key, value := vals[0], vals[1];
      if EndsWith(key, "[]") {
        key := key[..|key| - 2];
      }
    }
  }

  // ---------------------------------------------------------------------
  // Flat decoding: `encodeQueryStringToFlatJson`.

  function FlatStep(obj: Fields<Value>, part: string): Fields<Value>
  {
    match ParsePart(part)
    case None => obj
    case Some((k, v)) => Put(obj, k, AddValue(Get(obj, k), v))
  }

  function FlatFold(obj: Fields<Value>, parts: seq<string>): Fields<Value>
    decreases |parts|
  {
    if parts == [] then obj
    else FlatStep(FlatFold(obj, parts[..|parts| - 1]), parts[|parts| - 1])
  }

  function FlatDecodeSpec(query: string): Fields<Value>
  {
    if query == "" then [] else FlatFold([], QueryParts(query))
  }

  /** `encodeQueryStringToFlatJson(query)`. */
  method FlatDecode(query: string) returns (obj: Fields<Value>)
    ensures obj == FlatDecodeSpec(query)
  {
    if query == "" {
      return [];
    }
    var parts := QueryParts(query);
    obj := [];
    var i := 0;
    while i < |parts|
      invariant 0 <= i <= |parts|
      invariant obj == FlatFold([], parts[..i])
    {
      assert parts[..i + 1][..i] == parts[..i];
      ghost var before := obj;
      var ok, key, value := ReadPart(parts[i]);
      if ok {
        var cur := Get(obj, key);
        if cur.Some? && Truthy(cur.value) {
          var arr := cur.value;
          if !arr.Arr? {
            arr := Arr([arr]);
            obj := Put(obj, key, arr);
            PutPut(before, key, arr, Arr(arr.items + [Str(value)]));
            assert arr.items + [Str(value)] == [cur.value, Str(value)];
          }
          obj := Put(obj, key, Arr(arr.items + [Str(value)]));
        } else {
          obj := Put(obj, key, Str(value));
        }
        assert obj == Put(before, key, AddValue(cur, value));
      }
      assert obj == FlatStep(before, parts[i]);
      i := i + 1;
    }
    assert parts[..|parts|] == parts;
  }

  /** The (key, value) pairs of the well-formed parts, in order. */
  function Pairs(parts: seq<string>): seq<(string, string)>
    decreases |parts|
  {
    if parts == [] then []
    else
      var init := Pairs(parts[..|parts| - 1]);
      match ParsePart(parts[|parts| - 1])
      case None => init
      case Some(kv) => init + [kv]
  }

  /** The values given for key `k`, in order. */
  function ValuesFor(pairs: seq<(string, string)>, k: string): (vs: seq<string>)
    ensures |vs| <= |pairs|
  {
    if pairs == [] then []
    else ValuesFor(pairs[..|pairs| - 1], k) + (if pairs[|pairs| - 1].0 == k then [pairs[|pairs| - 1].1] else [])
  }

  function PairKeys(pairs: seq<(string, string)>): (ks: seq<string>)
    ensures |ks| == |pairs| && forall i :: 0 <= i < |pairs| ==> ks[i] == pairs[i].0
  {
    seq(|pairs|, i requires 0 <= i < |pairs| => pairs[i].0)
  }

  /** The index of the first non-empty value. */
  function FirstNonEmpty(vs: seq<string>): (r: Option<nat>)
    ensures r.Some? ==> r.value < |vs| && vs[r.value] != ""
    ensures forall j :: 0 <= j < |vs| && (r.None? || j < r.value) ==> vs[j] == ""
  {
    if vs == [] then None
    else if vs[0] != "" then Some(0)
    else match FirstNonEmpty(vs[1..])
      case None => None
      case Some(i) => Some(i + 1)
  }

  function Strs(vs: seq<string>): (r: seq<Value>)
    ensures |r| == |vs| && forall i :: 0 <= i < |vs| ==> r[i] == Str(vs[i])
  {
    seq(|vs|, i requires 0 <= i < |vs| => Str(vs[i]))
  }

  /** What a key ends up holding when it was given the values `vs`: empty
      values before the first non-empty one are overwritten; a single
      non-empty value (the last one) stays a string; otherwise the values
      from the first non-empty one on form an array. */
  function Collapse(vs: seq<string>): Option<Value>
  {
    if vs == [] then None
    else match FirstNonEmpty(vs)
      case None => Some(Str(""))
      case Some(i) => if i == |vs| - 1 then Some(Str(vs[i])) else Some(Arr(Strs(vs[i..])))
  }

  lemma CollapseSnoc(vs: seq<string>, v: string)
    ensures Collapse(vs + [v]) == Some(AddValue(Collapse(vs), v))
  {
    var ws := vs + [v];
    assert ws[..|vs|] == vs && ws[|vs|] == v;
    if vs != [] {
      match FirstNonEmpty(vs)
      case None =>
        if v != "" {
          assert FirstNonEmpty(ws) == Some(|vs|);
        } else {
          assert FirstNonEmpty(ws) == None;
        }
      case Some(i) =>
        assert FirstNonEmpty(ws) == Some(i);
        if i < |vs| - 1 {
          assert Strs(ws[i..]) == Strs(vs[i..]) + [Str(v)];
        } else {
          assert Strs(ws[i..]) == [Str(vs[i]), Str(v)];
        }
    }
  }

  lemma ValuesForSnoc(ps: seq<(string, string)>, kv: (string, string), k: string)
    ensures ValuesFor(ps + [kv], k) == ValuesFor(ps, k) + (if kv.0 == k then [kv.1] else [])
  {
    assert (ps + [kv])[..|ps|] == ps;
  }

  lemma FlatStepGet(o: Fields<Value>, part: string, k: string)
    ensures ParsePart(part).None? ==> Get(FlatStep(o, part), k) == Get(o, k)
    ensures ParsePart(part).Some? ==>
              Get(FlatStep(o, part), k) ==
              (if ParsePart(part).value.0 == k then Some(AddValue(Get(o, k), ParsePart(part).value.1)) else Get(o, k))
  {
    match ParsePart(part)
    case None =>
    case Some(kv) => GetPut(o, kv.0, AddValue(Get(o, kv.0), kv.1), k);
  }

  /** The flat decoder, described value by value: each key holds exactly
      what `Collapse` gives for the values the query gives it, in order
      (`color=red&color=blue` gives `color` the array `['red', 'blue']`,
      `name=foo&color=` gives `color` the empty string). */
  lemma {:induction false} FlatFoldValues(parts: seq<string>, k: string)
    ensures Get(FlatFold([], parts), k) == Collapse(ValuesFor(Pairs(parts), k))
    decreases |parts|
  {
    if parts != [] {
      var init, last := parts[..|parts| - 1], parts[|parts| - 1];
      FlatFoldValues(init, k);
      FlatStepGet(FlatFold([], init), last, k);
      if ParsePart(last).Some? {
        var kv := ParsePart(last).value;
        ValuesForSnoc(Pairs(init), kv, k);
        assert Pairs(parts) == Pairs(init) + [kv];
        if kv.0 == k {
          CollapseSnoc(ValuesFor(Pairs(init), k), kv.1);
        } else {
          assert ValuesFor(Pairs(init), k) + [] == ValuesFor(Pairs(init), k);
        }
      }
    }
  }

  /** The flat decoder on a whole query. */
  lemma FlatDecodeValues(query: string, k: string)
    ensures Get(FlatDecodeSpec(query), k) == Collapse(ValuesFor(Pairs(QueryParts(query)), k))
  {
    FlatFoldValues(QueryParts(query), k);
    if query == "" {
      assert QueryParts(query) == [""];
      assert Split("", {'='}) == [""];
      assert Pairs([""]) == [];
    }
  }

  /** The keys of the flat object: every key the query names, once, in the
      order of first appearance. */
  lemma {:induction false} FlatFoldKeys(parts: seq<string>)
    ensures Keys(FlatFold([], parts)) == Uniq(PairKeys(Pairs(parts)))
    ensures DistinctKeys(FlatFold([], parts))
    decreases |parts|
  {
    if parts != [] {
      var init := parts[..|parts| - 1];
      var o := FlatFold([], init);
      FlatFoldKeys(init);
      match ParsePart(parts[|parts| - 1])
      case None =>
      case Some(kv) =>
        var ps := Pairs(init);
        assert PairKeys(ps + [kv]) == PairKeys(ps) + [kv.0];
        UniqSnoc(PairKeys(ps), kv.0);
        UniqShorterIffRepeats(PairKeys(ps));
        KeysPut(o, kv.0, AddValue(Get(o, kv.0), kv.1));
        PutDistinct(o, kv.0, AddValue(Get(o, kv.0), kv.1));
    }
  }

  // ---------------------------------------------------------------------
  // Nested decoding: `encodeQueryStringToNestedJson`.

  /** `key.split('[').map(p => p.replace(']', ''))`: `a[b][c]` gives
      `a`, `b`, `c`. */
  function KeyPath(key: string): (path: seq<string>)
    ensures |path| >= 1
  {
    var ps := Split(key, {'['});
    seq(|ps|, i requires 0 <= i < |ps| => RemoveFirst(ps[i], ']'))
  }

  /** `s` is made of decimal digits only. */
  predicate AllDigits(s: string)
  {
    forall i :: 0 <= i < |s| ==> '0' <= s[i] <= '9'
  }

  /** The whole number a string of decimal digits denotes. */
  function DigitsValue(s: string): nat
    requires AllDigits(s)
    decreases |s|
  {
    if s == [] then 0 else DigitsValue(s[..|s| - 1]) * 10 + (s[|s| - 1] as int - '0' as int)
  }

  /** `String(n)` for a whole number: its digits, without leading zeros. */
  function DecimalText(n: nat): (s: string)
    ensures |s| >= 1 && AllDigits(s)
    decreases n
  {
    var d := [('0' as int + n % 10) as char];
    if n < 10 then d else DecimalText(n / 10) + d
  }

  /** A property key that names an array element: `ToString(ToUint32(k))`
      is `k` itself and `k` is not 2^32 - 1, so `0`, `1`, `12`, but not
      `01`, `-1`, `1.0` or `foo`. */
  predicate IsIndex(k: string)
  {
    |k| >= 1 && AllDigits(k) && DigitsValue(k) < 0xFFFF_FFFF && DecimalText(DigitsValue(k)) == k
  }

  /** The element an index key names. */
  function Index(k: string): nat
    requires IsIndex(k)
  {
    DigitsValue(k)
  }

  /** The text of every element position is an index key naming that
      position, and two index keys name the same element only when they
      are the same text. */
  lemma {:induction false} IndexText(n: nat)
    ensures DigitsValue(DecimalText(n)) == n
    ensures n < 0xFFFF_FFFF ==> IsIndex(DecimalText(n)) && Index(DecimalText(n)) == n
    ensures forall k :: IsIndex(k) && Index(k) == n ==> k == DecimalText(n)
    decreases n
  {
    var s := DecimalText(n);
    if n >= 10 {
      IndexText(n / 10);
      assert s[..|s| - 1] == DecimalText(n / 10);
    }
  }

  /** Under an object or an array, `c[k]`; `None` stands for `undefined`,
      which an array hole or an index past the end also reads as. */
  function Member(c: Value, k: string): Option<Value>
  {
    match c
    case Obj(fs) => Get(fs, k)
    case Arr(items) =>
      if IsIndex(k) && Index(k) < |items| && !items[Index(k)].Undefined? then Some(items[Index(k)]) else None
    case _ => None
  }

  /** `items[i] = x`: past the end the array grows to `i + 1` elements,
      the positions in between being holes. */
  function SetItem(items: seq<Value>, i: nat, x: Value): (r: seq<Value>)
    ensures |r| == if i < |items| then |items| else i + 1
    ensures r[i] == x && forall j :: 0 <= j < |r| && j != i ==> r[j] == if j < |items| then items[j] else Undefined
  {
    if i < |items| then items[i := x] else items + seq(i - |items|, _ => Undefined) + [x]
  }

  /** `c[k] = x` on an object or an array. On an array a key that is not
      an index becomes a named property of the array, which neither
      `Object.keys`, `forEach` nor a deep comparison of arrays sees, so
      the value drops it. */
  function SetMember(c: Value, k: string, x: Value): Value
  {
    match c
    case Obj(fs) => Obj(Put(fs, k, x))
    case Arr(items) => if IsIndex(k) then Arr(SetItem(items, Index(k), x)) else c
    case _ => c
  }

  predicate Container(c: Value)
  {
    c.Obj? || c.Arr?
  }

  /** `objRef[k] || {}`: what the walk moves to from a step's value. */
  function Child(cur: Option<Value>): Value
  {
    if cur.Some? && Truthy(cur.value) then cur.value else Obj([])
  }

  /** Writes `v` at `path` below the object or array `c`, walking as
      `objRef` does: a missing or falsy step becomes `{}`; an object or
      an array is entered; a truthy built-in object takes the rest of the
      write as properties no listing sees; a truthy primitive on the way
      (a non-empty string) makes the strict-mode property write throw a
      TypeError. At the end `AddValue` joins `v` to what was there. */
  function InsertAt(c: Value, path: seq<string>, v: string): (r: Result<Value>)
    requires Container(c) && |path| >= 1
    ensures r.Success? ==> r.value.Obj? == c.Obj? && r.value.Arr? == c.Arr?
    ensures r.Success? && c.Obj? ==> path[0] in Keys(r.value.fields)
    ensures r.Success? && c.Obj? ==> forall k :: k in Keys(c.fields) ==> k in Keys(r.value.fields)
    decreases |path|
  {
    var k := path[0];
    if |path| == 1 then
      var x := AddValue(Member(c, k), v);
      if c.Obj? then KeysPut(c.fields, k, x); Success(SetMember(c, k, x))
      else Success(SetMember(c, k, x))
    else
      var child := Child(Member(c, k));
      if Container(child) then
        match InsertAt(child, path[1..], v)
        case Success(c2) =>
          if c.Obj? then KeysPut(c.fields, k, c2); Success(SetMember(c, k, c2))
          else Success(SetMember(c, k, c2))
        case Failure(e) => Failure(e)
      else if child.Builtin? then Success(c)
      else Failure("TypeError: cannot create a property on a primitive value")
  }

  /** `obj` after one `key=value` part, from the decoder's top object. */
  function Insert(o: Fields<Value>, path: seq<string>, v: string): (r: Result<Fields<Value>>)
    requires |path| >= 1
    ensures r.Success? ==> path[0] in Keys(r.value)
    ensures r.Success? ==> forall k :: k in Keys(o) ==> k in Keys(r.value)
    ensures |path| > 1 && Get(o, path[0]).Some? && Get(o, path[0]).value.Str? && Truthy(Get(o, path[0]).value) ==> r.Failure?
  {
    match InsertAt(Obj(o), path, v)
    case Success(c) => Success(c.fields)
    case Failure(e) => Failure(e)
  }

  function NestedStep(r: Result<Fields<Value>>, part: string): Result<Fields<Value>>
  {
    if r.Failure? then r
    else match ParsePart(part)
      case None => r
      case Some((k, v)) => Insert(r.value, KeyPath(k), v)
  }

  function NestedFold(r: Result<Fields<Value>>, parts: seq<string>): Result<Fields<Value>>
    decreases |parts|
  {
    if parts == [] then r
    else NestedStep(NestedFold(r, parts[..|parts| - 1]), parts[|parts| - 1])
  }

  function NestedDecodeSpec(query: string): Result<Fields<Value>>
  {
    if query == "" then Success([]) else NestedFold(Success([]), QueryParts(query))
  }

  /** `encodeQueryStringToNestedJson(query)`; `Failure` is the TypeError
      the walk throws. */
  method NestedDecode(query: string) returns (r: Result<Fields<Value>>)
    ensures r == NestedDecodeSpec(query)
  {
    if query == "" {
      return Success([]);
    }
    var parts := QueryParts(query);
    var obj: Fields<Value> := [];
    var i := 0;
    while i < |parts|
      invariant 0 <= i <= |parts|
      invariant NestedFold(Success([]), parts[..i]) == Success(obj)
    {
      var ok, key, value := ReadPart(parts[i]);
      var next := Success(obj);
      if ok {
        next := Insert(obj, KeyPath(key), value);
      }
      NestedAdvance(parts, i, obj, if ok then Some((key, value)) else None, next);
      if next.Failure? {
        NestedFailed(parts, i + 1);
        return next;
      }
      obj := next.value;
      i := i + 1;
    }
    assert parts[..|parts|] == parts;
    r := Success(obj);
  }

  /** The nested decoder handles the parts one at a time, in order. */
  lemma NestedFoldStep(parts: seq<string>, i: nat)
    requires i < |parts|
    ensures NestedFold(Success([]), parts[..i + 1]) == NestedStep(NestedFold(Success([]), parts[..i]), parts[i])
  {
    assert parts[..i + 1][..i] == parts[..i];
  }

  /** The nested decoder after one more part: nothing changes for a part
      that is not `key=value`, and the value is inserted at the key's path
      otherwise. */
  lemma NestedAdvance(parts: seq<string>, i: nat, obj: Fields<Value>, parsed: Option<(string, string)>,
                      next: Result<Fields<Value>>)
    requires i < |parts| && NestedFold(Success([]), parts[..i]) == Success(obj)
    requires parsed == ParsePart(parts[i])
    requires next == match parsed
                     case None => Success(obj)
                     case Some((k, v)) => Insert(obj, KeyPath(k), v)
    ensures NestedFold(Success([]), parts[..i + 1]) == next
  {
    NestedFoldStep(parts, i);
  }

  /** Once a part has thrown, the decoder has thrown. */
  lemma {:induction false} NestedFailed(parts: seq<string>, n: nat)
    requires n <= |parts| && NestedFold(Success([]), parts[..n]).Failure?
    ensures NestedFold(Success([]), parts) == NestedFold(Success([]), parts[..n])
    decreases |parts| - n
  {
    if n < |parts| {
      assert parts[..n + 1][..n] == parts[..n];
      NestedFailed(parts, n + 1);
    } else {
      assert parts[..n] == parts;
    }
  }

  lemma KeyPathPlain(key: string)
    requires '[' !in key && ']' !in key
    ensures KeyPath(key) == [key]
  {
    SplitNone(key, {'['});
  }

  /** Without brackets in the query, the nested decoder gives exactly what
      the flat one gives. */
  lemma NestedAgreesWithFlat(query: string)
    requires '[' !in query && ']' !in query
    ensures NestedDecodeSpec(query) == Success(FlatDecodeSpec(query))
  {
    if query != "" {
      var parts := QueryParts(query);
      forall i | 0 <= i < |parts| ensures '[' !in parts[i] && ']' !in parts[i] {
        forall c | c in parts[i] ensures c in query {
          SplitPieceChars(RemoveFirst(query, '?'), {'&'}, i, c);
          RemoveFirstChars(query, '?', c);
        }
      }
      FoldsAgree(parts);
    }
  }

  lemma {:induction false} FoldsAgree(parts: seq<string>)
    requires forall i :: 0 <= i < |parts| ==> '[' !in parts[i] && ']' !in parts[i]
    ensures NestedFold(Success([]), parts) == Success(FlatFold([], parts))
    decreases |parts|
  {
    if parts != [] {
      var init, last := parts[..|parts| - 1], parts[|parts| - 1];
      FoldsAgree(init);
      match ParsePart(last)
      case None =>
      case Some((k, v)) =>
        var vals := Split(last, {'='});
        forall c | c in vals[0] ensures c in last {
          SplitPieceChars(last, {'='}, 0, c);
        }
        assert k == vals[0];
        KeyPathPlain(k);
    }
  }

  /** `c[p0][p1]…[pn]`: the value reached by reading `path` through
      nested objects and arrays; a step that is neither reads nothing. */
  function GetPath(c: Value, path: seq<string>): Option<Value>
    requires |path| >= 1
    decreases |path|
  {
    var cur := Member(c, path[0]);
    if |path| == 1 || cur.None? then cur else GetPath(cur.value, path[1..])
  }

  /** No step of the walk below `c` along `path` is a truthy primitive,
      the case in which the property write throws. */
  predicate Reachable(c: Value, path: seq<string>)
    requires |path| >= 1
    decreases |path|
  {
    |path| == 1 ||
    (var child := Child(Member(c, path[0]));
     if Container(child) then Reachable(child, path[1..]) else child.Builtin?)
  }

  /** Every step of the walk below `c` along `path` lands in an object,
      or in an array at an index key, and every step that is present and
      truthy is itself an object or an array: the write neither throws
      nor lands on a property no listing sees. */
  predicate Walkable(c: Value, path: seq<string>)
    requires |path| >= 1
    decreases |path|
  {
    (c.Obj? || (c.Arr? && IsIndex(path[0])))
    && (|path| == 1 || (Container(Child(Member(c, path[0]))) && Walkable(Child(Member(c, path[0])), path[1..])))
  }

  /** `q` leaves `path`: the two differ at a position both have. */
  predicate Diverges(q: seq<string>, path: seq<string>)
    decreases |q|
  {
    |q| >= 1 && |path| >= 1 && (q[0] != path[0] || Diverges(q[1..], path[1..]))
  }

  /** The walk throws exactly when it meets a truthy primitive. */
  lemma {:induction false} InsertSucceeds(c: Value, path: seq<string>, v: string)
    requires Container(c) && |path| >= 1
    ensures InsertAt(c, path, v).Success? <==> Reachable(c, path)
    decreases |path|
  {
    if |path| > 1 {
      var child := Child(Member(c, path[0]));
      if Container(child) {
        InsertSucceeds(child, path[1..], v);
      }
    }
  }

  /** `c[k] = x` gives `c[k]` the value `x` where the key names a slot,
      and leaves every other key reading as before. */
  lemma MemberSet(c: Value, k: string, x: Value, q: string)
    requires Container(c) && !x.Undefined?
    ensures q != k ==> Member(SetMember(c, k, x), q) == Member(c, q)
    ensures (c.Obj? || IsIndex(k)) ==> Member(SetMember(c, k, x), k) == Some(x)
  {
    match c
    case Obj(fs) =>
      GetPut(fs, k, x, q);
      GetPut(fs, k, x, k);
    case Arr(items) => ItemSet(items, k, x, q);
  }

  lemma ItemSet(items: seq<Value>, k: string, x: Value, q: string)
    requires !x.Undefined?
    ensures q != k ==> Member(SetMember(Arr(items), k, x), q) == Member(Arr(items), q)
    ensures IsIndex(k) ==> Member(SetMember(Arr(items), k, x), k) == Some(x)
  {
    if IsIndex(k) && IsIndex(q) && q != k {
      IndexText(Index(k));
      assert Index(q) != Index(k);
    }
  }

  /** A value that is neither an object nor an array reads nothing. */
  lemma GetPathLeaf(c: Value, path: seq<string>)
    requires |path| >= 1 && !Container(c)
    ensures GetPath(c, path) == None
  {
  }

  lemma GetPathEmpty(path: seq<string>)
    requires |path| >= 1
    ensures GetPath(Obj([]), path) == None
  {
  }

  lemma InsertLeaf(c: Value, path: seq<string>, v: string)
    requires Container(c) && |path| == 1
    ensures InsertAt(c, path, v) == Success(SetMember(c, path[0], AddValue(Member(c, path[0]), v)))
  {
  }

  lemma InsertStep(c: Value, path: seq<string>, v: string)
    requires |path| > 1 && Container(c) && Container(Child(Member(c, path[0])))
    requires InsertAt(Child(Member(c, path[0])), path[1..], v).Success?
    ensures InsertAt(c, path, v)
            == Success(SetMember(c, path[0], InsertAt(Child(Member(c, path[0])), path[1..], v).value))
  {
  }

  /** Reading a longer path through what the walk enters reads what the
      path held before: the same object or array, or nothing below a
      missing or falsy step. */
  lemma GetPathEntered(c: Value, q: seq<string>, path: seq<string>)
    requires |path| > 1 && Walkable(c, path) && |q| > 1 && q[0] == path[0]
    ensures GetPath(c, q) == GetPath(Child(Member(c, path[0])), q[1..])
  {
    var cur := Member(c, q[0]);
    if cur.Some? && !Truthy(cur.value) {
      GetPathLeaf(cur.value, q[1..]);
    }
    if !(cur.Some? && Truthy(cur.value)) {
      GetPathEmpty(q[1..]);
    }
  }

  /** One step of `GetPath`. */
  lemma GetPathAt(c: Value, path: seq<string>, x: Value)
    requires |path| > 1 && Member(c, path[0]) == Some(x)
    ensures GetPath(c, path) == GetPath(x, path[1..])
  {
  }

  /** A walkable write succeeds and leaves at the end of the path what
      `AddValue` makes of the value found there before (nothing, when a
      step was missing or falsy and became `{}`). */
  lemma {:induction false} InsertWrites(c: Value, path: seq<string>, v: string)
    requires |path| >= 1 && Walkable(c, path)
    ensures InsertAt(c, path, v).Success?
    ensures GetPath(InsertAt(c, path, v).value, path) == Some(AddValue(GetPath(c, path), v))
    decreases |path|
  {
    var k := path[0];
    if |path| == 1 {
      InsertLeaf(c, path, v);
      MemberSet(c, k, AddValue(Member(c, k), v), k);
    } else {
      var child := Child(Member(c, k));
      GetPathEntered(c, path, path);
      InsertWrites(child, path[1..], v);
      var c2 := InsertAt(child, path[1..], v).value;
      InsertStep(c, path, v);
      MemberSet(c, k, c2, k);
      GetPathAt(SetMember(c, k, c2), path, c2);
    }
  }

  /** A walkable write changes no path that leaves its own: siblings at
      every level, objects and arrays alike, keep their values. */
  lemma {:induction false} InsertFrame(c: Value, path: seq<string>, v: string, q: seq<string>)
    requires |path| >= 1 && Walkable(c, path) && Diverges(q, path)
    ensures InsertAt(c, path, v).Success? && GetPath(InsertAt(c, path, v).value, q) == GetPath(c, q)
    decreases |path|
  {
    InsertWrites(c, path, v);
    var k := path[0];
    if |path| == 1 {
      InsertLeaf(c, path, v);
      MemberSet(c, k, AddValue(Member(c, k), v), q[0]);
      GetPathFirst(SetMember(c, k, AddValue(Member(c, k), v)), c, q);
    } else {
      var child := Child(Member(c, k));
      var c2 := InsertAt(child, path[1..], v).value;
      InsertStep(c, path, v);
      MemberSet(c, k, c2, q[0]);
      if q[0] == k {
        InsertFrame(child, path[1..], v, q[1..]);
        GetPathAt(SetMember(c, k, c2), q, c2);
        GetPathEntered(c, q, path);
      } else {
        GetPathFirst(SetMember(c, k, c2), c, q);
      }
    }
  }

  /** Two values that agree on the first step of `q` agree on all of it. */
  lemma GetPathFirst(a: Value, b: Value, q: seq<string>)
    requires |q| >= 1 && Member(a, q[0]) == Member(b, q[0])
    ensures GetPath(a, q) == GetPath(b, q)
  {
  }

  /** One `key=value` part of the query writes its value at the key's
      bracket path and leaves every path that leaves it alone. */
  lemma NestedPartWrites(parts: seq<string>, i: nat, obj: Fields<Value>, k: string, v: string, q: seq<string>)
    requires i < |parts| && NestedFold(Success([]), parts[..i]) == Success(obj)
    requires ParsePart(parts[i]) == Some((k, v)) && Walkable(Obj(obj), KeyPath(k))
    ensures NestedFold(Success([]), parts[..i + 1]).Success?
    ensures GetPath(Obj(NestedFold(Success([]), parts[..i + 1]).value), KeyPath(k))
            == Some(AddValue(GetPath(Obj(obj), KeyPath(k)), v))
    ensures Diverges(q, KeyPath(k)) ==>
            GetPath(Obj(NestedFold(Success([]), parts[..i + 1]).value), q) == GetPath(Obj(obj), q)
  {
    NestedFoldStep(parts, i);
    InsertWrites(Obj(obj), KeyPath(k), v);
    if Diverges(q, KeyPath(k)) {
      InsertFrame(Obj(obj), KeyPath(k), v, q);
    }
  }

  /** `a[b][c]` from its segments `a`, `b`, `c`. */
  function BracketKey(segs: seq<string>): (key: string)
    requires |segs| >= 1
    decreases |segs|
  {
    if |segs| == 1 then segs[0]
    else BracketKey(segs[..|segs| - 1]) + "[" + segs[|segs| - 1] + "]"
  }

  function BracketPieces(segs: seq<string>): seq<string>
  {
    seq(|segs|, i requires 0 <= i < |segs| => if i == 0 then segs[i] else segs[i] + "]")
  }

  lemma {:induction false} BracketKeyJoin(segs: seq<string>)
    requires |segs| >= 1
    ensures BracketKey(segs) == Join(BracketPieces(segs), '[')
    decreases |segs|
  {
    if |segs| > 1 {
      var init := segs[..|segs| - 1];
      BracketKeyJoin(init);
      assert BracketPieces(segs) == BracketPieces(init) + [segs[|segs| - 1] + "]"];
      JoinSnoc(BracketPieces(init), segs[|segs| - 1] + "]", '[');
    }
  }

  lemma {:induction false} RemoveClosing(s: string)
    requires NoneOf(s, {']'})
    ensures RemoveFirst(s + "]", ']') == s
    decreases |s|
  {
    if s != [] {
      assert (s + "]")[1..] == s[1..] + "]";
      RemoveClosing(s[1..]);
    }
  }

  /** The key path of `a[b][c]` is its segments, when no segment holds a
      bracket. */
  lemma KeyPathOfBrackets(segs: seq<string>)
    requires |segs| >= 1 && forall i :: 0 <= i < |segs| ==> NoneOf(segs[i], {'[', ']'})
    ensures KeyPath(BracketKey(segs)) == segs
  {
    var pieces := BracketPieces(segs);
    BracketKeyJoin(segs);
    forall i | 0 <= i < |pieces| ensures NoneOf(pieces[i], {'['}) {
      PieceNoneOf(segs, i);
    }
    SplitJoin(pieces, '[');
    var path := KeyPath(BracketKey(segs));
    assert |path| == |segs|;
    forall i | 0 <= i < |segs| ensures path[i] == segs[i] {
      if i > 0 {
        PieceNoneOf(segs, i);
        RemoveClosing(segs[i]);
      }
    }
  }

  lemma PieceNoneOf(segs: seq<string>, i: nat)
    requires i < |segs| && forall j :: 0 <= j < |segs| ==> NoneOf(segs[j], {'[', ']'})
    ensures NoneOf(BracketPieces(segs)[i], {'['})
    ensures i == 0 ==> BracketPieces(segs)[i] == segs[i]
    ensures i > 0 ==> BracketPieces(segs)[i] == segs[i] + "]" && NoneOf(segs[i], {']'})
  {
  }

  lemma {:induction false} BracketKeyNoneOf(segs: seq<string>, chars: set<char>)
    requires |segs| >= 1 && '[' !in chars && ']' !in chars
    requires forall i :: 0 <= i < |segs| ==> NoneOf(segs[i], chars)
    ensures NoneOf(BracketKey(segs), chars)
    decreases |segs|
  {
    if |segs| > 1 {
      BracketKeyNoneOf(segs[..|segs| - 1], chars);
    }
  }

  /** A key whose last segment is not empty does not end in `[]`, so the
      array-suffix strip leaves it alone. */
  lemma BracketKeyNotArray(segs: seq<string>)
    requires |segs| >= 1 && forall i :: 0 <= i < |segs| ==> NoneOf(segs[i], {'[', ']'})
    requires segs[|segs| - 1] != ""
    ensures !EndsWith(BracketKey(segs), "[]")
  {
    var last := segs[|segs| - 1];
    if |segs| == 1 {
      assert last[|last| - 1] != ']';
    } else {
      ClosedNotArray(BracketKey(segs[..|segs| - 1]), last);
    }
  }

  lemma ClosedNotArray(init: string, last: string)
    requires last != "" && last[|last| - 1] != '['
    ensures !EndsWith(init + "[" + last + "]", "[]")
  {
    var key := init + "[" + last + "]";
    assert key[|key| - 2] == last[|last| - 1];
  }

  /** A query of one `key=value` part inserts the value at the key's path
      into an empty object. */
  lemma NestedDecodeSinglePart(key: string, v: string)
    requires NoneOf(key, {'=', '&', '?'}) && NoneOf(v, {'=', '&', '?'})
    requires !EndsWith(key, "[]")
    ensures NestedDecodeSpec(key + "=" + v) == Insert([], KeyPath(key), v)
  {
    var query := key + "=" + v;
    assert NoneOf(query, {'&', '?'});
    SplitNone(query, {'&'});
    assert QueryParts(query) == [query];
    assert Join([key, v], '=') == query;
    SplitJoin([key, v], '=');
    assert ParsePart(query) == Some((key, v));
    assert NestedFold(Success([]), [query]) == NestedStep(Success([]), query);
  }

  /** A key segment with no bracket and none of the characters that end
      a key or a part. */
  predicate PlainSegment(seg: string)
  {
    NoneOf(seg, {'[', ']', '=', '&', '?'})
  }

  lemma PlainSegmentChars(seg: string)
    requires PlainSegment(seg)
    ensures NoneOf(seg, {'[', ']'}) && NoneOf(seg, {'=', '&', '?'})
  {
  }

  /** A one-part query `a[b][c]=v` decodes to the chain of objects
      `{a: {b: {c: v}}}`, which holds `v` at `a`, `b`, `c`. */
  lemma NestedDecodeOne(segs: seq<string>, v: string)
    requires |segs| >= 1 && forall i :: 0 <= i < |segs| ==> PlainSegment(segs[i])
    requires segs[|segs| - 1] != "" && NoneOf(v, {'=', '&', '?'})
    ensures NestedDecodeSpec(BracketKey(segs) + "=" + v) == Success([(segs[0], Chain(segs[1..], v))])
    ensures GetPath(Obj(NestedDecodeSpec(BracketKey(segs) + "=" + v).value), segs) == Some(Str(v))
  {
    forall i | 0 <= i < |segs| ensures NoneOf(segs[i], {'[', ']'}) && NoneOf(segs[i], {'=', '&', '?'}) {
      PlainSegmentChars(segs[i]);
    }
    var key := BracketKey(segs);
    KeyPathOfBrackets(segs);
    BracketKeyNoneOf(segs, {'=', '&', '?'});
    BracketKeyNotArray(segs);
    NestedDecodeSinglePart(key, v);
    InsertFresh(segs, v);
    WalkableEmpty(segs);
    InsertWrites(Obj([]), segs, v);
    GetPathEmpty(segs);
  }

  /** Below an array, a key that is not an index names a property of the
      array no listing sees: the write is dropped and the whole value is
      as before. */
  lemma InsertUnderArray(c: Value, path: seq<string>, v: string, items: seq<Value>)
    requires Container(c) && |path| > 1 && Member(c, path[0]) == Some(Arr(items)) && !IsIndex(path[1])
    ensures InsertAt(c, path, v) == Success(c)
  {
    NamedDropped(items, path[1..], v);
    InsertStep(c, path, v);
    SetMemberSame(c, path[0], Arr(items));
  }

  lemma NamedDropped(items: seq<Value>, path: seq<string>, v: string)
    requires |path| >= 1 && !IsIndex(path[0])
    ensures InsertAt(Arr(items), path, v) == Success(Arr(items))
  {
    if |path| > 1 {
      ReachableEmpty(path[1..]);
      InsertSucceeds(Obj([]), path[1..], v);
    }
  }

  /** Writing back the value a key holds changes nothing. */
  lemma SetMemberSame(c: Value, k: string, x: Value)
    requires Container(c) && Member(c, k) == Some(x)
    ensures SetMember(c, k, x) == c
  {
    match c
    case Obj(fs) => PutSame(fs, k, x);
    case Arr(elems) =>
      assert SetItem(elems, Index(k), x) == elems;
  }

  /** Below an array, an index key names the element: it is entered when
      it is an object or an array, a truthy primitive there throws, and at
      the end of the path `AddValue` joins the value to the element. */
  lemma InsertIntoElement(c: Value, path: seq<string>, v: string, items: seq<Value>)
    requires Container(c) && |path| > 1 && Member(c, path[0]) == Some(Arr(items)) && IsIndex(path[1])
    ensures var cur := Member(Arr(items), path[1]);
            (|path| == 2 ==> InsertAt(c, path, v)
                             == Success(SetMember(c, path[0], Arr(SetItem(items, Index(path[1]), AddValue(cur, v))))))
            && (|path| > 2 && cur.Some? && cur.value.Str? && Truthy(cur.value) ==> InsertAt(c, path, v).Failure?)
  {
  }

  /** A fresh `{}` is walkable along every path and no write below it throws. */
  lemma {:induction false} WalkableEmpty(path: seq<string>)
    requires |path| >= 1
    ensures Walkable(Obj([]), path)
    decreases |path|
  {
    if |path| > 1 {
      WalkableEmpty(path[1..]);
    }
  }

  lemma {:induction false} ReachableEmpty(path: seq<string>)
    requires |path| >= 1
    ensures Reachable(Obj([]), path)
    decreases |path|
  {
    if |path| > 1 {
      ReachableEmpty(path[1..]);
    }
  }

  /** Writing a key's own value back leaves the fields as they are. */
  lemma {:induction false} PutSame(o: Fields<Value>, k: string, x: Value)
    requires Get(o, k) == Some(x)
    ensures Put(o, k, x) == o
    decreases |o|
  {
    if o[0].0 != k {
      PutSame(o[1..], k, x);
    }
  }

  /** The nest of one-field objects holding `v` at the end of `path`. */
  function Chain(path: seq<string>, v: string): Value
    decreases |path|
  {
    if path == [] then Str(v) else Obj([(path[0], Chain(path[1..], v))])
  }

  /** Into an empty object the walk builds the chain of objects the path
      names, with the value at its end; index keys give objects too, as
      `{}` is what a missing step becomes. */
  lemma {:induction false} InsertFresh(path: seq<string>, v: string)
    requires |path| >= 1
    ensures InsertAt(Obj([]), path, v) == Success(Chain(path, v))
    ensures Insert([], path, v) == Success([(path[0], Chain(path[1..], v))])
    decreases |path|
  {
    if |path| == 1 {
      PutNew([], path[0], Str(v));
    } else {
      InsertFresh(path[1..], v);
      PutNew([], path[0], Chain(path[1..], v));
    }
  }

  /** The three ways an index key below an array is handled, on
      `{a: ['x', 'y']}`: `a[0]=z` joins `z` to the first element,
      `a[2]=z` appends it, and `a[0][b]=z` throws on the string `'x'`. */
  lemma ArrayIndexExamples()
    ensures Insert([("a", Arr([Str("x"), Str("y")]))], ["a", "0"], "z")
            == Success([("a", Arr([Arr([Str("x"), Str("z")]), Str("y")]))])
    ensures Insert([("a", Arr([Str("x"), Str("y")]))], ["a", "2"], "z")
            == Success([("a", Arr([Str("x"), Str("y"), Str("z")]))])
    ensures Insert([("a", Arr([Str("x"), Str("y")]))], ["a", "0", "b"], "z").Failure?
  {
    var o := [("a", Arr([Str("x"), Str("y")]))];
    var items := [Str("x"), Str("y")];
    assert Child(Member(Obj(o), "a")) == Arr(items);
    var first := [Arr([Str("x"), Str("z")]), Str("y")];
    IndexText(0);
    assert DecimalText(0) == "0";
    assert Member(Arr(items), "0") == Some(Str("x"));
    ElementExample(items, "0", 0, first);
    OuterExample(o, ["a", "0"], Arr(items), Arr(first));
    var appended := [Str("x"), Str("y"), Str("z")];
    ElementExample(items, "2", 2, appended);
    OuterExample(o, ["a", "2"], Arr(items), Arr(appended));
    ThrowExample(o, items);
  }

  lemma ThrowExample(o: Fields<Value>, items: seq<Value>)
    requires o == [("a", Arr(items))] && items == [Str("x"), Str("y")]
    ensures Insert(o, ["a", "0", "b"], "z").Failure?
  {
    var path := ["a", "0", "b"];
    IndexText(0);
    assert DecimalText(0) == "0" && path[1..] == ["0", "b"];
    assert Member(Arr(items), "0") == Some(Str("x"));
    assert InsertAt(Arr(items), path[1..], "z").Failure?;
  }

  /** `items[k]` after the write of `z` at the index key `k`, for the
      examples above. */
  lemma ElementExample(items: seq<Value>, k: string, i: nat, r: seq<Value>)
    requires items == [Str("x"), Str("y")] && k == DecimalText(i) && i < 3
    requires (i == 0 && r == [Arr([Str("x"), Str("z")]), Str("y")])
             || (i == 2 && r == [Str("x"), Str("y"), Str("z")])
    ensures InsertAt(Arr(items), [k], "z") == Success(Arr(r))
  {
    IndexText(i);
    InsertLeaf(Arr(items), [k], "z");
    if i == 0 {
      assert Member(Arr(items), k) == Some(Str("x"));
      assert SetItem(items, 0, Arr([Str("x"), Str("z")])) == r;
    } else {
      assert Member(Arr(items), k) == None;
      assert SetItem(items, 2, Str("z")) == r;
    }
  }

  lemma OuterExample(o: Fields<Value>, path: seq<string>, a: Value, a2: Value)
    requires o == [("a", a)] && a.Arr? && a2.Arr? && |path| == 2 && path[0] == "a"
    requires InsertAt(a, [path[1]], "z") == Success(a2)
    ensures Insert(o, path, "z") == Success([("a", a2)])
  {
    assert path[1..] == [path[1]];
    assert Child(Member(Obj(o), "a")) == a;
    InsertStep(Obj(o), path, "z");
    assert Put(o, "a", a2) == [("a", a2)];
  }

  // ---------------------------------------------------------------------
  // Encoding: `encodeJsonToQueryString`.

  /** `valueString(key, value)`: an object gives its fields under
      `key[field]`, an array gives `key[]=item` per item, anything else
      `key=value`, joined with `&`. */
  function ValueText(key: string, value: Value): string
    decreases value, 1
  {
    match value
    case Obj(fs) => Join(FieldTexts(key, value, 0), '&')
    case Arr(items) => Join(ItemTexts(key, items), '&')
    case _ => key + "=" + Stringify(value)
  }

  /** The texts of an object's fields from the `i`-th on, each under
      `key[field]`. */
  function FieldTexts(key: string, value: Value, i: nat): (r: seq<string>)
    requires value.Obj? && i <= |value.fields|
    ensures |r| == |value.fields| - i
    decreases value, 0, |value.fields| - i
  {
    if i == |value.fields| then []
    else [ValueText(key + "[" + value.fields[i].0 + "]", value.fields[i].1)] + FieldTexts(key, value, i + 1)
  }

  function ItemTexts(key: string, items: seq<Value>): (r: seq<string>)
    ensures |r| == |items|
  {
    seq(|items|, i requires 0 <= i < |items| => key + "[]=" + Stringify(items[i]))
  }

  function TopTexts(data: Fields<Value>): (r: seq<string>)
    ensures |r| == |data|
    decreases data
  {
    if data == [] then [] else [ValueText(data[0].0, data[0].1)] + TopTexts(data[1..])
  }

  function EncodeSpec(data: Fields<Value>): string
  {
    Join(TopTexts(data), '&')
  }

  lemma {:induction false} FieldTextsAt(key: string, value: Value, i: nat, j: nat)
    requires value.Obj? && i <= j < |value.fields|
    ensures FieldTexts(key, value, i)[j - i] == ValueText(key + "[" + value.fields[j].0 + "]", value.fields[j].1)
    decreases j - i
  {
    if i < j {
      FieldTextsAt(key, value, i + 1, j);
    }
  }

  lemma {:induction false} TopTextsAt(data: Fields<Value>, i: nat)
    requires i < |data|
    ensures TopTexts(data)[i] == ValueText(data[i].0, data[i].1)
    decreases i
  {
    if i > 0 {
      TopTextsAt(data[1..], i - 1);
    }
  }

  /** Appending piece `i` of `n` the way the source's `forEach` loops do:
      the piece, then `&` unless it was the last. */
  lemma JoinStep(pieces: seq<string>, i: nat)
    requires i < |pieces|
    ensures Join(pieces[..i], '&') + (if 0 < i then "&" else "") + pieces[i] == Join(pieces[..i + 1], '&')
  {
    if i > 0 {
      assert pieces[..i + 1] == pieces[..i] + [pieces[i]];
      JoinSnoc(pieces[..i], pieces[i], '&');
    } else {
      assert pieces[..1] == [pieces[0]];
    }
  }

  /** The loop invariant of the `forEach` loops after piece `i` and its `&`
      are appended. */
  lemma JoinAdvance(pieces: seq<string>, i: nat, qs: string)
    requires i < |pieces| && qs == Join(pieces[..i], '&') + (if 0 < i < |pieces| then "&" else "")
    ensures qs + pieces[i] + (if i < |pieces| - 1 then "&" else "") ==
            Join(pieces[..i + 1], '&') + (if 0 < i + 1 < |pieces| then "&" else "")
  {
    JoinStep(pieces, i);
  }

  /** `valueString(key, value)`. */
  method EncodeValue(key: string, value: Value) returns (qs: string)
    ensures qs == ValueText(key, value)
    decreases value, 1
  {
    match value {
      case Obj(_) => qs := EncodeFields(key, value);
      case Arr(items) => qs := EncodeItems(key, items);
      case _ => qs := key + "=" + Stringify(value);
    }
  }

  /** The object branch of `valueString`: each field under `key[field]`,
      separated by `&`. */
  method EncodeFields(key: string, value: Value) returns (qs: string)
    requires value.Obj?
    ensures qs == Join(FieldTexts(key, value, 0), '&')
    decreases value, 0
  {
    var fs := value.fields;
    ghost var pieces := FieldTexts(key, value, 0);
    qs := "";
    var i := 0;
    while i < |fs|
      invariant 0 <= i <= |fs|
      invariant qs == Join(pieces[..i], '&') + (if 0 < i < |fs| then "&" else "")
    {
      var piece := EncodeValue(key + "[" + fs[i].0 + "]", fs[i].1);
      FieldTextsAt(key, value, 0, i);
      JoinStep(pieces, i);
      qs := qs + piece;
      if i < |fs| - 1 {
        qs := qs + "&";
      }
      i := i + 1;
    }
    assert pieces[..|fs|] == pieces;
  }

  /** The array branch of `valueString`: `key[]=item` per item, separated
      by `&`. */
  method EncodeItems(key: string, items: seq<Value>) returns (qs: string)
    ensures qs == Join(ItemTexts(key, items), '&')
  {
    ghost var pieces := ItemTexts(key, items);
    qs := "";
    var i := 0;
    while i < |items|
      invariant 0 <= i <= |items|
      invariant qs == Join(pieces[..i], '&') + (if 0 < i < |items| then "&" else "")
    {
      JoinAdvance(pieces, i, qs);
      qs := qs + (key + "[]=" + Stringify(items[i]));
      if i < |items| - 1 {
        qs := qs + "&";
      }
      i := i + 1;
    }
    assert pieces[..|items|] == pieces;
  }

  /** `encodeJsonToQueryString(data)` for an object `data`. */
  method Encode(data: Fields<Value>) returns (qs: string)
    ensures qs == EncodeSpec(data)
  {
    ghost var pieces := TopTexts(data);
    qs := "";
    var i := 0;
    while i < |data|
      invariant 0 <= i <= |data|
      invariant qs == Join(pieces[..i], '&') + (if 0 < i < |data| then "&" else "")
    {
      var piece := EncodeValue(data[i].0, data[i].1);
      TopTextsAt(data, i);
      JoinAdvance(pieces, i, qs);
      qs := qs + piece;
      if i < |data| - 1 {
        qs := qs + "&";
      }
      i := i + 1;
    }
    assert pieces[..|data|] == pieces;
  }

  // ---------------------------------------------------------------------
  // Round trip.

  /** Text that survives the query syntax unchanged: no separator, no `?`,
      no brackets. */
  predicate Plain(s: string)
  {
    NoneOf(s, {'&', '=', '?', '[', ']'})
  }

  /** An object of plain string fields, each key once. */
  predicate FlatPlain(data: Fields<Value>)
  {
    DistinctKeys(data) && forall i :: 0 <= i < |data| ==> Plain(data[i].0) && data[i].1.Str? && Plain(data[i].1.s)
  }

  lemma PlainPart(k: string, v: string)
    requires Plain(k) && Plain(v)
    ensures ParsePart(k + "=" + v) == Some((k, v))
    ensures NoneOf(k + "=" + v, {'&', '?'})
  {
    var part := k + "=" + v;
    SplitJoin([k, v], '=');
    assert Join([k, v], '=') == part;
    assert !EndsWith(k, "[]") by {
      if |k| >= 2 {
        assert k[|k| - 1] in k;
      }
    }
  }

  lemma {:induction false} FlatFoldPlain(data: Fields<Value>)
    requires FlatPlain(data)
    ensures FlatFold([], TopTexts(data)) == data
    decreases |data|
  {
    if data != [] {
      var n := |data|;
      var init := data[..n - 1];
      FlatPlainInit(data);
      FlatFoldPlain(init);
      TopTextsTake(data, n - 1);
      TopTextsAt(data, n - 1);
      FlatPlainStep(init, data[n - 1].0, data[n - 1].1);
      assert init + [data[n - 1]] == data;
    }
  }

  /** Without its last field a plain flat object is still one, and lacks
      that field's key. */
  lemma FlatPlainInit(data: Fields<Value>)
    requires FlatPlain(data) && data != []
    ensures FlatPlain(data[..|data| - 1]) && data[|data| - 1].0 !in Keys(data[..|data| - 1])
  {
    assert Keys(data[..|data| - 1]) == Keys(data)[..|data| - 1];
  }

  /** The texts of the first `k` fields are the first `k` texts. */
  lemma {:induction false} TopTextsTake(data: Fields<Value>, k: nat)
    requires k <= |data|
    ensures TopTexts(data[..k]) == TopTexts(data)[..k]
    decreases k
  {
    if k > 0 {
      assert data[..k][1..] == data[1..][..k - 1];
      TopTextsTake(data[1..], k - 1);
    }
  }

  /** One plain `key=value` field appends itself to an object without that
      key. */
  lemma FlatPlainStep(init: Fields<Value>, k: string, v: Value)
    requires Plain(k) && v.Str? && Plain(v.s) && k !in Keys(init)
    ensures FlatStep(init, ValueText(k, v)) == init + [(k, v)]
  {
    assert ValueText(k, v) == k + "=" + v.s;
    PlainPart(k, v.s);
    PutNew(init, k, v);
  }

  /** Decoding the encoding of a plain flat object gives the object back. */
  lemma FlatRoundTrip(data: Fields<Value>)
    requires FlatPlain(data)
    ensures FlatDecodeSpec(EncodeSpec(data)) == data
    ensures EncodeSpec(data) == "" <==> data == []
    ensures '?' !in EncodeSpec(data)
  {
    var ts := TopTexts(data);
    forall i | 0 <= i < |data| ensures ts[i] == data[i].0 + "=" + data[i].1.s && NoneOf(ts[i], {'&', '?'}) {
      TopTextsAt(data, i);
      PlainPart(data[i].0, data[i].1.s);
    }
    if data != [] {
      var q := EncodeSpec(data);
      JoinNoneOf(ts, '&', '?');
      SplitJoin(ts, '&');
      FlatFoldPlain(data);
      assert q != "" by {
        assert |ts[0]| > 0;
        JoinFirst(ts, '&');
      }
    }
  }

  lemma {:induction false} JoinNoneOf(parts: seq<string>, sep: char, c: char)
    requires c != sep && forall i :: 0 <= i < |parts| ==> c !in parts[i]
    ensures c !in Join(parts, sep)
    decreases |parts|
  {
    if |parts| > 1 {
      JoinNoneOf(parts[1..], sep, c);
    }
  }

  lemma JoinFirst(parts: seq<string>, sep: char)
    requires |parts| >= 1
    ensures parts[0] <= Join(parts, sep)
  {
  }
}

=== FILE: form.dfy ===
/** The form helper of the PHP package (src/Form.php): the input type an
    admin form uses for a field, guessed from the suffix of the field's
    name. */
module Forms {
  import opened Strings

  const DatePicker := "date_picker"
  const HtmlEditor := "html_editor"
  const InputNumber := "input_number"
  const InputText := "input_text"

  predicate IsDate(field: string)
  {
    EndsWith(field, "_at") || EndsWith(field, "_date")
  }

  predicate IsHtml(field: string)
  {
    EndsWith(field, "_html")
  }

  predicate IsNumber(field: string)
  {
    EndsWith(field, "_number") || EndsWith(field, "_count")
  }

  /** The last two characters of a name with a suffix are the suffix's. */
  lemma LastTwo(field: string, suffix: string)
    requires |suffix| >= 2 && EndsWith(field, suffix)
    ensures field[|field| - 2..] == suffix[|suffix| - 2..]
  {
    assert field[|field| - 2..] == field[|field| - |suffix|..][|suffix| - 2..];
  }

  /** The suffix groups never overlap: their last two characters (`at`,
      `te`, `ml`, `er`, `nt`) all differ, so the order of the checks does
      not matter. */
  lemma SuffixesExclusive(field: string)
    ensures !(IsDate(field) && IsHtml(field))
    ensures !(IsDate(field) && IsNumber(field))
    ensures !(IsHtml(field) && IsNumber(field))
  {
    if EndsWith(field, "_at") { LastTwo(field, "_at"); }
    if EndsWith(field, "_date") { LastTwo(field, "_date"); }
    if EndsWith(field, "_html") { LastTwo(field, "_html"); }
    if EndsWith(field, "_number") { LastTwo(field, "_number"); }
    if EndsWith(field, "_count") { LastTwo(field, "_count"); }
  }

  /** `Form::guessInputType($field)`: exactly one of the four input types,
      each chosen by its own suffixes alone. */
  function GuessInputType(field: string): (r: string)
    ensures r in {DatePicker, HtmlEditor, InputNumber, InputText}
    ensures r == DatePicker <==> IsDate(field)
    ensures r == HtmlEditor <==> IsHtml(field)
    ensures r == InputNumber <==> IsNumber(field)
    ensures r == InputText <==> !IsDate(field) && !IsHtml(field) && !IsNumber(field)
  {
    SuffixesExclusive(field);
    if EndsWith(field, "_at") || EndsWith(field, "_date") then DatePicker
    else if EndsWith(field, "_html") then HtmlEditor
    else if EndsWith(field, "_number") || EndsWith(field, "_count") then InputNumber
    else InputText
  }

  /** Any name followed by a known suffix gets that suffix's type. */
  lemma SuffixDecides(name: string)
    ensures GuessInputType(name + "_at") == DatePicker
    ensures GuessInputType(name + "_date") == DatePicker
    ensures GuessInputType(name + "_html") == HtmlEditor
    ensures GuessInputType(name + "_number") == InputNumber
    ensures GuessInputType(name + "_count") == InputNumber
  {
    assert (name + "_at")[|name|..] == "_at";
    assert (name + "_date")[|name|..] == "_date";
    assert (name + "_html")[|name|..] == "_html";
    assert (name + "_number")[|name|..] == "_number";
    assert (name + "_count")[|name|..] == "_count";
  }
}

=== FILE: initializer.dfy ===
/** Refl's app initializer (Refl/src/app/initializer.js): the apps started
    by name, at most one per name. The module-level object is the state of
    one `Initializer`. */
module Initializers {
  import opened Wrappers
  import opened JsValues
  import opened Apps

  /** The apps of a name-to-app object, in key order. */
  function AppsOf(apps: Fields<App>): (r: seq<App>)
    ensures |r| == |apps| && forall i :: 0 <= i < |apps| ==> r[i] == apps[i].1
  {
    seq(|apps|, i requires 0 <= i < |apps| => apps[i].1)
  }

  class Initializer {
    /** `apps`: app name to app, in insertion order. */
    var apps: Fields<App>

    predicate Valid()
      reads this
    {
      DistinctKeys(apps)
    }

    constructor ()
      ensures apps == [] && Valid()
    {
      apps := [];
    }

    /** `initializeApp(appName, config)`: refuses a name already taken,
        otherwise creates and records the app (and starts it). */
    method InitializeApp(appName: string, config: Value) returns (r: Result<App>)
      requires Valid()
      modifies this
      ensures Valid()
      ensures old(Get(apps, appName)).Some? ==>
                apps == old(apps) && r == Failure("app with name [" + appName + "] already exists")
      ensures old(Get(apps, appName)).None? ==>
                r.Success? && fresh(r.value) && r.value.name == appName &&
                apps == Put(old(apps), appName, r.value) && Get(apps, appName) == Some(r.value)
    {
      if Get(apps, appName).Some? {
        return Failure("app with name [" + appName + "] already exists");
      }
      var app := new App(appName);
      PutDistinct(apps, appName, app);
      GetPut(apps, appName, app, appName);
      apps := Put(apps, appName, app);
      r := Success(app);
    }

    /** `getApp(appName)`. */
    method GetApp(appName: string) returns (app: Option<App>)
      ensures app == Get(apps, appName)
    {
      app := Get(apps, appName);
    }

    /** `clearAllApps()`: removes every app, in key order, returning the apps
        in the order they are closed. */
    method ClearAllApps() returns (closed: seq<App>)
      requires Valid()
      modifies this
      ensures Valid() && apps == []
      ensures closed == AppsOf(old(apps))
    {
      var appNames := Keys(apps);
      ghost var start := apps;
      closed := [];
      var i := 0;
      while i < |appNames|
        invariant 0 <= i <= |appNames| && |appNames| == |start|
        invariant appNames == Keys(start)
        invariant apps == start[i..] && DistinctKeys(apps)
        invariant closed == AppsOf(start[..i])
      {
        ClearStep(start, i);
        var app := Get(apps, appNames[i]);
        apps := Delete(apps, appNames[i]);
        closed := closed + [app.value];
        i := i + 1;
      }
      assert start[..i] == start;
    }
  }

  /** One round of `clearAllApps`: the first remaining name is the next key,
      its app is the next one closed, and deleting it leaves the rest. */
  lemma ClearStep(start: Fields<App>, i: nat)
    requires i < |start| && DistinctKeys(start[i..])
    ensures Keys(start)[i] == start[i..][0].0
    ensures Get(start[i..], Keys(start)[i]) == Some(start[i].1)
    ensures Delete(start[i..], Keys(start)[i]) == start[i + 1..] && DistinctKeys(start[i + 1..])
    ensures AppsOf(start[..i + 1]) == AppsOf(start[..i]) + [start[i].1]
  {
    var rest := start[i..];
    assert rest[0] == start[i];
    DeleteFirst(rest);
    assert rest[1..] == start[i + 1..];
    AppsOfSnoc(start, i);
  }

  lemma AppsOfSnoc(o: Fields<App>, i: nat)
    requires i < |o|
    ensures AppsOf(o[..i + 1]) == AppsOf(o[..i]) + [o[i].1]
  {
    var a := AppsOf(o[..i + 1]);
    var b := AppsOf(o[..i]) + [o[i].1];
    assert |a| == |b|;
    forall k | 0 <= k < |a| ensures a[k] == b[k] {
      if k < i {
        assert a[k] == o[k].1;
      }
    }
  }

  /** Clearing and starting again: after `initializeApp` the name is taken,
      and only a name not yet taken can be initialized. */
  lemma NamesTaken(apps: Fields<App>, appName: string, app: App, other: string)
    ensures Get(Put(apps, appName, app), appName).Some?
    ensures other != appName ==> Get(Put(apps, appName, app), other) == Get(apps, other)
  {
    GetPut(apps, appName, app, appName);
    GetPut(apps, appName, app, other);
  }
}

=== FILE: js_values.dfy ===
/** The JavaScript values the modelled code stores, compares and converts to
    text, and plain objects as ordered field lists (a JavaScript object
    enumerates its keys in insertion order). */
module JsValues {
  import opened Wrappers
  import opened Strings

  /** A plain object's own enumerable properties, in insertion order. */
  type Fields<T> = seq<(string, T)>

  /** A JavaScript value. `Num` holds the number's canonical decimal text;
      `Builtin` is any other object (a Date, a function, a regular
      expression) whose class tag is neither Object, Array nor String, with
      the text `String(v)` gives for it. */
  datatype Value =
    | Undefined
    | Null
    | Bool(b: bool)
    | Num(text: string)
    | Str(s: string)
    | Arr(items: seq<Value>)
    | Obj(fields: Fields<Value>)
    | Builtin(text: string)

  /** JavaScript truthiness: `undefined`, `null`, `false`, `0`, `NaN` and
      `''` are falsy, every object and array is truthy. */
  predicate Truthy(v: Value)
  {
    match v
    case Undefined => false
    case Null => false
    case Bool(b) => b
    case Num(t) => t != "0" && t != "NaN"
    case Str(s) => s != ""
    case _ => true
  }

  /** `v == null` in JavaScript (loose equality). */
  predicate Nullish(v: Value)
  {
    v.Undefined? || v.Null?
  }

  /** `String(v)`, the conversion string concatenation applies to a value. */
  function Stringify(v: Value): string
    decreases v
  {
    match v
    case Undefined => "undefined"
    case Null => "null"
    case Bool(b) => if b then "true" else "false"
    case Num(t) => t
    case Str(s) => s
    case Arr(items) => ArrayText(items)
    case Obj(_) => "[object Object]"
    case Builtin(t) => t
  }

  /** `Array.prototype.join(',')`: elements that are `null` or `undefined`
      contribute the empty string. */
  function ArrayText(items: seq<Value>): string
    decreases items
  {
    if |items| == 0 then ""
    else
      var head := if Nullish(items[0]) then "" else Stringify(items[0]);
      if |items| == 1 then head else head + "," + ArrayText(items[1..])
  }

  /** `Object.keys(o)`. */
  function Keys<T>(o: Fields<T>): (r: seq<string>)
    ensures |r| == |o|
    ensures forall i :: 0 <= i < |o| ==> r[i] == o[i].0
  {
    if |o| == 0 then [] else [o[0].0] + Keys(o[1..])
  }

  predicate DistinctKeys<T>(o: Fields<T>)
  {
    Distinct(Keys(o))
  }

  /** `o[k]`, `None` standing for `undefined`. */
  function Get<T>(o: Fields<T>, k: string): (r: Option<T>)
    ensures r.Some? <==> k in Keys(o)
    ensures r.Some? ==> (k, r.value) in o
  {
    if |o| == 0 then None
    else if o[0].0 == k then Some(o[0].1)
    else Get(o[1..], k)
  }

  /** `o[k] = v`: an existing key keeps its position, a new key goes last. */
  function Put<T>(o: Fields<T>, k: string, v: T): (r: Fields<T>)
    ensures |r| == if k in Keys(o) then |o| else |o| + 1
    ensures forall i :: 0 <= i < |o| ==> r[i].0 == o[i].0
    ensures k !in Keys(o) ==> r[|o|] == (k, v)
  {
    if |o| == 0 then [(k, v)]
    else if o[0].0 == k then [(k, v)] + o[1..]
    else
      var rest := Put(o[1..], k, v);
      assert k in Keys(o) <==> k in Keys(o[1..]);
      [o[0]] + rest
  }

  /** After `o[k] = v`, `o[k]` is `v` and every other key reads as before. */
  lemma {:induction false} GetPut<T>(o: Fields<T>, k: string, v: T, k2: string)
    ensures Get(Put(o, k, v), k2) == if k2 == k then Some(v) else Get(o, k2)
    decreases |o|
  {
    if |o| > 0 && o[0].0 != k {
      GetPut(o[1..], k, v, k2);
    }
  }

  /** `o[k] = v` keeps the key order and appends a new key. */
  lemma {:induction false} KeysPut<T>(o: Fields<T>, k: string, v: T)
    ensures Keys(Put(o, k, v)) == if k in Keys(o) then Keys(o) else Keys(o) + [k]
  {
  }

  /** `delete o[k]`. */
  function Delete<T>(o: Fields<T>, k: string): (r: Fields<T>)
    requires DistinctKeys(o)
    ensures Get(r, k) == None
    ensures forall k2 :: k2 != k ==> Get(r, k2) == Get(o, k2)
    ensures DistinctKeys(r)
  {
    if |o| == 0 then []
    else if o[0].0 == k then
      KeysTail(o);
      o[1..]
    else
      KeysTail(o);
      var r := Delete(o[1..], k);
      assert Get(r, o[0].0) == None;
      KeysCons(o[0], r);
      [o[0]] + r
  }

  /** The fields after the first have the keys after the first. */
  lemma KeysTail<T>(o: Fields<T>)
    requires DistinctKeys(o) && o != []
    ensures Keys(o[1..]) == Keys(o)[1..] && DistinctKeys(o[1..]) && o[0].0 !in Keys(o[1..])
  {
  }

  /** A field in front of fields without its key keeps the keys distinct. */
  lemma KeysCons<T>(f: (string, T), o: Fields<T>)
    requires DistinctKeys(o) && f.0 !in Keys(o)
    ensures Keys([f] + o) == [f.0] + Keys(o) && DistinctKeys([f] + o)
  {
    assert ([f] + o)[1..] == o;
  }

  /** Deleting a key that is not there changes nothing. */
  lemma {:induction false} DeleteAbsent<T>(o: Fields<T>, k: string)
    requires DistinctKeys(o) && k !in Keys(o)
    ensures Delete(o, k) == o
    decreases |o|
  {
    if |o| > 0 {
      assert Keys(o[1..]) == Keys(o)[1..];
      assert o[0].0 == Keys(o)[0];
      DeleteAbsent(o[1..], k);
    }
  }

  /** Deleting the first key leaves the remaining fields: `for (k in o)
      delete o[k]` removes the fields in order. */
  lemma DeleteFirst<T>(o: Fields<T>)
    requires DistinctKeys(o) && o != []
    ensures Delete(o, o[0].0) == o[1..] && DistinctKeys(o[1..])
  {
  }

  /** The keys of `a` followed by those of `b`. */
  lemma {:induction false} KeysAppend<T>(a: Fields<T>, b: Fields<T>)
    ensures Keys(a + b) == Keys(a) + Keys(b)
  {
  }

  /** Looking up a key in a list that ends in one more field. */
  lemma {:induction false} GetSnoc<T>(o: Fields<T>, f: (string, T), k: string)
    ensures Get(o + [f], k) ==
      if k in Keys(o) then Get(o, k) else if f.0 == k then Some(f.1) else None
    decreases |o|
  {
    if |o| > 0 {
      assert (o + [f])[1..] == o[1..] + [f];
      GetSnoc(o[1..], f, k);
    }
  }

  /** Writing fields one after another: `for (k in f) o[k] = f[k]`. */
  function PutAll<T>(o: Fields<T>, f: Fields<T>): Fields<T>
    decreases |f|
  {
    if |f| == 0 then o
    else Put(PutAll(o, f[..|f| - 1]), f[|f| - 1].0, f[|f| - 1].1)
  }

  /** Copying one more field of `f`: the step of a `for (k in f)` loop. */
  lemma PutAllStep<T>(o: Fields<T>, f: Fields<T>, i: nat)
    requires i < |f|
    ensures PutAll(o, f[..i + 1]) == Put(PutAll(o, f[..i]), f[i].0, f[i].1)
  {
    assert f[..i + 1][..i] == f[..i];
  }

  /** After copying `f` into `o`, the keys of `f` hold `f`'s values and every
      other key keeps `o`'s. */
  lemma {:induction false} GetPutAll<T>(o: Fields<T>, f: Fields<T>, k: string)
    requires DistinctKeys(f)
    ensures Get(PutAll(o, f), k) == if k in Keys(f) then Get(f, k) else Get(o, k)
    decreases |f|
  {
    if |f| > 0 {
      var init, last := f[..|f| - 1], f[|f| - 1];
      assert f == init + [last];
      KeysAppend(init, [last]);
      assert Keys(init) == Keys(f)[..|f| - 1];
      assert last.0 !in Keys(init);
      assert DistinctKeys(init);
      GetPutAll(o, init, k);
      GetPut(PutAll(o, init), last.0, last.1, k);
      GetSnoc(init, last, k);
    }
  }

  /** The keys after copying `f` into `o`: those of `o`, then the new ones
      of `f` in order. */
  lemma {:induction false} KeysPutAll<T>(o: Fields<T>, f: Fields<T>, k: string)
    ensures k in Keys(PutAll(o, f)) <==> k in Keys(o) || k in Keys(f)
    ensures DistinctKeys(o) ==> DistinctKeys(PutAll(o, f))
    decreases |f|
  {
    if |f| > 0 {
      var init, last := f[..|f| - 1], f[|f| - 1];
      assert f == init + [last];
      KeysPutAll(o, init, k);
      KeysAppend(init, [last]);
      var p := PutAll(o, init);
      KeysPut(p, last.0, last.1);
      if DistinctKeys(o) && last.0 !in Keys(p) {
        var ks := Keys(p) + [last.0];
        forall i, j | 0 <= i < j < |ks| ensures ks[i] != ks[j] {
          if j == |ks| - 1 { assert ks[i] in Keys(p); }
        }
      }
    }
  }

  /** Copying fields that repeat a key: the last write of a key wins. */
  lemma {:induction false} GetPutAllLast<T>(o: Fields<T>, f: Fields<T>, i: nat)
    requires i < |f| && f[i].0 !in Keys(f[i + 1..])
    ensures Get(PutAll(o, f), f[i].0) == Some(f[i].1)
    decreases |f|
  {
    var init, last := f[..|f| - 1], f[|f| - 1];
    GetPut(PutAll(o, init), last.0, last.1, f[i].0);
    if i < |f| - 1 {
      assert Keys(f[i + 1..])[|f| - 2 - i] == last.0;
      GetPutAllLast(o, init, i);
    }
  }

  /** Writing a key that is not there yet appends it. */
  lemma {:induction false} PutNew<T>(o: Fields<T>, k: string, v: T)
    requires k !in Keys(o)
    ensures Put(o, k, v) == o + [(k, v)]
    decreases |o|
  {
    if |o| > 0 {
      assert Keys(o)[0] == o[0].0;
      assert Keys(o)[1..] == Keys(o[1..]);
      PutNew(o[1..], k, v);
      assert [o[0]] + (o[1..] + [(k, v)]) == o + [(k, v)];
    }
  }

  /** A second write of the same key replaces the first. */
  lemma {:induction false} PutPut<T>(o: Fields<T>, k: string, v: T, w: T)
    ensures Put(Put(o, k, v), k, w) == Put(o, k, w)
    decreases |o|
  {
    if |o| > 0 && o[0].0 != k {
      var r := Put(o, k, v);
      assert r[0] == o[0] && r[1..] == Put(o[1..], k, v);
      PutPut(o[1..], k, v, w);
    }
  }

  /** Writing a key never duplicates one. */
  lemma PutDistinct<T>(o: Fields<T>, k: string, v: T)
    requires DistinctKeys(o)
    ensures DistinctKeys(Put(o, k, v))
  {
    KeysPut(o, k, v);
    if k !in Keys(o) {
      var ks := Keys(o) + [k];
      forall i, j | 0 <= i < j < |ks| ensures ks[i] != ks[j] {
        if j == |ks| - 1 { assert ks[i] in Keys(o); }
      }
    }
  }
}

=== FILE: locflow.dfy ===
/** Locflow's client-side route table (Refl/src/locflow/locflow.js): the
    callbacks registered per path, a default route used for any other path,
    and the route the browser is currently on. Callbacks are opaque values of
    type `C`; calling one is recorded as a `Call` in the order it happens. */
module Locflows {
  import opened Wrappers
  import opened Strings
  import opened JsValues
  import opened Urls

  /** The `{onVisit, onLeave}` object `when` stores. */
  datatype Route<C> = Route(onVisit: C, onLeave: C)

  /** `currentRoute`: none yet, a registered route object, or the default
      route object itself (whose callbacks `setDefaultHandler` replaces in
      place). */
  datatype Current<C> = Nowhere | At(route: Route<C>) | AtDefault

  /** One callback call, with the path it received. */
  datatype Call<C> = Call(callback: C, path: string)

  /** The first argument of `when`: a path or an array of paths. */
  datatype Paths = One(path: string) | Many(paths: seq<string>)

  const EmptyPaths := "empty array - no routes given"

  /** `new Url(path).path`: the path part a route is registered and
      visited under. */
  function Key(path: string): string
  {
    Parse(path).path
  }

  /** A plain absolute path is its own key. */
  lemma PlainPathKey(path: string)
    requires path != "" && path[0] == '/' && NoneOf(path, {'?', '#'})
    ensures Key(path) == path
  {
    ParseRelative(path);
    PartsShape(path);
  }

  /** What a visit to `key` makes current: its registered route, or the
      default route. */
  function Lookup<C>(routes: Fields<Route<C>>, key: string): Current<C>
  {
    match Get(routes, key)
    case Some(r) => At(r)
    case None => AtDefault
  }

  /** The callbacks the current route has now. */
  function Callbacks<C>(current: Current<C>, defaultRoute: Route<C>): Option<Route<C>>
  {
    match current
    case Nowhere => None
    case At(r) => Some(r)
    case AtDefault => Some(defaultRoute)
  }

  /** The calls `visit(path)` makes: the current route's `onLeave`, if there
      is a current route, then the target's `onVisit`, both with the new
      path. */
  function VisitCalls<C>(routes: Fields<Route<C>>, defaultRoute: Route<C>, current: Current<C>,
                         path: string): seq<Call<C>>
  {
    var key := Key(path);
    var leave := match Callbacks(current, defaultRoute)
                 case None => []
                 case Some(r) => [Call(r.onLeave, key)];
    leave + [Call(Callbacks(Lookup(routes, key), defaultRoute).value.onVisit, key)]
  }

  /** The table after `when` registered `route` for each path, in order. */
  function Registered<C>(routes: Fields<Route<C>>, paths: seq<string>, route: Route<C>): Fields<Route<C>>
    decreases |paths|
  {
    if paths == [] then routes
    else Registered(Put(routes, Key(paths[0]), route), paths[1..], route)
  }

  /** After `when(paths, ...)` every given path is registered with the new
      callbacks, and every other key keeps its route. */
  lemma {:induction false} RegisteredGet<C>(routes: Fields<Route<C>>, paths: seq<string>, route: Route<C>, key: string)
    ensures Get(Registered(routes, paths, route), key) ==
              if exists p :: p in paths && Key(p) == key then Some(route) else Get(routes, key)
    decreases |paths|
  {
    if paths != [] {
      var rest := paths[1..];
      RegisteredGet(Put(routes, Key(paths[0]), route), rest, route, key);
      GetPut(routes, Key(paths[0]), route, key);
      if exists p :: p in rest && Key(p) == key {
        var p :| p in rest && Key(p) == key;
        assert p in paths;
      } else if Key(paths[0]) == key {
        assert paths[0] in paths;
      } else {
        forall p | p in paths ensures Key(p) != key {
          if p != paths[0] {
            assert p in rest;
          }
        }
      }
    }
  }

  /** Every visit ends with the target's `onVisit`, preceded by the current
      route's `onLeave` exactly when there is a current route; the target is
      the registered route, or the default one for an unregistered path. */
  lemma VisitOrder<C>(routes: Fields<Route<C>>, defaultRoute: Route<C>, current: Current<C>, path: string)
    ensures var calls := VisitCalls(routes, defaultRoute, current, path);
            (current.Nowhere? <==> |calls| == 1) &&
            (!current.Nowhere? ==> |calls| == 2 && calls[0] == Call(Callbacks(current, defaultRoute).value.onLeave, Key(path))) &&
            calls[|calls| - 1].path == Key(path) &&
            (Get(routes, Key(path)).Some? ==> calls[|calls| - 1].callback == Get(routes, Key(path)).value.onVisit) &&
            (Get(routes, Key(path)).None? ==> calls[|calls| - 1].callback == defaultRoute.onVisit)
  {
  }

  /** After `when(p, v, l)` and `visit(p)`, the next visit to any `q` first
      calls `l` with `q`'s path. */
  lemma LeaveAfterVisit<C>(routes: Fields<Route<C>>, defaultRoute: Route<C>, current: Current<C>,
                           p: string, q: string, v: C, l: C)
    ensures var table := Put(routes, Key(p), Route(v, l));
            VisitCalls(table, defaultRoute, current, p)[|VisitCalls(table, defaultRoute, current, p)| - 1] == Call(v, Key(p)) &&
            Lookup(table, Key(p)) == At(Route(v, l)) &&
            VisitCalls(table, defaultRoute, Lookup(table, Key(p)), q)[0] == Call(l, Key(q))
  {
    GetPut(routes, Key(p), Route(v, l), Key(p));
  }

  /** The default route is shared: when the browser is on it, a later
      `setDefaultHandler` decides which `onLeave` the next visit calls. */
  lemma DefaultHandlerApplies<C>(routes: Fields<Route<C>>, before: Route<C>, after: Route<C>, p: string, q: string)
    requires Get(routes, Key(p)).None?
    ensures Lookup(routes, Key(p)) == AtDefault
    ensures VisitCalls(routes, before, Nowhere, p) == [Call(before.onVisit, Key(p))]
    ensures VisitCalls(routes, after, Lookup(routes, Key(p)), q)[0] == Call(after.onLeave, Key(q))
  {
  }

  class Locflow<C> {
    /** `routes`. */
    var routes: Fields<Route<C>>
    /** `defaultRoute`. */
    var defaultRoute: Route<C>
    /** `currentRoute`. */
    var current: Current<C>
    /** The callback calls made so far. */
    var calls: seq<Call<C>>

    /** The module as loaded, with the default route's two logging
        callbacks. */
    constructor (logVisit: C, logLeave: C)
      ensures routes == [] && defaultRoute == Route(logVisit, logLeave)
      ensures current == Nowhere && calls == []
    {
      routes := [];
      defaultRoute := Route(logVisit, logLeave);
      current := Nowhere;
      calls := [];
    }

    /** `clearRoutes()`. */
    method ClearRoutes()
      modifies this
      ensures routes == [] && forall path :: !HasRoute(path)
      ensures defaultRoute == old(defaultRoute) && current == old(current) && calls == old(calls)
    {
      routes := [];
    }

    /** `getRoute(path)`, looked up by the path as given. */
    method GetRoute(path: string) returns (route: Option<Route<C>>)
      ensures route.Some? <==> path in Keys(routes)
      ensures route.Some? ==> (path, route.value) in routes
      ensures route == Get(routes, path)
    {
      route := Get(routes, path);
    }

    /** `hasRoute(path)`: a route is stored under the path as given. */
    predicate HasRoute(path: string)
      reads this
      ensures HasRoute(path) <==> path in Keys(routes)
    {
      Get(routes, path).Some?
    }

    /** `setDefaultHandler(onVisit, onLeave)`. */
    method SetDefaultHandler(onVisit: C, onLeave: C)
      modifies this
      ensures defaultRoute == Route(onVisit, onLeave)
      ensures routes == old(routes) && current == old(current) && calls == old(calls)
    {
      defaultRoute := Route(onVisit, onLeave);
    }

    /** `when(path, onVisit, onLeave)`: one path is registered under its key
        and its route returned; an array registers each path in turn, and an
        empty one throws. */
    method When(paths: Paths, onVisit: C, onLeave: C) returns (r: Result<Option<Route<C>>>)
      modifies this
      ensures defaultRoute == old(defaultRoute) && current == old(current) && calls == old(calls)
      ensures paths.One? ==> routes == Put(old(routes), Key(paths.path), Route(onVisit, onLeave)) &&
                             HasRoute(Key(paths.path)) && r == Success(Some(Route(onVisit, onLeave)))
      ensures paths.Many? && paths.paths == [] ==> routes == old(routes) && r == Failure(EmptyPaths)
      ensures paths.Many? && paths.paths != [] ==>
                routes == Registered(old(routes), paths.paths, Route(onVisit, onLeave)) && r == Success(None)
    {
      var route := Route(onVisit, onLeave);
      match paths {
        case One(path) =>
          var key := Key(path);
          GetPut(routes, key, route, key);
          routes := Put(routes, key, route);
          return Success(Some(route));
        case Many(ps) =>
          if |ps| == 0 {
            return Failure(EmptyPaths);
          }
          var i := 0;
          while i < |ps|
            invariant 0 <= i <= |ps|
            invariant Registered(old(routes), ps, route) == Registered(routes, ps[i..], route)
            invariant defaultRoute == old(defaultRoute) && current == old(current) && calls == old(calls)
          {
            assert ps[i..][1..] == ps[i + 1..];
            routes := Put(routes, Key(ps[i]), route);
            i := i + 1;
          }
          return Success(None);
      }
    }

    /** `visit(path)`: the calls of `VisitCalls`, after which the visited
        route is current. */
    method Visit(path: string)
      modifies this
      ensures calls == old(calls) + VisitCalls(old(routes), old(defaultRoute), old(current), path)
      ensures current == Lookup(routes, Key(path))
      ensures routes == old(routes) && defaultRoute == old(defaultRoute)
    {
      var key := Key(path);
      var leaving := Callbacks(current, defaultRoute);
      var leave := if leaving.Some? then [Call(leaving.value.onLeave, key)] else [];
      var route := GetRoute(key);
      current := if route.Some? then At(route.value) else AtDefault;
      var target := Callbacks(current, defaultRoute).value;
      calls := calls + (leave + [Call(target.onVisit, key)]);
    }
  }
}

=== FILE: path_patterns.dfy ===
/** Route path patterns such as `/users/:id/posts/:post`, as both the HTTP
    dispatcher (`Refl/src/http/dispatcher.js`) and `Url.match`
    (`Locflow/src/url.js`) use them: every match of `/:[^\/]+/g` in the
    pattern is a named parameter, replaced by the capture group `([^\/]+)`
    in the regular expression `^...$` that paths are tested against.

    A pattern is read as a list of tokens. A parameter token is a `:`
    followed by the longest run of characters other than `/` (at least one;
    further `:`s included), so it always ends at a `/` or at the end of the
    pattern; every other character is a literal. Replacing each parameter's
    first occurrence in turn, as both sources do, puts the group exactly at
    that parameter's token: the inserted group text holds no `:`, and a `:`
    outside a token is followed by `/` or the end, so no earlier text can
    hold a parameter's text. */
module PathPatterns {
  import opened Wrappers
  import opened Strings
  import opened JsValues

  datatype Token = Lit(c: char) | Param(name: string)

  /** The scan of `path.match(/:[^\/]+/g)`: a `:` followed by a character
      other than `/` starts a parameter; anything else is a literal. */
  function Tokenize(p: string): seq<Token>
    decreases |p|
  {
    if p == [] then []
    else if p[0] == ':' && |p| > 1 && p[1] != '/' then
      var name := Span(p[1..], {'/'});
      [Param(name)] + Tokenize(p[1 + |name|..])
    else [Lit(p[0])] + Tokenize(p[1..])
  }

  /** The pattern text tokens stand for; a parameter is written `:name`. */
  function Render(toks: seq<Token>): string
  {
    if toks == [] then ""
    else (match toks[0] case Lit(c) => [c] case Param(n) => ":" + n) + Render(toks[1..])
  }

  /** The names of the parameters, in pattern order: `findNamedParams`, and
      the `match.replace(':', '')` of `Url.match`. */
  function ParamNames(toks: seq<Token>): (names: seq<string>)
    ensures |names| <= |toks|
  {
    if toks == [] then []
    else (if toks[0].Param? then [toks[0].name] else []) + ParamNames(toks[1..])
  }

  /** Every parameter has a non-empty name without `/` and is followed by a
      literal `/` or by the end of the pattern. */
  predicate WellFormed(toks: seq<Token>)
  {
    if toks == [] then true
    else
      (toks[0].Param? ==>
        toks[0].name != "" && NoneOf(toks[0].name, {'/'}) && (|toks| == 1 || toks[1] == Lit('/')))
      && WellFormed(toks[1..])
  }

  /** Tokenizing loses nothing: the tokens spell the pattern back. */
  lemma {:induction false} RenderTokenize(p: string)
    ensures Render(Tokenize(p)) == p
    decreases |p|
  {
    if p != [] {
      if p[0] == ':' && |p| > 1 && p[1] != '/' {
        var name := Span(p[1..], {'/'});
        RenderTokenize(p[1 + |name|..]);
        assert p == ":" + name + p[1 + |name|..];
      } else {
        RenderTokenize(p[1..]);
        assert p == [p[0]] + p[1..];
      }
    }
  }

  /** A pattern that starts with `/` tokenizes to a literal `/` first. */
  lemma SlashFirst(p: string)
    requires p != [] && p[0] == '/'
    ensures Tokenize(p)[0] == Lit('/')
  {
  }

  /** Every pattern the scan produces is well formed. */
  lemma {:induction false} TokenizeWellFormed(p: string)
    ensures WellFormed(Tokenize(p))
    decreases |p|
  {
    if p != [] {
      if p[0] == ':' && |p| > 1 && p[1] != '/' {
        var name := Span(p[1..], {'/'});
        var rest := p[1 + |name|..];
        TokenizeWellFormed(rest);
        if rest != [] {
          SlashFirst(rest);
        }
        assert Tokenize(p)[1..] == Tokenize(rest);
      } else {
        TokenizeWellFormed(p[1..]);
        assert Tokenize(p)[1..] == Tokenize(p[1..]);
      }
    }
  }

  /** What `^regex$` accepts, as the backtracking regular-expression engine
      sees it: a literal consumes its character, a group `([^\/]+)` any
      non-empty run without `/`, which is captured. `caps` are the captures
      in order. */
  predicate Accepts(toks: seq<Token>, path: string, caps: seq<string>)
    decreases |toks|
  {
    if toks == [] then path == [] && caps == []
    else match toks[0]
      case Lit(c) => |path| > 0 && path[0] == c && Accepts(toks[1..], path[1..], caps)
      case Param(_) =>
        |caps| > 0 && caps[0] != "" && NoneOf(caps[0], {'/'}) && caps[0] <= path
        && Accepts(toks[1..], path[|caps[0]|..], caps[1..])
  }

  /** Matching a path against a pattern, each group taking the longest run
      without `/`; `Some(caps)` holds the captures, `lastMatch[1..]`. */
  function MatchTokens(toks: seq<Token>, path: string): (r: Option<seq<string>>)
    ensures r.Some? ==> |r.value| == |ParamNames(toks)|
    decreases |toks|
  {
    if toks == [] then (if path == [] then Some([]) else None)
    else match toks[0]
      case Lit(c) =>
        if |path| > 0 && path[0] == c then MatchTokens(toks[1..], path[1..]) else None
      case Param(_) =>
        var seg := Span(path, {'/'});
        if seg == [] then None
        else match MatchTokens(toks[1..], path[|seg|..])
          case None => None
          case Some(rest) => Some([seg] + rest)
  }

  /** Every match found is one the regular expression accepts. */
  lemma {:induction false} MatchSound(toks: seq<Token>, path: string)
    requires MatchTokens(toks, path).Some?
    ensures Accepts(toks, path, MatchTokens(toks, path).value)
    decreases |toks|
  {
    if toks != [] {
      match toks[0]
      case Lit(c) => MatchSound(toks[1..], path[1..]);
      case Param(_) =>
        var seg := Span(path, {'/'});
        MatchSound(toks[1..], path[|seg|..]);
    }
  }

  lemma AcceptsStartsWith(toks: seq<Token>, path: string, caps: seq<string>)
    requires toks != [] && toks[0] == Lit('/') && Accepts(toks, path, caps)
    ensures path != [] && path[0] == '/'
  {
  }

  /** For a well-formed pattern the regular expression accepts a path in at
      most one way, and the matcher finds it: the captures are a function of
      the path. */
  lemma {:induction false} MatchComplete(toks: seq<Token>, path: string, caps: seq<string>)
    requires WellFormed(toks) && Accepts(toks, path, caps)
    ensures MatchTokens(toks, path) == Some(caps)
    decreases |toks|
  {
    if toks != [] {
      match toks[0]
      case Lit(c) => MatchComplete(toks[1..], path[1..], caps);
      case Param(_) =>
        var x := caps[0];
        var y := path[|x|..];
        assert path == x + y;
        if |toks| > 1 {
          AcceptsStartsWith(toks[1..], y, caps[1..]);
        }
        SpanOf(x, y, {'/'});
        MatchComplete(toks[1..], y, caps[1..]);
        assert caps == [x] + caps[1..];
    }
  }

  /** A pattern without parameters matches exactly the path it spells
      (`new RegExp('^' + path + '$')`, or `this.path == url.path`). */
  lemma {:induction false} LiteralMatch(toks: seq<Token>, path: string)
    requires ParamNames(toks) == []
    ensures MatchTokens(toks, path).Some? <==> path == Render(toks)
    ensures MatchTokens(toks, path).Some? ==> MatchTokens(toks, path).value == []
    decreases |toks|
  {
    if toks != [] {
      assert toks[0].Lit?;
      assert ParamNames(toks[1..]) == [];
      LiteralMatch(toks[1..], path[if |path| > 0 then 1 else 0..]);
    }
  }

  /** The object a match builds by writing `names[i] = caps[i]` in order. */
  function Bindings(names: seq<string>, caps: seq<string>): Fields<string>
    requires |names| == |caps|
  {
    PutAll([], seq(|names|, i requires 0 <= i < |names| => (names[i], caps[i])))
  }

  /** Each name reads the capture of its last occurrence, and the object has
      no other keys; with distinct names every name reads its own capture. */
  lemma BindingsGet(names: seq<string>, caps: seq<string>, i: nat)
    requires |names| == |caps| && i < |names| && names[i] !in names[i + 1..]
    ensures Get(Bindings(names, caps), names[i]) == Some(caps[i])
  {
    var f := seq(|names|, j requires 0 <= j < |names| => (names[j], caps[j]));
    assert Keys(f[i + 1..]) == names[i + 1..];
    GetPutAllLast([], f, i);
  }

  lemma BindingsKeys(names: seq<string>, caps: seq<string>, k: string)
    requires |names| == |caps|
    ensures k in Keys(Bindings(names, caps)) <==> k in names
    ensures DistinctKeys(Bindings(names, caps))
  {
    var f := seq(|names|, j requires 0 <= j < |names| => (names[j], caps[j]));
    assert Keys(f) == names;
    KeysPutAll([], f, k);
  }

  /** `names.forEach((name, index) => params[name] = caps[index])`, starting
      from `{}`. */
  method BindParams(names: seq<string>, caps: seq<string>) returns (params: Fields<string>)
    requires |names| == |caps|
    ensures params == Bindings(names, caps)
    ensures DistinctKeys(params)
    ensures forall k :: k in Keys(params) <==> k in names
    ensures forall i :: 0 <= i < |names| && names[i] !in names[i + 1..] ==>
              Get(params, names[i]) == Some(caps[i])
  {
    ghost var f := seq(|names|, j requires 0 <= j < |names| => (names[j], caps[j]));
    params := [];
    var i := 0;
    while i < |names|
      invariant 0 <= i <= |names|
      invariant params == PutAll([], f[..i])
    {
      PutAllStep([], f, i);
      params := Put(params, names[i], caps[i]);
      i := i + 1;
    }
    assert f[..|names|] == f;
    BindingsFacts(names, caps);
  }

  /** The facts `BindParams` promises, about `Bindings`. */
  lemma BindingsFacts(names: seq<string>, caps: seq<string>)
    requires |names| == |caps|
    ensures DistinctKeys(Bindings(names, caps))
    ensures forall k :: k in Keys(Bindings(names, caps)) <==> k in names
    ensures forall i :: 0 <= i < |names| && names[i] !in names[i + 1..] ==>
              Get(Bindings(names, caps), names[i]) == Some(caps[i])
  {
    forall k ensures k in Keys(Bindings(names, caps)) <==> k in names {
      BindingsKeys(names, caps, k);
    }
    BindingsKeys(names, caps, "");
    forall i | 0 <= i < |names| && names[i] !in names[i + 1..]
      ensures Get(Bindings(names, caps), names[i]) == Some(caps[i])
    {
      BindingsGet(names, caps, i);
    }
  }

  /** The literal tokens of a text. */
  function Lits(a: string): (toks: seq<Token>)
    ensures |toks| == |a|
  {
    if a == [] then [] else [Lit(a[0])] + Lits(a[1..])
  }

  /** Text without `:` is read as literals, whatever follows it. */
  lemma {:induction false} TokenizeLiteralPrefix(a: string, rest: string)
    requires ':' !in a
    ensures Tokenize(a + rest) == Lits(a) + Tokenize(rest)
    decreases |a|
  {
    if a != [] {
      var p := a + rest;
      assert p[0] == a[0] && a[0] != ':';
      assert p[1..] == a[1..] + rest;
      TokenizeLiteralPrefix(a[1..], rest);
      assert Tokenize(p) == [Lit(a[0])] + Tokenize(p[1..]);
    } else {
      assert a + rest == rest;
    }
  }

  /** Literal tokens consume exactly their own text. */
  lemma {:induction false} MatchLiteralPrefix(a: string, toks: seq<Token>, path: string)
    ensures MatchTokens(Lits(a) + toks, a + path) == MatchTokens(toks, path)
    decreases |a|
  {
    if a != [] {
      var ts, p := Lits(a) + toks, a + path;
      assert ts[0] == Lit(a[0]) && p[0] == a[0];
      assert ts[1..] == Lits(a[1..]) + toks;
      assert p[1..] == a[1..] + path;
      MatchLiteralPrefix(a[1..], toks, path);
    } else {
      assert Lits(a) + toks == toks && a + path == path;
    }
  }

  /** A parameter alone reads its name up to the end. */
  lemma ParamToken(name: string)
    requires name != "" && NoneOf(name, {'/'})
    ensures Tokenize(":" + name) == [Param(name)]
  {
    var par := ":" + name;
    assert par[1..] == name + [];
    SpanOf(name, [], {'/'});
    assert par[1 + |name|..] == [];
  }

  /** A lone parameter captures any non-empty value without `/`. */
  lemma MatchParamToken(name: string, v: string)
    ensures MatchTokens([Param(name)], v) == if v != "" && NoneOf(v, {'/'}) then Some([v]) else None
  {
    var toks := [Param(name)];
    assert toks[1..] == [];
    var seg := Span(v, {'/'});
    if NoneOf(v, {'/'}) {
      assert v + [] == v;
      SpanOf(v, [], {'/'});
      assert v[|seg|..] == [];
      assert MatchTokens(toks[1..], v[|seg|..]) == Some([]);
      assert [seg] + [] == [v];
    } else if seg != [] {
      assert |seg| < |v|;
      assert MatchTokens(toks[1..], v[|seg|..]) == None;
    }
  }

  /** A pattern made of a literal prefix and one trailing parameter, such
      as `/users/:id`, matches the prefix followed by any non-empty value
      without `/`, capturing that value, and nothing else that starts with
      the prefix (not `/users/` nor `/users/10/edit`). */
  lemma TrailingParam(lit: string, name: string, v: string)
    requires ':' !in lit && name != "" && NoneOf(name, {'/'})
    ensures Tokenize(lit + ":" + name) == Lits(lit) + [Param(name)]
    ensures MatchTokens(Tokenize(lit + ":" + name), lit + v) ==
              if v != "" && NoneOf(v, {'/'}) then Some([v]) else None
  {
    assert lit + ":" + name == lit + (":" + name);
    TokenizeLiteralPrefix(lit, ":" + name);
    ParamToken(name);
    MatchLiteralPrefix(lit, [Param(name)], v);
    MatchParamToken(name, v);
  }
}

=== FILE: pipeline.dfy ===
/** Refl's middleware pipelines (Refl/src/http/pipeline.js): a named list of
    steps `(conn, next) => ...` run one after another before a handler. */
module Pipelines {
  import opened Wrappers

  /** What sits in a step slot. `Call(run)` is a function that calls `next`
      once with `run(conn).value`, or returns without calling it when
      `run(conn)` is `None`; `Falsy` is a falsy value (`null`, `0`, ...), in
      whose place `invoke` calls its callback; `NotCallable` is any other
      value that is not a function. */
  datatype Step<!V> = Call(run: V -> Option<V>) | Falsy | NotCallable

  /** How one `invoke` ends: the callback received a connection, the chain
      ended without reaching it, or a call threw a `TypeError`. */
  datatype Outcome<V> = Delivered(conn: V) | Stopped | Threw(message: string)

  /** The messages of the `TypeError`s a call of a non-function raises. */
  const StepNotAFunction := "currentCallback is not a function"
  const CallbackNotAFunction := "callback is not a function"

  /** The chain `invokeNext` runs from a step on: each step hands its result
      to the next; after the last step, or in place of a falsy one, the
      callback (when there is one) receives the connection. */
  function Run<V>(steps: seq<Step<V>>, v: V, callback: bool): Outcome<V>
    decreases |steps|
  {
    if steps == [] then (if callback then Delivered(v) else Stopped)
    else match steps[0]
      case Call(run) =>
        (match run(v)
         case None => Stopped
         case Some(w) => Run(steps[1..], w, callback))
      case Falsy => if callback then Delivered(v) else Stopped
      case NotCallable => Threw(StepNotAFunction)
  }

  datatype Pipeline<!V> = Pipeline(name: string, steps: seq<Step<V>>)
  {
    /** `isValid()`: every step is a function (an empty pipeline is valid). */
    predicate IsValid()
      ensures steps == [] ==> IsValid()
      ensures IsValid() <==> forall s :: s in steps ==> s.Call?
    {
      forall i :: 0 <= i < |steps| ==> steps[i].Call?
    }

    /** What `invoke(conn, callback)` does: with no steps the callback is
        called straight away (a `TypeError` when there is none), otherwise
        the chain runs from the first step. */
    function Outcome(v: V, callback: bool): Outcome<V>
    {
      if steps == [] then (if callback then Delivered(v) else Threw(CallbackNotAFunction))
      else Run(steps, v, callback)
    }

    /** `invoke(conn, callback)`, with `currentStep` counting the steps
        entered so far. */
    method Invoke(v: V, callback: bool) returns (out: Outcome<V>)
      ensures out == Outcome(v, callback)
    {
      if |steps| == 0 {
        out := if callback then Delivered(v) else Threw(CallbackNotAFunction);
        return;
      }
      var current := 0;
      var conn := v;
      var done := false;
      out := Stopped;
      while !done
        invariant 0 <= current <= |steps|
        invariant !done ==> Run(steps, v, callback) == Run(steps[current..], conn, callback)
        invariant done ==> out == Run(steps, v, callback)
        decreases |steps| - current, if done then 0 else 1
      {
        if current == |steps| {
          out := if callback then Delivered(conn) else Stopped;
          done := true;
        } else {
          match steps[current]
          case Call(run) =>
            var next := run(conn);
            if next.None? {
              out := Stopped;
              done := true;
            } else {
              conn := next.value;
              current := current + 1;
            }
          case Falsy =>
            out := if callback then Delivered(conn) else Stopped;
            done := true;
          case NotCallable =>
            out := Threw(StepNotAFunction);
            done := true;
        }
      }
    }
  }

  /** The connection after the pipelines of `wrap` ran in order: a pipeline
      that delivers replaces it, one that stops leaves it as it was, and a
      throw ends the whole call. */
  function Thread<V>(pipelines: seq<Pipeline<V>>, v: V): Result<V>
    decreases |pipelines|
  {
    if pipelines == [] then Success(v)
    else match pipelines[0].Outcome(v, true)
      case Delivered(w) => Thread(pipelines[1..], w)
      case Stopped => Thread(pipelines[1..], v)
      case Threw(m) => Failure(m)
  }

  /** The function `wrap(pipelines, handler)` returns, applied to a
      connection: the handler's result on the threaded connection. */
  function Wrapped<V, R>(pipelines: seq<Pipeline<V>>, handler: V -> R, v: V): Result<R>
  {
    match Thread(pipelines, v)
    case Success(w) => Success(handler(w))
    case Failure(m) => Failure(m)
  }

  /** `wrap(pipelines, handler)(conn)`. */
  method Wrap<V, R>(pipelines: seq<Pipeline<V>>, handler: V -> R, v: V) returns (r: Result<R>)
    ensures r == Wrapped(pipelines, handler, v)
  {
    var conn := v;
    var i := 0;
    while i < |pipelines|
      invariant 0 <= i <= |pipelines|
      invariant Thread(pipelines, v) == Thread(pipelines[i..], conn)
    {
      var out := pipelines[i].Invoke(conn, true);
      match out {
        case Delivered(w) =>
          conn := w;
        case Stopped =>
        case Threw(m) =>
          return Failure(m);
      }
      i := i + 1;
    }
    r := Success(handler(conn));
  }

  /** Running steps `a + b` is running `a` and, if the connection comes out
      of it, running `b` on it. */
  lemma {:induction false} RunAppend<V>(a: seq<Step<V>>, b: seq<Step<V>>, v: V, callback: bool)
    requires forall i :: 0 <= i < |a| ==> a[i].Call?
    ensures Run(a + b, v, callback) ==
      match Run(a, v, true)
      case Delivered(w) => Run(b, w, callback)
      case other => other
    decreases |a|
  {
    if a != [] {
      assert (a + b)[0] == a[0];
      assert (a + b)[1..] == a[1..] + b;
      match a[0].run(v)
      case None =>
      case Some(w) =>
        RunAppend(a[1..], b, w, callback);
    } else {
      assert a + b == b;
    }
  }

  /** A pipeline of functions never throws. */
  lemma {:induction false} ValidNeverThrows<V>(p: Pipeline<V>, v: V, callback: bool)
    requires p.IsValid()
    ensures p.steps != [] || callback ==> !p.Outcome(v, callback).Threw?
  {
    if p.steps != [] {
      RunCallsNeverThrow(p.steps, v, callback);
    }
  }

  lemma {:induction false} RunCallsNeverThrow<V>(steps: seq<Step<V>>, v: V, callback: bool)
    requires forall i :: 0 <= i < |steps| ==> steps[i].Call?
    ensures !Run(steps, v, callback).Threw?
    decreases |steps|
  {
    if steps != [] {
      match steps[0].run(v)
      case None =>
      case Some(w) =>
        RunCallsNeverThrow(steps[1..], w, callback);
    }
  }

  /** A falsy slot ends the chain: the callback receives what the steps
      before it produced, and the steps after it never run. */
  lemma FalsyEndsChain<V>(a: seq<Step<V>>, b: seq<Step<V>>, v: V, w: V)
    requires forall i :: 0 <= i < |a| ==> a[i].Call?
    requires Run(a, v, true) == Delivered(w)
    ensures Run(a + ([Falsy] + b), v, true) == Delivered(w)
  {
    RunAppend(a, [Falsy] + b, v, true);
  }

  /** Threading `ps + qs` is threading `ps` and then `qs`. */
  lemma {:induction false} ThreadAppend<V>(ps: seq<Pipeline<V>>, qs: seq<Pipeline<V>>, v: V)
    ensures Thread(ps + qs, v) ==
      match Thread(ps, v)
      case Success(w) => Thread(qs, w)
      case Failure(m) => Failure(m)
    decreases |ps|
  {
    if ps != [] {
      assert (ps + qs)[0] == ps[0];
      assert (ps + qs)[1..] == ps[1..] + qs;
      match ps[0].Outcome(v, true)
      case Delivered(w) => ThreadAppend(ps[1..], qs, w);
      case Stopped => ThreadAppend(ps[1..], qs, v);
      case Threw(_) =>
    } else {
      assert ps + qs == qs;
    }
  }

  /** With no pipelines, the handler sees the connection it was given. */
  lemma NoPipelines<V, R>(handler: V -> R, v: V)
    ensures Wrapped([], handler, v) == Success(handler(v))
  {
  }

  /** Sample steps for the examples below, each passing its result on:
      `n + 2` and `n * 3`. */
  function AddTwo(n: int): Option<int> { Some(n + 2) }
  function TimesThree(n: int): Option<int> { Some(n * 3) }

  /** One pipeline `[n + 2, n * 3]` applied to 1 hands 9 to its callback. */
  lemma StepsInOrder()
    ensures Pipeline("sample", [Call(AddTwo), Call(TimesThree)]).Outcome(1, true) == Delivered(9)
  {
    var s := [Call(AddTwo), Call(TimesThree)];
    assert s[1..] == [Call(TimesThree)];
    assert s[1..][1..] == [];
    assert s[0].run(1) == Some(3);
    assert s[1].run(3) == Some(9);
    assert Run(s[1..][1..], 9, true) == Delivered(9);
    assert Run(s[1..], 3, true) == Delivered(9);
  }

  /** Pipelines `[n + 2]` then `[n * 3]` wrapped around a handler give the
      handler 9 when called with 1. */
  lemma PipelinesInOrder<R>(handler: int -> R)
    ensures Wrapped([Pipeline("sample", [Call(AddTwo)]), Pipeline("other", [Call(TimesThree)])],
                    handler, 1) == Success(handler(9))
  {
    var p1 := Pipeline("sample", [Call(AddTwo)]);
    var p2 := Pipeline("other", [Call(TimesThree)]);
    assert p1.steps[1..] == [];
    assert p2.steps[1..] == [];
    assert p1.steps[0].run(1) == Some(3);
    assert p2.steps[0].run(3) == Some(9);
    assert Run(p1.steps[1..], 3, true) == Delivered(3);
    assert Run(p1.steps, 1, true) == Delivered(3);
    assert Run(p2.steps[1..], 9, true) == Delivered(9);
    assert Run(p2.steps, 3, true) == Delivered(9);
    assert p1.Outcome(1, true) == Delivered(3);
    assert p2.Outcome(3, true) == Delivered(9);
    var ps := [p1, p2];
    assert ps[1..] == [p2];
    assert ps[1..][1..] == [];
    assert Thread(ps[1..][1..], 9) == Success(9);
    assert Thread(ps[1..], 3) == Success(9);
    assert Thread(ps, 1) == Success(9);
  }
}

=== FILE: registry.dfy ===
/** Refl's registry of entry scripts (Refl/src/app/registry.js): which app
    loaded which root script. The module-level object is the state of one
    `Registry`. */
module Registries {
  import opened Wrappers
  import opened JsValues

  class Registry {
    /** `entryScripts`: script path to app, in insertion order. */
    var entryScripts: Fields<object>

    constructor ()
      ensures entryScripts == []
    {
      entryScripts := [];
    }

    /** `addEntryScript(script, app)`. */
    method AddEntryScript(script: string, app: object)
      modifies this
      ensures entryScripts == Put(old(entryScripts), script, app)
    {
      entryScripts := Put(entryScripts, script, app);
    }

    /** `getEntryScripts()`. */
    method GetEntryScripts() returns (scripts: Fields<object>)
      ensures scripts == entryScripts
    {
      scripts := entryScripts;
    }

    /** `countEntries()`: the number of scripts registered. */
    method CountEntries() returns (n: nat)
      ensures n == |Keys(entryScripts)|
    {
      n := |Keys(entryScripts)|;
    }

    /** `getApp(script)`. */
    method GetApp(script: string) returns (app: Option<object>)
      ensures app == Get(entryScripts, script)
    {
      app := Get(entryScripts, script);
    }
  }

  /** Registering a script makes `getApp` answer its app, leaves every other
      script's app alone, and counts one more entry exactly when the script
      is new. */
  lemma AddThenLookUp(scripts: Fields<object>, script: string, app: object, other: string)
    ensures Get(Put(scripts, script, app), script) == Some(app)
    ensures other != script ==> Get(Put(scripts, script, app), other) == Get(scripts, other)
    ensures |Keys(Put(scripts, script, app))| ==
              |Keys(scripts)| + (if script in Keys(scripts) then 0 else 1)
  {
    GetPut(scripts, script, app, script);
    GetPut(scripts, script, app, other);
  }
}

=== FILE: router.dfy ===
/** Refl's router (Refl/src/http/router.js): the named pipelines of an app
    and the dispatcher its routes are registered with. */
module Routers {
  import opened Wrappers
  import opened JsValues
  import opened Pipelines
  import opened Dispatchers
  import opened Conns
  import opened Scopes

  /** A pipeline is stored under its own name and every step is a function. */
  predicate Stored(pipelines: Fields<Pipelines.Pipeline<Conn>>)
  {
    DistinctKeys(pipelines) &&
    forall i :: 0 <= i < |pipelines| ==> pipelines[i].1.name == pipelines[i].0 && pipelines[i].1.IsValid()
  }

  /** Deleting the next key in `for in` order drops the first remaining
      pipeline and keeps the rest well-formed. */
  lemma DeleteNext(start: Fields<Pipelines.Pipeline<Conn>>, i: nat)
    requires i < |start| && Stored(start[i..])
    ensures Delete(start[i..], Keys(start)[i]) == start[i + 1..] && Stored(start[i + 1..])
  {
    var rest := start[i..];
    assert rest[0].0 == Keys(start)[i];
    DeleteFirst(rest);
    assert rest[1..] == start[i + 1..];
    forall j | 0 <= j < |rest| - 1
      ensures rest[1..][j].1.name == rest[1..][j].0 && rest[1..][j].1.IsValid()
    {
      assert rest[1..][j] == rest[j + 1];
    }
  }

  /** Registering a new valid pipeline under its name keeps the store
      well-formed. */
  lemma StoredPut(pipelines: Fields<Pipelines.Pipeline<Conn>>, p: Pipelines.Pipeline<Conn>)
    requires Stored(pipelines) && p.name !in Keys(pipelines) && p.IsValid()
    ensures Stored(Put(pipelines, p.name, p))
    ensures Get(Put(pipelines, p.name, p), p.name) == Some(p)
  {
    PutNew(pipelines, p.name, p);
    PutDistinct(pipelines, p.name, p);
    StoredAppend(pipelines, p);
    GetSnoc(pipelines, (p.name, p), p.name);
  }

  lemma StoredAppend(pipelines: Fields<Pipelines.Pipeline<Conn>>, p: Pipelines.Pipeline<Conn>)
    requires Stored(pipelines) && p.IsValid() && DistinctKeys(pipelines + [(p.name, p)])
    ensures Stored(pipelines + [(p.name, p)])
  {
    var q := pipelines + [(p.name, p)];
    forall i | 0 <= i < |q| ensures q[i].1.name == q[i].0 && q[i].1.IsValid() {
      if i < |pipelines| {
        assert q[i] == pipelines[i];
      }
    }
  }

  class Router<R> {
    /** The app the router belongs to (absent when built on its own). */
    var app: object?
    var pipelines: Fields<Pipelines.Pipeline<Conn>>
    var dispatcher: Dispatcher<R>

    predicate Valid()
      reads this, dispatcher
    {
      Stored(pipelines) && dispatcher.Valid()
    }

    constructor (app: object?)
      ensures this.app == app && pipelines == [] && fresh(dispatcher) && dispatcher.routes == []
      ensures Valid()
    {
      this.app := app;
      pipelines := [];
      dispatcher := new Dispatcher();
    }

    /** `hasPipeline(name)`. */
    predicate HasPipeline(name: string)
      reads this
      ensures HasPipeline(name) <==> name in Keys(pipelines)
    {
      Get(pipelines, name).Some?
    }

    /** `pipeline(name, steps)`. Without steps it looks the pipeline up;
        with steps it registers a new pipeline, refusing a name already
        taken and then a step that is not a function. */
    method Pipeline(name: string, steps: Option<seq<Step<Conn>>>)
      returns (r: Result<Option<Pipelines.Pipeline<Conn>>>)
      requires Valid()
      modifies this
      ensures Valid() && dispatcher == old(dispatcher) && app == old(app)
      ensures steps.None? ==> pipelines == old(pipelines) && r == Success(Get(pipelines, name))
      ensures steps.Some? && old(HasPipeline(name)) ==>
                pipelines == old(pipelines) && r == Failure("pipeline already registered: " + name)
      ensures steps.Some? && !old(HasPipeline(name)) && !Pipelines.Pipeline(name, steps.value).IsValid() ==>
                pipelines == old(pipelines) && r == Failure("invalid pipeline callbacks")
      ensures steps.Some? && !old(HasPipeline(name)) && Pipelines.Pipeline(name, steps.value).IsValid() ==>
                pipelines == Put(old(pipelines), name, Pipelines.Pipeline(name, steps.value)) &&
                Get(pipelines, name) == Some(Pipelines.Pipeline(name, steps.value)) &&
                r == Success(None)
    {
      if steps.None? {
        return Success(Get(pipelines, name));
      }
      var pipeline := Pipelines.Pipeline(name, steps.value);
      if Get(pipelines, name).Some? {
        return Failure("pipeline already registered: " + name);
      }
      if !pipeline.IsValid() {
        return Failure("invalid pipeline callbacks");
      }
      StoredPut(pipelines, pipeline);
      pipelines := Put(pipelines, name, pipeline);
      r := Success(None);
    }

    /** `reset()` as written: it calls `this.dispatcher.reset()`, which the
        dispatcher does not define, so it throws before any pipeline is
        deleted. */
    method ResetAsWritten() returns (error: Option<string>)
      ensures error == Some("this.dispatcher.reset is not a function")
    {
      error := Some("this.dispatcher.reset is not a function");
    }

    /** `reset()` as intended: the dispatcher drops its routes and every
        pipeline is deleted, in key order. */
    method Reset()
      requires Valid()
      modifies this, dispatcher
      ensures Valid() && dispatcher == old(dispatcher) && app == old(app)
      ensures dispatcher.routes == [] && pipelines == []
    {
      dispatcher.Reset();
      var names := Keys(pipelines);
      ghost var start := pipelines;
      var i := 0;
      while i < |names|
        invariant 0 <= i <= |names| && |names| == |start|
        invariant names == Keys(start)
        invariant pipelines == start[i..] && Stored(pipelines)
        invariant dispatcher == old(dispatcher) && app == old(app)
        invariant dispatcher.routes == [] && dispatcher.Valid()
      {
        DeleteNext(start, i);
        pipelines := Delete(pipelines, names[i]);
        i := i + 1;
      }
    }

    /** `dispatch(conn)`: the dispatcher's dispatch, bound to it. */
    method Dispatch(conn: Conn) returns (out: Dispatch<R>)
      requires Valid()
      ensures out == Dispatched(dispatcher.routes, conn)
    {
      out := dispatcher.Dispatch(conn);
    }

    /** `scope(callback)`: the fresh scope handed to the callback. */
    method OpenScope() returns (scope: Scope)
      ensures fresh(scope) && scope.own == "" && scope.inherited == ""
    {
      scope := new Scope();
    }
  }
}

=== FILE: scope.dfy ===
/** Refl's routing scopes (Refl/src/http/scope.js): a path prefix set at most
    once per scope, to which nested scopes append their own. */
module Scopes {
  import opened Wrappers

  class Scope {
    /** `_prefix`: this scope's own part, `''` until set. */
    var own: string
    /** `_inheritedPrefix`: the prefix of the enclosing scope. */
    var inherited: string

    /** `prefix()` with no argument: the whole prefix. */
    function FullPrefix(): string
      reads this
    {
      inherited + own
    }

    /** `hasPrefix()`. */
    predicate HasPrefix()
      reads this
      ensures HasPrefix() <==> inherited != "" || own != ""
    {
      FullPrefix() != ""
    }

    constructor ()
      ensures own == "" && inherited == ""
      ensures !HasPrefix()
    {
      own := "";
      inherited := "";
    }

    /** `prefix(str)`. With a falsy `str` (absent or `''`) it returns the
        whole prefix; otherwise it sets this scope's own part, which may be
        done once only. */
    method Prefix(str: Option<string>) returns (r: Result<Option<string>>)
      modifies this
      ensures inherited == old(inherited)
      ensures str.None? || str.value == "" ==> own == old(own) && r == Success(Some(FullPrefix()))
      ensures str.Some? && str.value != "" && old(own) != "" ==>
                own == old(own) && r == Failure("scope prefix already specified: " + old(own))
      ensures str.Some? && str.value != "" && old(own) == "" ==>
                own == str.value && FullPrefix() == old(FullPrefix()) + str.value && r == Success(None)
    {
      if str.None? || str.value == "" {
        return Success(Some(inherited + own));
      }
      if own != "" {
        return Failure("scope prefix already specified: " + own);
      }
      own := str.value;
      r := Success(None);
    }

    /** `nest(callback)`: the new scope handed to the callback, which
        inherits this scope's whole prefix and has no own part yet. */
    method Nest() returns (nested: Scope)
      ensures fresh(nested)
      ensures nested.own == "" && nested.inherited == FullPrefix()
      ensures nested.FullPrefix() == FullPrefix()
    {
      nested := new Scope();
      nested.inherited := inherited + own;
    }

    /** `group(callback)`, another name for `nest`. */
    method Group() returns (nested: Scope)
      ensures fresh(nested)
      ensures nested.own == "" && nested.inherited == FullPrefix()
    {
      nested := Nest();
    }
  }
}

=== FILE: strings.dfy ===
/** String and sequence helpers that mirror the JavaScript built-ins the source
    calls: `split`, `join`, `startsWith`, `endsWith`, `indexOf`, `replace` of a
    single character, and lodash's `uniq`. */
module Strings {

  /** True when no character of `s` is in `chars`. */
  predicate NoneOf(s: string, chars: set<char>)
  {
    forall i :: 0 <= i < |s| ==> s[i] !in chars
  }

  /** True when the elements of `s` are pairwise distinct. */
  predicate Distinct<T(==)>(s: seq<T>)
  {
    forall i, j :: 0 <= i < j < |s| ==> s[i] != s[j]
  }

  predicate StartsWith(s: string, prefix: string)
  {
    |prefix| <= |s| && s[..|prefix|] == prefix
  }

  predicate EndsWith(s: string, suffix: string)
  {
    |suffix| <= |s| && s[|s| - |suffix|..] == suffix
  }

  /** `s.split(re)` where `re` is a one-character class such as `/[@#]/`
      (or `s.split(c)` with `seps == {c}`): the maximal pieces between
      separators, always at least one piece. */
  function Split(s: string, seps: set<char>): (r: seq<string>)
    ensures |r| >= 1
    ensures forall i :: 0 <= i < |r| ==> NoneOf(r[i], seps)
    decreases |s|
  {
    if |s| == 0 then [""]
    else
      var rest := Split(s[1..], seps);
      if s[0] in seps then [""] + rest
      else [[s[0]] + rest[0]] + rest[1..]
  }

  /** ASCII lower-casing, the case folding a `/i` pattern of ASCII letters uses. */
  function Lower(c: char): char
  {
    if 'A' <= c <= 'Z' then (c as int + 32) as char else c
  }

  /** `s` lower-cased character by character. */
  function LowerAll(s: string): (r: string)
    ensures |r| == |s| && forall k :: 0 <= k < |s| ==> r[k] == Lower(s[k])
  {
    seq(|s|, k requires 0 <= k < |s| => Lower(s[k]))
  }

  /** The longest prefix of `s` holding no character of `stops`: what a
      greedy `[^...]*` takes. */
  function Span(s: string, stops: set<char>): (r: string)
    ensures r <= s && NoneOf(r, stops)
    ensures |r| < |s| ==> s[|r|] in stops
  {
    if s == [] || s[0] in stops then [] else [s[0]] + Span(s[1..], stops)
  }

  /** A stop-free text followed by a stop (or nothing) spans exactly that
      text. */
  lemma {:induction false} SpanOf(x: string, y: string, stops: set<char>)
    requires NoneOf(x, stops) && (y == [] || y[0] in stops)
    ensures Span(x + y, stops) == x
    decreases |x|
  {
    if x != [] {
      assert (x + y)[1..] == x[1..] + y;
      SpanOf(x[1..], y, stops);
    } else {
      assert x + y == y;
    }
  }

  /** The span and what follows it: `s` cut at its first stop. */
  function Cut(s: string, stops: set<char>): (string, string)
  {
    var a := Span(s, stops);
    (a, s[|a|..])
  }

  lemma CutJoin(s: string, stops: set<char>)
    ensures s == Cut(s, stops).0 + Cut(s, stops).1
  {
    var a := Span(s, stops);
    assert s == a + s[|a|..];
  }

  lemma CutShape(s: string, stops: set<char>)
    ensures s == Cut(s, stops).0 + Cut(s, stops).1 && NoneOf(Cut(s, stops).0, stops)
    ensures Cut(s, stops).1 == [] || Cut(s, stops).1[0] in stops
  {
    var a := Span(s, stops);
    assert s == a + s[|a|..];
  }

  /** A stop-free text followed by a stop (or nothing) is cut exactly
      there. */
  lemma CutOf(x: string, y: string, stops: set<char>)
    requires NoneOf(x, stops) && (y == [] || y[0] in stops)
    ensures Cut(x + y, stops) == (x, y)
  {
    SpanOf(x, y, stops);
    assert (x + y)[|x|..] == y;
  }

  /** Concatenation regrouped, for contexts where the solver is slow to
      see it. */
  lemma Regroup(a: string, b: string, c: string, d: string)
    ensures a + (b + (c + d)) == a + b + c + d
  {
  }

  /** `parts.join(sep)`. */
  function Join(parts: seq<string>, sep: char): string
  {
    if |parts| == 0 then ""
    else if |parts| == 1 then parts[0]
    else parts[0] + [sep] + Join(parts[1..], sep)
  }

  /** Joining one more piece adds the separator and the piece. */
  lemma {:induction false} JoinSnoc(parts: seq<string>, p: string, sep: char)
    requires |parts| >= 1
    ensures Join(parts + [p], sep) == Join(parts, sep) + [sep] + p
    decreases |parts|
  {
    if |parts| > 1 {
      assert (parts + [p])[1..] == parts[1..] + [p];
      JoinSnoc(parts[1..], p, sep);
    }
  }

  /** Number of characters of `s` that are in `chars`. */
  function Count(s: string, chars: set<char>): nat
  {
    if |s| == 0 then 0
    else (if s[0] in chars then 1 else 0) + Count(s[1..], chars)
  }

  /** `s.replace(c, '')` for a one-character string `c`: removes the first
      occurrence only. */
  function RemoveFirst(s: string, c: char): (r: string)
    ensures c !in s ==> r == s
    ensures c in s ==> |r| == |s| - 1
  {
    if |s| == 0 then ""
    else if s[0] == c then s[1..]
    else [s[0]] + RemoveFirst(s[1..], c)
  }

  /** lodash's `_.uniq`: the first occurrence of every element, in order. */
  function Uniq<T(==)>(s: seq<T>): (r: seq<T>)
  {
    if |s| == 0 then []
    else
      var rest := Uniq(s[..|s| - 1]);
      if s[|s| - 1] in rest then rest else rest + [s[|s| - 1]]
  }

  /** The pieces of `split` carry exactly one piece more than there are
      separators. */
  lemma {:induction false} SplitCount(s: string, seps: set<char>)
    ensures |Split(s, seps)| == Count(s, seps) + 1
    decreases |s|
  {
    if |s| > 0 {
      SplitCount(s[1..], seps);
    }
  }

  /** Joining the pieces of a split with the separator gives back the string. */
  lemma {:induction false} JoinSplit(s: string, c: char)
    ensures Join(Split(s, {c}), c) == s
    decreases |s|
  {
    if |s| > 0 {
      var rest := Split(s[1..], {c});
      JoinSplit(s[1..], c);
      if s[0] != c {
        var r := Split(s, {c});
        assert r == [[s[0]] + rest[0]] + rest[1..];
        if |rest| == 1 {
          assert Join(r, c) == [s[0]] + rest[0];
        } else {
          assert rest == [rest[0]] + rest[1..];
          assert Join(rest, c) == rest[0] + [c] + Join(rest[1..], c);
          assert Join(r, c) == ([s[0]] + rest[0]) + [c] + Join(rest[1..], c);
        }
      }
    }
  }

  /** Splitting a string that starts with a separator-free piece. */
  lemma {:induction false} SplitPrefix(a: string, t: string, seps: set<char>)
    requires NoneOf(a, seps)
    ensures Split(a + t, seps) == [a + Split(t, seps)[0]] + Split(t, seps)[1..]
    decreases |a|
  {
    if |a| > 0 {
      assert (a + t)[1..] == a[1..] + t;
      SplitPrefix(a[1..], t, seps);
      assert [a[0]] + (a[1..] + Split(t, seps)[0]) == a + Split(t, seps)[0];
    } else {
      var r := Split(t, seps);
      assert a + t == t;
      assert a + r[0] == r[0];
      assert r == [r[0]] + r[1..];
    }
  }

  /** Splitting a join of separator-free pieces gives back the pieces. */
  lemma {:induction false} SplitJoin(parts: seq<string>, c: char)
    requires |parts| >= 1
    requires forall i :: 0 <= i < |parts| ==> NoneOf(parts[i], {c})
    ensures Split(Join(parts, c), {c}) == parts
    decreases |parts|
  {
    if |parts| == 1 {
      SplitPrefix(parts[0], "", {c});
      assert parts[0] + "" == parts[0];
    } else {
      var tail := Join(parts[1..], c);
      SplitJoin(parts[1..], c);
      assert Join(parts, c) == parts[0] + ([c] + tail);
      SplitPrefix(parts[0], [c] + tail, {c});
      assert ([c] + tail)[1..] == tail;
      assert Split([c] + tail, {c}) == [""] + parts[1..];
      assert parts[0] + "" == parts[0];
    }
  }

  /** `_.uniq(s).length < s.length` holds exactly when `s` repeats an element. */
  lemma {:induction false} UniqShorterIffRepeats<T>(s: seq<T>)
    ensures |Uniq(s)| <= |s|
    ensures |Uniq(s)| < |s| <==> !Distinct(s)
    ensures forall x :: x in Uniq(s) <==> x in s
    decreases |s|
  {
    if |s| > 0 {
      var init := s[..|s| - 1];
      var last := s[|s| - 1];
      UniqShorterIffRepeats(init);
      assert s == init + [last];
      if last in init {
        var k :| 0 <= k < |init| && init[k] == last;
        assert s[k] == s[|s| - 1];
      } else if !Distinct(init) {
        var i, j :| 0 <= i < j < |init| && init[i] == init[j];
        assert s[i] == s[j];
      } else {
        forall i, j | 0 <= i < j < |s| ensures s[i] != s[j] {
          if j == |s| - 1 {
            assert s[i] == init[i];
          } else {
            assert s[i] == init[i] && s[j] == init[j];
          }
        }
      }
    }
  }

  /** A string without separators splits into itself alone. */
  lemma SplitNone(s: string, seps: set<char>)
    requires NoneOf(s, seps)
    ensures Split(s, seps) == [s]
  {
    SplitPrefix(s, "", seps);
    assert s + "" == s;
  }

  /** Every character of a piece comes from the split string. */
  lemma {:induction false} SplitPieceChars(s: string, seps: set<char>, i: nat, c: char)
    requires i < |Split(s, seps)| && c in Split(s, seps)[i]
    ensures c in s
    decreases |s|
  {
    if |s| > 0 {
      var rest := Split(s[1..], seps);
      if s[0] in seps {
        if i > 0 { SplitPieceChars(s[1..], seps, i - 1, c); }
      } else if i == 0 {
        if c != s[0] {
          assert c in rest[0];
          SplitPieceChars(s[1..], seps, 0, c);
        }
      } else {
        SplitPieceChars(s[1..], seps, i, c);
      }
    }
  }

  /** Removing a character adds none. */
  lemma {:induction false} RemoveFirstChars(s: string, c: char, d: char)
    requires d in RemoveFirst(s, c)
    ensures d in s
    decreases |s|
  {
    if |s| > 0 && s[0] != c && d != s[0] {
      RemoveFirstChars(s[1..], c, d);
    }
  }

  /** `_.uniq` keeps one copy of each element and appends a new one at the
      end. */
  lemma {:induction false} UniqSnoc<T>(s: seq<T>, x: T)
    ensures Uniq(s + [x]) == if x in s then Uniq(s) else Uniq(s) + [x]
    ensures Distinct(Uniq(s))
    decreases |s|
  {
    assert (s + [x])[..|s|] == s;
    UniqShorterIffRepeats(s);
    if |s| > 0 {
      UniqSnoc(s[..|s| - 1], s[|s| - 1]);
      assert s[..|s| - 1] + [s[|s| - 1]] == s;
    }
  }

  /** A string holding a separator splits into at least two pieces. */
  lemma {:induction false} SplitSeveral(s: string, seps: set<char>)
    requires !NoneOf(s, seps)
    ensures |Split(s, seps)| >= 2
    decreases |s|
  {
    if s[0] !in seps {
      var i :| 0 <= i < |s| && s[i] in seps;
      assert s[1..][i - 1] == s[i];
      SplitSeveral(s[1..], seps);
    }
  }

  /** Two separator-free pieces joined by one separator split back apart. */
  lemma SplitPair(a: string, b: string, c: char, seps: set<char>)
    requires c in seps && NoneOf(a, seps) && NoneOf(b, seps)
    ensures Split(a + [c] + b, seps) == [a, b]
  {
    assert a + [c] + b == a + ([c] + b);
    SplitPrefix(a, [c] + b, seps);
    assert ([c] + b)[1..] == b;
    SplitNone(b, seps);
    assert a + "" == a;
  }
}

=== FILE: url.dfy ===
/** Locflow's `Url` class (Locflow/src/url.js): a url held as protocol,
    domain, port, path, query and hash, read from a string by one regular
    expression, printed back with the current page's protocol and host
    filling the parts it lacks, and matched against another url's path. */
module Urls {
  import opened Wrappers
  import opened Strings
  import opened JsValues
  import opened Encoding
  import opened PathPatterns

  /** The six parts of a url, as the fields of a `Url` hold them. */
  datatype UrlParts = UrlParts(protocol: string, domain: string, port: string,
                            path: string, query: string, hash: string)

  /** `s` begins with `p` when letters are compared without case, as the
      `/i` flag compares them; `p` is written in lower case. */
  predicate StartsWithNoCase(s: string, p: string)
  {
    |p| <= |s| && LowerAll(s[..|p|]) == p
  }

  // ---------------------------------------------------------------------
  // Reading a url from a string

  /** How much text the protocol group `(file|http[s]?:\/\/)?` of the pattern
      in url.js takes at the start of `url`, alternatives tried in order. A
      bare `file` is taken without the `://` that should follow it. */
  function ProtocolSpanAsWritten(url: string): (n: nat)
    ensures n in {0, 4, 7, 8} && n <= |url|
  {
    if StartsWithNoCase(url, "file") then 4
    else if StartsWithNoCase(url, "https://") then 8
    else if StartsWithNoCase(url, "http://") then 7
    else 0
  }

  /** The protocol group as intended, `(file|https?):\/\/`: every protocol is
      followed by `://`. */
  function ProtocolSpan(url: string): (n: nat)
    ensures n in {0, 7, 8} && n <= |url|
  {
    if StartsWithNoCase(url, "file://") then 7
    else if StartsWithNoCase(url, "https://") then 8
    else if StartsWithNoCase(url, "http://") then 7
    else 0
  }

  /** The protocol name: the group's text with its `://` replaced away. */
  function ProtocolName(url: string, n: nat): string
    requires n in {0, 4, 7, 8} && n <= |url|
  {
    if n <= 4 then url[..n] else url[..n - 3]
  }

  /** The four groups after the protocol: `([^\/?#]*)?` (domain, with any
      port), `([^?#]*)` (path), `([^#]*)` (query) and `([\s\S]*)` (hash). */
  datatype Groups = Groups(host: string, path: string, query: string, hash: string)

  function GroupsAt(url: string, n: nat): Groups
    requires n <= |url|
  {
    var (host, afterHost) := Cut(url[n..], {'/', '?', '#'});
    var (path, afterPath) := Cut(afterHost, {'?', '#'});
    var (query, hash) := Cut(afterPath, {'#'});
    Groups(host, path, query, hash)
  }

  /** The groups make up the url after the protocol, and each keeps to its
      character class. */
  lemma GroupsShape(url: string, n: nat)
    requires n <= |url|
    ensures var g := GroupsAt(url, n);
            url[n..] == g.host + g.path + g.query + g.hash &&
            NoneOf(g.host, {'/', '?', '#'}) &&
            NoneOf(g.path, {'?', '#'}) && (g.path == "" || g.path[0] == '/') &&
            NoneOf(g.query, {'#'}) && (g.query == "" || g.query[0] == '?') &&
            (g.hash == "" || g.hash[0] == '#')
  {
    var rest := url[n..];
    var c1 := Cut(rest, {'/', '?', '#'});
    CutShape(rest, {'/', '?', '#'});
    var c2 := Cut(c1.1, {'?', '#'});
    CutShape(c1.1, {'?', '#'});
    var c3 := Cut(c2.1, {'#'});
    CutShape(c2.1, {'#'});
    assert GroupsAt(url, n) == Groups(c1.0, c2.0, c3.0, c3.1);
    if c2.0 != "" { assert c1.1[0] == c2.0[0]; }
    if c3.0 != "" { assert c2.1[0] == c3.0[0]; }
    assert rest == c1.0 + (c2.0 + (c3.0 + c3.1));
    Regroup(c1.0, c2.0, c3.0, c3.1);
  }

  /** The parts read from `url` once the protocol group took `n` characters:
      a domain holding `:` is split there into domain and port. */
  function PartsAt(url: string, n: nat): UrlParts
    requires n in {0, 4, 7, 8} && n <= |url|
  {
    var g := GroupsAt(url, n);
    var (domain, port) := SplitHost(g.host);
    UrlParts(ProtocolName(url, n), domain, port, g.path, g.query, g.hash)
  }

  /** A domain holding `:` is split there into domain and port (any further
      `:` and what follows it are dropped); otherwise the port is empty. */
  function SplitHost(host: string): (string, string)
  {
    if ':' in host then
      var pieces := Split(host, {':'});
      SplitSeveral(host, {':'});
      (pieces[0], pieces[1])
    else
      (host, "")
  }

  /** Where the host part is `host` or `host:port`. */
  function HostText(host: string, port: string): string
  {
    if port == "" then host else host + ":" + port
  }

  /** `host:port` splits back into `host` and `port`. */
  lemma SplitHostText(host: string, port: string)
    requires NoneOf(host, {':'}) && NoneOf(port, {':'})
    ensures SplitHost(HostText(host, port)) == (host, port)
  {
    if port == "" {
      assert ':' !in host;
    } else {
      var h := host + ":" + port;
      assert h == host + [':'] + port;
      assert h[|host|] == ':';
      SplitPair(host, port, ':', {':'});
    }
  }

  /** Every part read from a url keeps to its group's character class: no
      domain or port holds `/`, `?`, `#` or `:`, the path starts with `/`
      and holds no `?` or `#`, the query starts with `?` and holds no `#`,
      and the hash starts with `#`. */
  lemma PartsShape(url: string)
    ensures var p := Parse(url);
            NoneOf(p.domain, {'/', '?', '#', ':'}) && NoneOf(p.port, {'/', '?', '#', ':'}) &&
            NoneOf(p.path, {'?', '#'}) && (p.path == "" || p.path[0] == '/') &&
            NoneOf(p.query, {'#'}) && (p.query == "" || p.query[0] == '?') &&
            (p.hash == "" || p.hash[0] == '#')
  {
    var g := GroupsAt(url, ProtocolSpan(url));
    GroupsShape(url, ProtocolSpan(url));
    if ':' in g.host {
      SplitSeveral(g.host, {':'});
      PiecesWithin(g.host, Split(g.host, {':'})[0], 0);
      PiecesWithin(g.host, Split(g.host, {':'})[1], 1);
    } else {
      forall i | 0 <= i < |g.host| ensures g.host[i] != ':' {
        assert g.host[i] in g.host;
      }
    }
  }

  /** A piece of the host holds none of the characters the host lacks. */
  lemma PiecesWithin(host: string, piece: string, i: nat)
    requires NoneOf(host, {'/', '?', '#'})
    requires i < |Split(host, {':'})| && piece == Split(host, {':'})[i]
    ensures NoneOf(piece, {'/', '?', '#', ':'})
  {
    forall j | 0 <= j < |piece| ensures piece[j] !in {'/', '?', '#', ':'} {
      SplitPieceChars(host, {':'}, i, piece[j]);
    }
  }

  /** `initializeFromString` as written. */
  function ParseAsWritten(url: string): UrlParts
  {
    PartsAt(url, ProtocolSpanAsWritten(url))
  }

  /** `initializeFromString` with the protocol group corrected. */
  function Parse(url: string): UrlParts
  {
    PartsAt(url, ProtocolSpan(url))
  }

  /** As written, a url that merely begins with the letters `file` gets the
      protocol `file` although no `://` follows (`files/a` reads as protocol
      `file`, domain `s`, path `/a`); corrected, it gets no protocol. */
  lemma BareFileProtocol(rest: string)
    requires !StartsWith(rest, "://")
    ensures ParseAsWritten("file" + rest).protocol == "file"
    ensures !StartsWith("file" + rest, "file://")
    ensures Parse("file" + rest).protocol == ""
  {
    var url := "file" + rest;
    assert url[..4] == "file";
    assert LowerAll(url[..4]) == "file";
    assert ProtocolSpanAsWritten(url) == 4;
    if |url| >= 7 { assert LowerAll(url[..7])[0] == 'f'; }
    if |url| >= 8 { assert LowerAll(url[..8])[0] == 'f'; }
    assert ProtocolSpan(url) == 0;
  }

  /** Only a url that begins with the letters `file` reads differently as
      written: on every other url the two parses agree. */
  lemma AsWrittenAgrees(url: string)
    requires !StartsWithNoCase(url, "file")
    ensures ParseAsWritten(url) == Parse(url)
  {
    if |url| >= 7 {
      assert LowerAll(url[..7])[..4] == LowerAll(url[..4]);
    }
  }

  /** Matching `p://` without case leaves `://` as it is. */
  lemma NoCaseSlashes(url: string, p: string)
    requires |p| + 3 <= |url| && LowerAll(url[..|p| + 3]) == p + "://"
    ensures url[|p|..|p| + 3] == "://"
    ensures LowerAll(url[..|p|]) == p
  {
    var n := |p|;
    var l := LowerAll(url[..n + 3]);
    forall k | 0 <= k < 3 ensures url[n + k] == "://"[k] {
      assert l[n + k] == Lower(url[n + k]) == (p + "://")[n + k];
    }
    assert LowerAll(url[..n]) == l[..n];
  }

  /** Corrected, a url is given a protocol only when the protocol and `://`
      begin it, and the protocol is one of `file`, `http` and `https`. */
  lemma ProtocolFollowedBySlashes(url: string)
    ensures Parse(url).protocol != "" ==> StartsWith(url, Parse(url).protocol + "://")
    ensures LowerAll(Parse(url).protocol) in {"", "file", "http", "https"}
  {
    var n := ProtocolSpan(url);
    if n != 0 {
      var p := if n == 8 then "https" else if LowerAll(url[..7]) == "file://" then "file" else "http";
      assert LowerAll(url[..n]) == p + "://";
      NoCaseSlashes(url, p);
      assert url[..n] == url[..n - 3] + url[n - 3..n];
    }
  }

  /** The groups of a url built from parts that each respect their group's
      character class are those parts. */
  lemma GroupsOf(url: string, n: nat, host: string, path: string, query: string, hash: string)
    requires n <= |url| && url[n..] == host + path + query + hash
    requires NoneOf(host, {'/', '?', '#'})
    requires NoneOf(path, {'?', '#'}) && (path == "" || path[0] == '/')
    requires NoneOf(query, {'#'}) && (query == "" || query[0] == '?')
    requires hash == "" || hash[0] == '#'
    ensures GroupsAt(url, n) == Groups(host, path, query, hash)
  {
    var z := query + hash;
    var y := path + z;
    assert url[n..] == host + y;
    assert z == [] || z[0] in {'?', '#'} by {
      if query != "" { assert z[0] == query[0]; } else { assert z == hash; }
    }
    assert y == [] || y[0] in {'/', '?', '#'} by {
      if path != "" { assert y[0] == path[0]; } else { assert y == z; }
    }
    CutOf(host, y, {'/', '?', '#'});
    CutOf(path, z, {'?', '#'});
    CutOf(query, hash, {'#'});
  }

  /** A url written as protocol, `://`, host, optional port, path, query and
      hash, each respecting its group, reads back as those parts. */
  lemma ParseAbsolute(scheme: string, host: string, port: string, path: string,
                      query: string, hash: string)
    requires scheme in {"file", "http", "https"}
    requires NoneOf(host, {'/', '?', '#', ':'}) && NoneOf(port, {'/', '?', '#', ':'})
    requires NoneOf(path, {'?', '#'}) && (path == "" || path[0] == '/')
    requires NoneOf(query, {'#'}) && (query == "" || query[0] == '?')
    requires hash == "" || hash[0] == '#'
    ensures Parse(scheme + "://" + HostText(host, port) + path + query + hash)
            == UrlParts(scheme, host, port, path, query, hash)
  {
    var hostText := HostText(host, port);
    var rest := hostText + path + query + hash;
    var url := scheme + "://" + hostText + path + query + hash;
    assert url == (scheme + "://") + rest;
    ParseAbsoluteAt(url, scheme, rest, host, port, path, query, hash);
  }

  lemma ParseAbsoluteAt(url: string, scheme: string, rest: string, host: string, port: string,
                        path: string, query: string, hash: string)
    requires url == (scheme + "://") + rest && rest == HostText(host, port) + path + query + hash
    requires scheme in {"file", "http", "https"}
    requires NoneOf(host, {'/', '?', '#', ':'}) && NoneOf(port, {'/', '?', '#', ':'})
    requires NoneOf(path, {'?', '#'}) && (path == "" || path[0] == '/')
    requires NoneOf(query, {'#'}) && (query == "" || query[0] == '?')
    requires hash == "" || hash[0] == '#'
    ensures Parse(url) == UrlParts(scheme, host, port, path, query, hash)
  {
    var n := |scheme| + 3;
    SchemeSpan(scheme, rest);
    SplitAt(url, scheme + "://", rest);
    assert url[..n - 3] == scheme;
    HostTextChars(host, port);
    GroupsOf(url, n, HostText(host, port), path, query, hash);
    PartsAtOf(url, n, host, port, path, query, hash);
  }

  lemma SplitAt(s: string, a: string, b: string)
    requires s == a + b
    ensures s[|a|..] == b && s[..|a|] == a
  {
  }

  /** `host` or `host:port` holds no character that ends the domain group. */
  lemma HostTextChars(host: string, port: string)
    requires NoneOf(host, {'/', '?', '#'}) && NoneOf(port, {'/', '?', '#'})
    ensures NoneOf(HostText(host, port), {'/', '?', '#'})
  {
    var h := HostText(host, port);
    forall i | 0 <= i < |h| ensures h[i] !in {'/', '?', '#'} {
      if i < |host| {
        assert h[i] == host[i];
      } else if i > |host| {
        assert h[i] == port[i - |host| - 1];
      }
    }
  }

  /** The domain group `host` or `host:port` is split into its domain and
      port. */
  lemma PartsAtOf(url: string, n: nat, host: string, port: string, path: string,
                  query: string, hash: string)
    requires n in {0, 4, 7, 8} && n <= |url|
    requires GroupsAt(url, n) == Groups(HostText(host, port), path, query, hash)
    requires NoneOf(host, {':'}) && NoneOf(port, {':'})
    ensures PartsAt(url, n) == UrlParts(ProtocolName(url, n), host, port, path, query, hash)
  {
    SplitHostText(host, port);
  }

  /** The corrected protocol group takes a scheme and its `://`. */
  lemma SchemeSpan(scheme: string, rest: string)
    requires scheme in {"file", "http", "https"}
    ensures ProtocolSpan(scheme + "://" + rest) == |scheme| + 3
  {
    var url := scheme + "://" + rest;
    assert url[..|scheme| + 3] == scheme + "://";
    if scheme == "file" {
      assert LowerAll(url[..7]) == "file://";
    } else if scheme == "https" {
      assert LowerAll(url[..7])[0] != 'f';
      assert LowerAll(url[..8]) == "https://";
    } else {
      assert LowerAll(url[..7])[0] != 'f';
      assert LowerAll(url[..7]) == "http://";
      if |url| >= 8 {
        assert LowerAll(url[..8])[4] != 's';
      }
    }
  }

  /** A url that starts with `/` has no protocol, domain or port, and its
      path is not empty. */
  lemma ParseRelative(url: string)
    requires url != "" && url[0] == '/'
    ensures var p := Parse(url);
            p.protocol == "" && p.domain == "" && p.port == "" && p.path != "" &&
            url == p.path + p.query + p.hash
  {
    NoProtocol(url);
    GroupsOfPath(url);
    GroupsJoin(url, 0);
    var g := GroupsAt(url, 0);
    assert SplitHost("") == ("", "");
    assert Parse(url) == UrlParts("", "", "", g.path, g.query, g.hash);
    assert url[0..] == url;
  }

  /** No protocol starts with `/`. */
  lemma NoProtocol(url: string)
    requires url != "" && url[0] == '/'
    ensures ProtocolSpan(url) == 0
  {
    if |url| >= 7 { assert LowerAll(url[..7])[0] == '/'; }
    if |url| >= 8 { assert LowerAll(url[..8])[0] == '/'; }
  }

  /** The domain group of a url that starts with `/` is empty and its path
      group is not. */
  lemma GroupsOfPath(url: string)
    requires url != "" && url[0] == '/'
    ensures GroupsAt(url, 0).host == "" && GroupsAt(url, 0).path != ""
  {
    assert url[0..] == url;
    assert Span(url, {'/', '?', '#'}) == "";
    assert Cut(url, {'/', '?', '#'}) == ("", url);
    assert Span(url, {'?', '#'}) != "";
  }

  /** The groups make up the url after the protocol. */
  lemma GroupsJoin(url: string, n: nat)
    requires n <= |url|
    ensures var g := GroupsAt(url, n);
            url[n..] == g.host + g.path + g.query + g.hash
  {
    var rest := url[n..];
    var c1 := Cut(rest, {'/', '?', '#'});
    CutJoin(rest, {'/', '?', '#'});
    var c2 := Cut(c1.1, {'?', '#'});
    CutJoin(c1.1, {'?', '#'});
    var c3 := Cut(c2.1, {'#'});
    CutJoin(c2.1, {'#'});
    assert GroupsAt(url, n) == Groups(c1.0, c2.0, c3.0, c3.1);
    Regroup(c1.0, c2.0, c3.0, c3.1);
  }

  // ---------------------------------------------------------------------
  // Printing a url

  /** `toString()`, with `document.location.protocol` (which ends in `:`) and
      `document.location.host` passed in. */
  function Text(p: UrlParts, curProtocol: string, curHost: string): string
  {
    (if p.protocol != "" then p.protocol + "://" else curProtocol + "//")
    + (if p.domain != "" then p.domain else curHost)
    + (if p.port != "" then ":" + p.port else "")
    + (if p.path != "" then p.path else "/")
    + p.query + p.hash
  }

  /** An absolute url with a host and a path prints back unchanged, whatever
      the current page is. */
  lemma AbsoluteRoundTrip(scheme: string, host: string, port: string, path: string,
                          query: string, hash: string, curProtocol: string, curHost: string)
    requires scheme in {"file", "http", "https"}
    requires host != "" && NoneOf(host, {'/', '?', '#', ':'}) && NoneOf(port, {'/', '?', '#', ':'})
    requires NoneOf(path, {'?', '#'}) && path != "" && path[0] == '/'
    requires NoneOf(query, {'#'}) && (query == "" || query[0] == '?')
    requires hash == "" || hash[0] == '#'
    ensures var url := scheme + "://" + HostText(host, port) + path + query + hash;
            Text(Parse(url), curProtocol, curHost) == url
  {
    var url := scheme + "://" + HostText(host, port) + path + query + hash;
    var p := UrlParts(scheme, host, port, path, query, hash);
    ParseAbsolute(scheme, host, port, path, query, hash);
    assert Parse(url) == p;
    TextOfParts(p, curProtocol, curHost);
  }

  /** The text of a url that has a protocol, a domain and a path. */
  lemma TextOfParts(p: UrlParts, curProtocol: string, curHost: string)
    requires p.protocol != "" && p.domain != "" && p.path != ""
    ensures Text(p, curProtocol, curHost)
            == p.protocol + "://" + HostText(p.domain, p.port) + p.path + p.query + p.hash
  {
  }

  /** A url given by its path alone prints with the current page's protocol
      and host in front of it. */
  lemma RelativeText(url: string, curProtocol: string, curHost: string)
    requires url != "" && url[0] == '/'
    ensures Text(Parse(url), curProtocol, curHost) == curProtocol + "//" + curHost + url
  {
    ParseRelative(url);
    TextRelative(Parse(url), curProtocol, curHost);
  }

  /** The text of a url with only a path, a query and a hash. */
  lemma TextRelative(p: UrlParts, curProtocol: string, curHost: string)
    requires p.protocol == "" && p.domain == "" && p.port == "" && p.path != ""
    ensures Text(p, curProtocol, curHost) == curProtocol + "//" + curHost + (p.path + p.query + p.hash)
  {
    assert Text(p, curProtocol, curHost) == curProtocol + "//" + curHost + "" + p.path + p.query + p.hash;
  }

  // ---------------------------------------------------------------------
  // Queries and matching

  /** A query built by `setQueryObject` from a flat object of plain strings
      reads back, flat, as that object. */
  lemma QueryRoundTrip(data: Fields<Value>)
    requires FlatPlain(data)
    ensures FlatDecodeSpec("?" + EncodeSpec(data)) == data
  {
    FlatRoundTrip(data);
    var qs := EncodeSpec(data);
    assert RemoveFirst("?" + qs, '?') == qs;
    if qs == "" {
      assert QueryParts("?" + qs) == [""];
    }
  }

  /** What `match` returns: a boolean, or the object of named parameters
      (an object is truthy even when it is empty). */
  datatype UrlMatch = Same(b: bool) | Named(params: Fields<string>)

  predicate Matched(m: UrlMatch)
  {
    m.Named? || m.b
  }

  class Url {
    var protocol: string
    var domain: string
    var port: string
    var path: string
    var query: string
    var hash: string

    function Parts(): UrlParts
      reads this
    {
      UrlParts(protocol, domain, port, path, query, hash)
    }

    /** `new Url(string)`: reads the parts with the url pattern, then splits
        a domain holding `:` into domain and port. */
    constructor (url: string)
      ensures Parts() == Parse(url)
    {
      var n := ProtocolSpan(url);
      var g := GroupsAt(url, n);
      protocol := ProtocolName(url, n);
      domain := g.host;
      path := g.path;
      query := g.query;
      hash := g.hash;
      port := "";
      if ':' in g.host {
        var pieces := Split(g.host, {':'});
        SplitSeveral(g.host, {':'});
        domain := pieces[0];
        port := pieces[1];
      }
    }

    /** `new Url(other)`: copies every part. */
    constructor Copy(other: Url)
      ensures Parts() == other.Parts()
    {
      protocol := other.protocol;
      domain := other.domain;
      query := other.query;
      path := other.path;
      port := other.port;
      hash := other.hash;
    }

    function ToString(curProtocol: string, curHost: string): string
      reads this
    {
      Text(Parts(), curProtocol, curHost)
    }

    /** `withoutHash()`: a new url equal to this one but for an empty hash;
        this one is left as it is. */
    method WithoutHash() returns (hashless: Url)
      ensures fresh(hashless)
      ensures hashless.Parts() == Parts().(hash := "")
    {
      hashless := new Url.Copy(this);
      hashless.hash := "";
    }

    /** `queryObject(nested)`: the query decoded flat, or nested. */
    method QueryObject(nested: bool) returns (r: Result<Fields<Value>>)
      ensures nested ==> r == NestedDecodeSpec(query)
      ensures !nested ==> r == Success(FlatDecodeSpec(query))
    {
      if nested {
        r := NestedDecode(query);
      } else {
        var obj := FlatDecode(query);
        r := Success(obj);
      }
    }

    /** `setQueryObject(params)`: replaces the query by `?` and the encoded
        object, and returns this url. */
    method SetQueryObject(params: Fields<Value>) returns (self: Url)
      modifies this
      ensures self == this
      ensures Parts() == old(Parts()).(query := "?" + EncodeSpec(params))
    {
      var qs := Encode(params);
      query := "?" + qs;
      self := this;
    }

    /** `match(url)`: without parameters in this path, whether the two paths
        are equal; with them, the named captures when `other`'s path fits
        the pattern (a repeated name keeps its last capture), else false. */
    method Match(other: Url) returns (m: UrlMatch)
      ensures Matched(m) <==> MatchTokens(Tokenize(path), other.path).Some?
      ensures ParamNames(Tokenize(path)) == [] ==> m == Same(path == other.path)
      ensures ParamNames(Tokenize(path)) != [] ==>
                (m.Named? <==> MatchTokens(Tokenize(path), other.path).Some?) &&
                (!m.Named? ==> m == Same(false))
      ensures m.Named? ==>
                var names := ParamNames(Tokenize(path));
                var caps := MatchTokens(Tokenize(path), other.path).value;
                |caps| == |names| &&
                (forall k :: k in Keys(m.params) <==> k in names) &&
                (forall i :: 0 <= i < |names| && names[i] !in names[i + 1..] ==>
                   Get(m.params, names[i]) == Some(caps[i]))
    {
      var toks := Tokenize(path);
      var names := ParamNames(toks);
      if names == [] {
        RenderTokenize(path);
        LiteralMatch(toks, other.path);
        return Same(path == other.path);
      }
      var caps := MatchTokens(toks, other.path);
      if caps.Some? {
        var params := BindParams(names, caps.value);
        m := Named(params);
      } else {
        m := Same(false);
      }
    }
  }
}

=== FILE: utils.dfy ===
/** The client-side helpers of `Refl/src/locflow/utils.js` that do not touch
    the DOM: the class-tag tests, `mergeObjects` and `extractBody`. */
module Utils {
  import opened Wrappers
  import opened Strings
  import opened JsValues

  /** `Object.prototype.toString.call(v) === '[object Array]'`. */
  predicate IsArray(v: Value) { v.Arr? }

  /** `Object.prototype.toString.call(v) === '[object String]'`. */
  predicate IsString(v: Value) { v.Str? }

  /** `Object.prototype.toString.call(v) === '[object Object]'`. */
  predicate IsObject(v: Value) { v.Obj? }

  /** No value carries two of the three class tags, and `null`, `undefined`,
      booleans, numbers and built-in objects carry none. */
  lemma TagsExclusive(v: Value)
    ensures !(IsArray(v) && IsString(v)) && !(IsArray(v) && IsObject(v)) && !(IsString(v) && IsObject(v))
    ensures (v.Undefined? || v.Null? || v.Bool? || v.Num? || v.Builtin?) ==>
              !IsArray(v) && !IsString(v) && !IsObject(v)
  {
  }

  /** What `for (k in v)` visits for the arguments `mergeObjects` accepts: a
      plain object's fields, nothing for `null` or `undefined`. */
  predicate Enumerable(v: Value)
  {
    (v.Obj? && DistinctKeys(v.fields)) || Nullish(v)
  }

  function Props(v: Value): Fields<Value>
  {
    if v.Obj? then v.fields else []
  }

  /** The fields `mergeObjects` builds: `secnd`'s written first, then
      `first`'s written over them. */
  function Merged(first: Value, secnd: Value): Fields<Value>
  {
    PutAll(PutAll([], Props(secnd)), Props(first))
  }

  /** The merge holds each key once; it has exactly the keys of both
      arguments, and a key takes `first`'s value when `first` has it. */
  lemma MergedFields(first: Value, secnd: Value, k: string)
    requires Enumerable(first) && Enumerable(secnd)
    ensures DistinctKeys(Merged(first, secnd))
    ensures k in Keys(Merged(first, secnd)) <==> k in Keys(Props(first)) || k in Keys(Props(secnd))
    ensures Get(Merged(first, secnd), k) ==
            (if k in Keys(Props(first)) then Get(Props(first), k) else Get(Props(secnd), k))
  {
    PutAllTwice(Props(first), Props(secnd), k);
  }

  lemma PutAllTwice(f: Fields<Value>, g: Fields<Value>, k: string)
    requires DistinctKeys(f) && DistinctKeys(g)
    ensures DistinctKeys(PutAll(PutAll([], g), f))
    ensures k in Keys(PutAll(PutAll([], g), f)) <==> k in Keys(f) || k in Keys(g)
    ensures Get(PutAll(PutAll([], g), f), k) == if k in Keys(f) then Get(f, k) else Get(g, k)
  {
    var base := PutAll([], g);
    GetPutAll(base, f, k);
    GetPutAll([], g, k);
    KeysPutAll(base, f, k);
    KeysPutAll([], g, k);
  }

  /** `mergeObjects(first, secnd)`: copies `secnd`'s fields, then `first`'s,
      into a new object, one `for (attr in ...)` loop each. The arguments are
      values, so neither is changed. */
  method MergeObjects(first: Value, secnd: Value) returns (merged: Value)
    requires Enumerable(first) && Enumerable(secnd)
    ensures merged == Obj(Merged(first, secnd))
  {
    var ff, sf := Props(first), Props(secnd);
    var m: Fields<Value> := [];
    var i := 0;
    while i < |sf|
      invariant 0 <= i <= |sf|
      invariant m == PutAll([], sf[..i])
    {
      PutAllStep([], sf, i);
      m := Put(m, sf[i].0, sf[i].1);
      i := i + 1;
    }
    assert sf[..|sf|] == sf;
    var base := m;
    i := 0;
    while i < |ff|
      invariant 0 <= i <= |ff|
      invariant m == PutAll(base, ff[..i])
    {
      PutAllStep(base, ff, i);
      m := Put(m, ff[i].0, ff[i].1);
      i := i + 1;
    }
    assert ff[..|ff|] == ff;
    merged := Obj(m);
  }

  /** `pat` (written in lower case) occurs in `s` at `i`, ignoring case:
      compared one character at a time. */
  predicate MatchesAt(s: string, i: int, pat: string)
    decreases |pat|
  {
    0 <= i && i + |pat| <= |s| &&
    (pat == [] || (Lower(s[i]) == pat[0] && MatchesAt(s, i + 1, pat[1..])))
  }

  /** A match is `pat` read, lower-cased, from `s` at `i`. */
  lemma {:induction false} MatchesAtChars(s: string, i: int, pat: string)
    ensures MatchesAt(s, i, pat) <==>
            0 <= i && i + |pat| <= |s| && forall k :: 0 <= k < |pat| ==> Lower(s[i + k]) == pat[k]
    decreases |pat|
  {
    if pat != [] && 0 <= i && i + |pat| <= |s| {
      MatchesAtChars(s, i + 1, pat[1..]);
      if forall k :: 0 <= k < |pat| ==> Lower(s[i + k]) == pat[k] {
        forall k | 0 <= k < |pat| - 1 ensures Lower(s[i + 1 + k]) == pat[1..][k] {
          assert Lower(s[i + (k + 1)]) == pat[k + 1];
        }
      }
    }
  }

  /** The first occurrence of `pat` in `s` at or after `from`, ignoring case. */
  function FindFrom(s: string, pat: string, from: nat): (r: Option<nat>)
    ensures r.Some? ==> from <= r.value && r.value + |pat| <= |s|
    decreases |s| - from
  {
    if from + |pat| > |s| then None
    else if MatchesAt(s, from, pat) then Some(from)
    else FindFrom(s, pat, from + 1)
  }

  /** `FindFrom` finds a match, and none between `from` and it; `None`
      means there is no match at or after `from`. */
  lemma {:induction false} FindFromSpec(s: string, pat: string, from: nat)
    ensures FindFrom(s, pat, from).Some? ==> MatchesAt(s, FindFrom(s, pat, from).value, pat)
    ensures forall j :: from <= j && (FindFrom(s, pat, from).None? || j < FindFrom(s, pat, from).value) ==>
              !MatchesAt(s, j, pat)
    decreases |s| - from
  {
    if from + |pat| <= |s| && !MatchesAt(s, from, pat) {
      FindFromSpec(s, pat, from + 1);
    }
  }

  /** `extractBody(html)`: the text of the first match of
      `/<body[\s\S]*?>([\s\S]*?)<\/body>/i`, or `""`. The lazy attribute part
      stops at the first `>` after `<body`, the lazy content at the first
      `</body>` after that; if the first `<body` has no such `>` and `</body>`,
      no later `<body` has either. */
  function ExtractBody(html: string): (r: string)
    ensures |r| <= |html|
  {
    match BodyBounds(html)
    case None => ""
    case Some(p) => html[p.0..p.1]
  }

  /** Where the captured group starts and ends, when the pattern matches:
      after the first `>` that follows the first `<body`, and at the first
      `</body>` after that. */
  function BodyBounds(html: string): (r: Option<(nat, nat)>)
    ensures r.Some? ==> r.value.0 <= r.value.1 <= |html|
  {
    match FindFrom(html, "<body", 0)
    case None => None
    case Some(b) =>
      match FindFrom(html, ">", b + 5)
      case None => None
      case Some(g) =>
        match FindFrom(html, "</body>", g + 1)
        case None => None
        case Some(e) => Some((g + 1, e))
  }

  /** The extracted text never holds `</body>`: the lazy content stops at the
      first one. */
  lemma ExtractHasNoClose(html: string)
    ensures forall j :: !MatchesAt(ExtractBody(html), j, "</body>")
  {
    var r := BodyBounds(html);
    if r.Some? {
      BoundsEndAtClose(html);
      NoMatchBeforeFound(html, "</body>", r.value.0, r.value.1);
    }
  }

  /** The captured group ends where the search for `</body>` stops. */
  lemma BoundsEndAtClose(html: string)
    ensures BodyBounds(html).Some? ==>
              FindFrom(html, "</body>", BodyBounds(html).value.0) == Some(BodyBounds(html).value.1)
  {
  }

  /** Between `from` and the first match there is no match, not even in the
      slice on its own. */
  lemma NoMatchBeforeFound(s: string, pat: string, from: nat, e: nat)
    requires pat != [] && FindFrom(s, pat, from) == Some(e)
    ensures forall j :: !MatchesAt(s[from..e], j, pat)
  {
    FindFromSpec(s, pat, from);
    MatchesInSlice(s, from, e, pat);
  }

  /** Whether `pat` matches depends only on the characters it covers. */
  lemma {:induction false} MatchesAtShift(a: string, i: nat, b: string, j: nat, pat: string)
    requires i + |pat| <= |a| && j + |pat| <= |b| && a[i..i + |pat|] == b[j..j + |pat|]
    ensures MatchesAt(a, i, pat) <==> MatchesAt(b, j, pat)
    decreases |pat|
  {
    if pat != [] {
      assert a[i] == a[i..i + |pat|][0];
      assert b[j] == b[j..j + |pat|][0];
      assert a[i + 1..i + |pat|] == a[i..i + |pat|][1..];
      assert b[j + 1..j + |pat|] == b[j..j + |pat|][1..];
      MatchesAtShift(a, i + 1, b, j + 1, pat[1..]);
    }
  }

  /** A match inside a slice is a match in the whole text. */
  lemma MatchesInSlice(s: string, lo: nat, hi: nat, pat: string)
    requires lo <= hi <= |s|
    ensures forall j :: MatchesAt(s[lo..hi], j, pat) <==> 0 <= j && j + |pat| <= hi - lo && MatchesAt(s, lo + j, pat)
  {
    forall j | 0 <= j && j + |pat| <= hi - lo
      ensures MatchesAt(s[lo..hi], j, pat) <==> MatchesAt(s, lo + j, pat)
    {
      var w := s[lo..hi];
      MatchesAtChars(w, j, pat);
      MatchesAtChars(s, lo + j, pat);
      forall k | j <= k < j + |pat| ensures w[k] == s[lo + k] {
      }
    }
  }

  /** `FindFrom` stops at the first match. */
  lemma {:induction false} FindFromFirst(s: string, pat: string, from: nat, i: nat)
    requires from <= i && MatchesAt(s, i, pat)
    requires forall j :: from <= j < i ==> !MatchesAt(s, j, pat)
    ensures FindFrom(s, pat, from) == Some(i)
    decreases i - from
  {
    if from < i {
      FindFromFirst(s, pat, from + 1, i);
    }
  }

  /** A document with no `<body` opening gives `""`. */
  lemma NoBodyTag(html: string)
    requires forall i :: !MatchesAt(html, i, "<body")
    ensures ExtractBody(html) == ""
  {
    FindFromSpec(html, "<body", 0);
  }

  /** Wrapping content that holds no `</body>` in a body element and
      extracting it gives the content back. */
  lemma ExtractWrapped(attrs: string, content: string)
    requires '>' !in attrs
    requires forall j :: !MatchesAt(content, j, "</body>")
    ensures ExtractBody("<body" + attrs + ">" + content + "</body>") == content
  {
    var html := "<body" + attrs + ">" + content + "</body>";
    var g := 5 + |attrs|;
    var e := g + 1 + |content|;
    OpenTagFound(html, attrs, html[g..]);
    TagEnd(html, html[..5], attrs, html[g..]);
    CloseTagFound(html, html[..g + 1], content, "</body>");
    ExtractAt(html, 0, g, e);
    assert html[g + 1..e] == content;
  }

  /** Where the three searches stop decides what is extracted. */
  lemma ExtractAt(html: string, b: nat, g: nat, e: nat)
    requires FindFrom(html, "<body", 0) == Some(b)
    requires FindFrom(html, ">", b + 5) == Some(g)
    requires FindFrom(html, "</body>", g + 1) == Some(e)
    ensures ExtractBody(html) == html[g + 1..e]
  {
    assert BodyBounds(html) == Some((g + 1, e));
  }

  lemma OpenTagFound(html: string, attrs: string, rest: string)
    requires html == "<body" + attrs + rest
    ensures FindFrom(html, "<body", 0) == Some(0)
  {
    assert html[..5] == "<body";
    MatchesAtChars(html, 0, "<body");
    FindFromFirst(html, "<body", 0, 0);
  }

  lemma TagEnd(html: string, head: string, attrs: string, rest: string)
    requires html == head + attrs + rest && '>' !in attrs && |rest| > 0 && rest[0] == '>'
    ensures FindFrom(html, ">", |head|) == Some(|head| + |attrs|)
  {
    forall j | |head| <= j < |head| + |attrs| ensures html[j] != '>' {
      assert html[j] == attrs[j - |head|];
    }
    GreaterFound(html, |head|, |head| + |attrs|);
  }

  /** The first `>` at or after `from` is where the search for `>` stops. */
  lemma GreaterFound(html: string, from: nat, g: nat)
    requires from <= g < |html| && html[g] == '>'
    requires forall j :: from <= j < g ==> html[j] != '>'
    ensures FindFrom(html, ">", from) == Some(g)
  {
    assert MatchesAt(html, g, ">");
    FindFromFirst(html, ">", from, g);
  }

  /** A lower-case pattern whose first character does not recur in it is
      found first where it ends the text, when the text before holds no
      occurrence. */
  lemma CloseTagFound(html: string, head: string, content: string, pat: string)
    requires html == head + content + pat
    requires |pat| > 0 && forall k :: 0 <= k < |pat| ==> Lower(pat[k]) == pat[k]
    requires forall k :: 1 <= k < |pat| ==> pat[k] != pat[0]
    requires forall j :: !MatchesAt(content, j, pat)
    ensures FindFrom(html, pat, |head|) == Some(|head| + |content|)
  {
    NoMatchBefore(html, head, content, pat);
    PatternAtEnd(html, head + content, pat);
    FindFromFirst(html, pat, |head|, |head| + |content|);
  }

  /** No match starts inside `content`: none fits in it, and one reaching
      into `pat` would repeat `pat[0]`. */
  lemma NoMatchBefore(html: string, head: string, content: string, pat: string)
    requires html == head + content + pat
    requires |pat| > 0 && forall k :: 0 <= k < |pat| ==> Lower(pat[k]) == pat[k]
    requires forall k :: 1 <= k < |pat| ==> pat[k] != pat[0]
    requires forall j :: !MatchesAt(content, j, pat)
    ensures forall j :: |head| <= j < |head| + |content| ==> !MatchesAt(html, j, pat)
  {
    forall j | |head| <= j < |head| + |content| ensures !MatchesAt(html, j, pat) {
      if j + |pat| <= |head| + |content| {
        ContentWindow(html, head, content, pat, j);
        MatchesAtShift(html, j, content, j - |head|, pat);
      } else {
        NoMatchAcrossEnd(html, head + content, pat, j);
      }
    }
  }

  /** A lower-case pattern matches where it ends the text. */
  lemma PatternAtEnd(html: string, text: string, pat: string)
    requires html == text + pat && forall k :: 0 <= k < |pat| ==> Lower(pat[k]) == pat[k]
    ensures MatchesAt(html, |text|, pat)
  {
    MatchesAtChars(html, |text|, pat);
    forall k | 0 <= k < |pat| ensures html[|text| + k] == pat[k] {
    }
  }

  /** A window inside `content` reads the same in the whole text. */
  lemma ContentWindow(html: string, head: string, content: string, pat: string, j: nat)
    requires html == head + content + pat
    requires |head| <= j && j + |pat| <= |head| + |content|
    ensures html[j..j + |pat|] == content[j - |head|..j - |head| + |pat|]
  {
  }

  /** A match starting before the end of `text` and reaching past it would
      put `pat[0]` (found right after `text`) at a later position of `pat`. */
  lemma NoMatchAcrossEnd(html: string, text: string, pat: string, j: nat)
    requires html == text + pat
    requires |pat| > 0 && forall k :: 0 <= k < |pat| ==> Lower(pat[k]) == pat[k]
    requires forall k :: 1 <= k < |pat| ==> pat[k] != pat[0]
    requires j < |text| < j + |pat|
    ensures !MatchesAt(html, j, pat)
  {
    MatchesAtChars(html, j, pat);
    var k := |text| - j;
    assert html[j + k] == pat[0];
    assert Lower(pat[0]) == pat[0] != pat[k];
  }
}

=== FILE: wrappers.dfy ===
/** The two failure-carrying datatypes the model uses in place of JavaScript's
    `undefined` results and thrown errors. */
module Wrappers {

  /** `None` stands for JavaScript's `undefined` (a missing key, a skipped value). */
  datatype Option<+T> = None | Some(value: T) {
    function GetOr(default: T): T {
      match this
      case Some(v) => v
      case None => default
    }
  }

  /** `Failure(message)` stands for an `Error` the source throws with that message. */
  datatype Result<+R> = Success(value: R) | Failure(error: string)
}
